=== FILE: README.md ===
# Harpia calculator landing page: lead capture and Gemini proxy

This project models the server-side and form logic behind the Harpia calculator landing page.

- **Lead form.** The browser collects a lead (nome, email, celular, cargo, tamanhoEmpresa). It validates the lead on submit and on every keystroke, and masks the phone field.
- **Lead handlers.** Four handlers accept the lead and pass it on to RD Station:
  - the Vercel function `api/rd-station.js`: token, fields and e-mail format are checked, then a Bearer attempt with an api_key fallback;
  - the Next.js route `pages/api/rd-station.js`: three required fields, three tokens, one events call;
  - the local Express `server.js`: a simulation;
  - `dev-server.js`: a simulation, or one real call.
- **Gemini proxies.** Four routes forward a prompt to Google's Gemini `generateContent` endpoint. Each checks the prompt and the server key, forwards one request, and relays either the upstream body or an error.
- **Browser-side Gemini.** `js/gemini-client.js` checks the key and the prompt, merges generation settings with defaults, and turns upstream failures into typed rejections. `js/gemini-integration.js` lazily initialises the client and extracts the answer text from a response through five fallbacks, the last one a regular expression over the serialized JSON. It also wraps everything into `askGemini` and `sendPrompt`.

Everything is modelled as pure functions.

- **Network results are inputs.** Each upstream `fetch` is an `Http.Outcome`: either a response with status, status text and a body that parsed or failed to parse, or a thrown error with name and message.
- **Outputs are replies plus calls.** A handler returns its reply together with the list of upstream requests it made.
- **JavaScript values** are `Json.Json`, with objects as ordered field lists. The module also defines:
  - JavaScript truthiness;
  - property access through `?.`;
  - `String(x)`;
  - `JSON.stringify`.

  Numbers are integers only (see "## Left out").

Modules follow the source files:

| module | models |
|---|---|
| `Validators`, `LeadForm` | `envia-rd.js` |
| `LeadFields` | the lead record and missing-field lists shared by all four lead handlers |
| `RdGateway` | `api/rd-station.js` |
| `RdPages` | `pages/api/rd-station.js` |
| `ExpressServer` | `server.js` |
| `DevServer` | `dev-server.js` |
| `GeminiProxy` | what the four Gemini routes share |
| `GeminiApi` | `api/gemini.js` |
| `GeminiPages` | `pages/api/gemini.js` |
| `GeminiClient` | `js/gemini-client.js` |
| `GeminiIntegration` | `js/gemini-integration.js` |
| `Variants` | how the lead and Gemini handlers differ from each other |

`Json`, `Text`, `Http` and `Wrappers` are the shared vocabulary.

Where a described behaviour and the code differ, the model follows the code. For example:

- The real-time check in `envia-rd.js` does not test cargo's length (lines 783-788), but the submit check does (lines 134-137). `LeadForm.RealTimeValidThenSubmitValidIffCargoLong` states exactly when the two disagree.
- The Next.js lead route performs no e-mail format check, while the Vercel function does. See `Variants.ProductionStopsMalformedEmail`.

## Model

| member | source | states |
|---|---|---|
| Validators.CountZero | envia-rd.js:31-34 | the count of a character is zero exactly when it does not occur (used for the single `@` of the e-mail pattern) |
| Validators.CountOne | envia-rd.js:31-34 | the count is one exactly when the given position is the only occurrence |
| Validators.IndexOf | envia-rd.js:50 | the position returned by `split('@')` is the first `@` |
| Validators.EmailCheckMatchesPattern | envia-rd.js:31-34 | the character-by-character e-mail check accepts exactly the strings of the form `[^\s@]+@[^\s@]+\.[^\s@]+`: non-space, non-`@` local part, one `@`, and a dot with text on both sides after it |
| Validators.DomainOf | envia-rd.js:50 | the domain is undefined exactly when there is no `@`; otherwise it is the text from just after the first `@` up to the next `@` or the end |
| Validators.DomainOfLower | envia-rd.js:50 | lower-casing the e-mail first gives the lower-cased domain, so the split is taken before or after lower-casing alike |
| Validators.IsCorporateEmail | envia-rd.js:37-58 | an empty e-mail is never corporate; one without `@` (undefined domain) always is; any other is corporate exactly when its lower-cased domain is not one of the 27 personal domains |
| Validators.LowerKeepsAt | envia-rd.js:50 | lower-casing neither creates nor removes `@`, so it does not move the domain split |
| Validators.CorporateOnValidEmail | envia-rd.js:37-58 | for a valid e-mail, corporate means the lower-cased text after its `@` is not one of the 27 personal domains |
| Validators.CorporateIgnoresCase | envia-rd.js:50-57 | the corporate verdict does not depend on the e-mail's letter case |
| Validators.PhoneValidityIgnoresNonDigits | envia-rd.js:61-66 | inserting non-digit characters anywhere never changes whether a phone is valid |
| Validators.FormatPhone | envia-rd.js:69-77 | 11 digits give the mobile layout `(DD) DDDDD-DDDD`, 10 digits the landline layout `(DD) DDDD-DDDD`, and an invalid phone is returned unchanged |
| Validators.FormatPhoneKeepsDigits | envia-rd.js:69-77 | formatting never adds, drops or reorders a digit |
| Validators.FormatPhoneIdempotent | envia-rd.js:69-77 | formatting an already formatted phone changes nothing |
| Validators.FormatPhoneKeepsValidity | envia-rd.js:61-77 | a phone is valid after formatting exactly when it was before |
| Validators.PhoneMaskCharset | envia-rd.js:917-932 | whatever was typed, the masked field holds only digits and the layout characters `( ) -` and space |
| Validators.PhoneMaskKeepsDigits | envia-rd.js:917-932 | the mask keeps the digits typed so far, in order |
| Validators.PhoneMaskIdempotent | envia-rd.js:917-932 | masking an already masked value changes nothing |
| Validators.PhoneMaskAgreesWithFormat | envia-rd.js:69-77 | on a valid phone the input mask and the submit-time formatter produce the same text |
| LeadFields.MissingAmong | envia-rd.js:146-162 | the missing list holds exactly the unfilled fields, drawn from the given list and in form order |
| LeadFields.Missing | envia-rd.js:146-162 | the missing list holds exactly the unfilled fields, in form order, and is empty exactly when every field is filled |
| LeadFields.InFieldOrderUnique | envia-rd.js:146-162 | two field lists in form order with the same members are equal, so the missing list is determined by which fields are missing |
| LeadFields.RankInjective | envia-rd.js:146-151 | distinct fields have distinct positions in the form order |
| LeadFields.MissingIn | api/rd-station.js:68-75 | the missing fields of a request body are exactly those absent or empty in it, in form order |
| LeadFields.MissingKeysNameFalsy | api/rd-station.js:68-82 | a key appears in the `missing_fields` list exactly when it is one of the five field keys and the body's value under it is absent or empty |
| LeadFields.LeadOf | api/rd-station.js:59-75 | a field of the destructured lead is empty exactly when the field is reported missing, and a non-empty one is the body's value for that key |
| LeadFields.LeadJson | server.js:94-109 | the echoed lead object has the five fields, in order, with the lead's values |
| LeadFields.LeadJsonEchoes | server.js:94-109 | looking up any field's key in the echoed lead gives that field's value |
| LeadForm.CollectTrims | envia-rd.js:97-103 | a collected value is empty exactly when its element is absent or all whitespace, and otherwise neither starts nor ends with whitespace |
| LeadForm.ErrorOf | envia-rd.js:107-142 | each field's error is the first of its failing rules: required before malformed before personal for e-mail, required before malformed for celular |
| LeadForm.ErrorsFrom | envia-rd.js:107-142 | the errors collected from a position onward are exactly the chosen errors of those fields, in form order |
| LeadForm.FieldErrors | envia-rd.js:107-142 | each of the eight messages appears exactly when its condition holds, and the messages come in form order |
| LeadForm.CheckForm | envia-rd.js:166-177 | the form is valid exactly when there are no errors, and the data returned carries the formatted phone |
| LeadForm.ValidateLeadForm | envia-rd.js:80-178 | submission stops at the required-field check exactly when some field is empty, naming exactly the empty fields in form order; otherwise the full check runs on the collected data |
| LeadForm.NomeFeedback | envia-rd.js:749-756 | an error is shown for nome exactly when it is non-empty but too short; an empty nome is left untouched |
| LeadForm.EmailFeedback | envia-rd.js:759-769 | an error is shown for e-mail exactly when it is non-empty and either malformed or personal; "Formato de e-mail inválido" exactly for a non-empty malformed address, "Por favor, use um e-mail corporativo" exactly for a well-formed personal one; untouched exactly when empty |
| LeadForm.CelularFeedback | envia-rd.js:772-780 | an error is shown for celular exactly when it is non-empty and malformed |
| LeadForm.SelectFeedback | envia-rd.js:783-796 | a select shows an error exactly when its value is present, non-empty and blank after trimming |
| LeadForm.ValidateFormRealTime | envia-rd.js:798-806 | when a submit button exists it is disabled exactly when the form is not valid; without one nothing is toggled |
| LeadForm.SubmitValidImpliesRealTimeValid | envia-rd.js:740-807 | a form that passes submit validation is also valid in real time |
| LeadForm.RealTimeValidThenSubmitValidIffCargoLong | envia-rd.js:134-137 | a form valid in real time passes submit validation exactly when cargo has at least 2 characters, and otherwise fails only with the cargo error |
| LeadForm.NoErrorsWhenChecksPass | envia-rd.js:107-142 | when every rule passes there are no errors |
| LeadForm.OnlyCargoError | envia-rd.js:134-137 | when only cargo's length rule fails, the single error is the cargo message |
| LeadForm.IsBackendError | envia-rd.js:372-375 | a failure counts as a backend error exactly when its message mentions 404, "Failed to fetch", CORS or ERR_FAILED |
| Text.TrimSpec | envia-rd.js:97-103 | trimming removes exactly a whitespace prefix and suffix, leaves no whitespace at either end, and gives empty exactly on all-whitespace input |
| Text.TrimIdempotent | envia-rd.js:97-103 | trimming twice is trimming once |
| Text.DigitsConcat | envia-rd.js:63 | stripping non-digits distributes over concatenation |
| Text.ContainsIffOccurs | js/gemini-client.js:157 | the substring search succeeds exactly when the text occurs at some position |
| Text.ContainsNeedsChar | js/gemini-client.js:157 | a text lacking any one character of the searched text does not contain it |
| Text.MentionsAny | envia-rd.js:372-375 | some listed word occurs in the text exactly when the check is true |
| Text.Utf16LengthCountsAstral | js/gemini-client.js:45 | a string's UTF-16 length is its code-point count plus the number of code points above U+FFFF |
| Json.OwnKeyOrderSpec | js/gemini-integration.js:204 | `JSON.stringify` writes an object's properties as a permutation of them that puts every array-index name first in ascending order and keeps the others in insertion order; without array-index names nothing moves |
| Json.LookupFinds | api/rd-station.js:59 | a property lookup is undefined exactly when no field has that key, and otherwise finds a field of the object |
| Http.Read | api/rd-station.js:59 | a destructured property is undefined exactly when the body lacks the key, and otherwise some binding of that key holds the value |
| Http.ReadLastBinding | api/rd-station.js:59 | a destructured property is the value of the last binding of its key in the parsed body |
| Http.BodyJsonReads | dev-server.js:78-84 | reading any key from the echoed body gives the string of what the handler read under that key, or undefined when it read nothing |
| RdGateway.EventsWrapConversion | api/rd-station.js:110-124 | the events payload is a CDP CONVERSION event whose payload is the conversion payload itself |
| RdGateway.ConversionCarriesLead | api/rd-station.js:97-107 | each lead field is sent under its RD Station key with the lead's value |
| RdGateway.ConversionIdentified | api/rd-station.js:97-107 | the conversion payload names the landing page's conversion identifier |
| RdGateway.RdStationResponse | api/rd-station.js:240-249 | a non-empty, parsable answer is passed on as parsed; an empty answer becomes `{success: true}`; an unparsable one becomes `{success: true, message: 'Lead enviado com sucesso'}` |
| RdGateway.RdNames | api/rd-station.js:44-53 | the listed environment names are exactly those containing "RD" |
| RdGateway.RdNamesConcat | api/rd-station.js:44-53 | the filter distributes over concatenation and keeps or drops each name on its own, so the listed names keep their environment order |
| RdGateway.Deliver | api/rd-station.js:146-249 | the Bearer attempt is always made first; the api_key attempt follows exactly when the first is not ok; the lead is delivered exactly when one attempt is ok, and the reply carries the normalised body of that attempt; otherwise the failure's status label and details come from the api_key attempt when it answered, and from the Bearer attempt when it threw |
| RdGateway.Handle | api/rd-station.js:21-316 | each reply fires exactly under its condition, in the source's order (preflight, method, token, body, missing fields, e-mail format); upstream calls happen exactly when every check passes, and then the reply is the delivery of the destructured lead |
| RdGateway.SuccessIffSomeAttemptOk | api/rd-station.js:255-276 | the status is 200 exactly for the preflight, or when the checks passed and one attempt was ok |
| RdGateway.FallbackIffBearerNotOk | api/rd-station.js:179-209 | the first call goes to the events URL; the second happens exactly when the first was not ok, and goes to the conversions URL with the token |
| RdPages.PayloadMapsOptionalFields | pages/api/rd-station.js:61-82 | the events payload sends cargo as job_title and tamanhoEmpresa as company_size, under the form's conversion identifier |
| RdPages.Relay | pages/api/rd-station.js:87-120 | an ok, parsable answer is a success carrying the data; a non-ok, parsable one is relayed with its own status; a thrown fetch or an unparsable body ends in the 500 |
| RdPages.Handle | pages/api/rd-station.js:26-120 | each reply fires exactly under its condition (preflight, method, required fields before tokens); exactly one call is made when the request is complete and configured |
| RdPages.OptionalFieldsNeverBlock | pages/api/rd-station.js:40-45 | a body with the three required fields is always sent upstream, even without cargo or tamanhoEmpresa |
| ExpressServer.Gemini | server.js:15-65 | the prompt is checked before the key; one upstream call is made exactly when both are present, and its result is forwarded |
| ExpressServer.RdStation | server.js:68-119 | the answer is 400 with the missing names exactly when a field is missing, and otherwise the simulated success |
| ExpressServer.SimulationEchoesLead | server.js:94-109 | the simulated success echoes every field of the lead |
| DevServer.RdStation | dev-server.js:52-176 | the answer is 400 exactly when a field is missing; the one real call happens exactly when the lead is complete and the simulation switch is on |
| DevServer.CompleteLeadAlwaysSucceeds | dev-server.js:149-175 | a complete lead is always answered 200, whatever the real call returned |
| DevServer.Gemini | dev-server.js:212-286 | the key is checked before the prompt; one upstream call is made exactly when both are present |
| DevServer.RouteOf | dev-server.js:37-302 | every OPTIONS request is the CORS preflight; otherwise each route is chosen exactly for its method and the path before the query string |
| DevServer.PathName | dev-server.js:289-296 | the path is the longest prefix of the URL without `?`, stopping at the first `?` |
| DevServer.RouteIgnoresQuery | dev-server.js:52-302 | appending a query string to a path never changes the route |
| DevServer.Dispatch | dev-server.js:37-302 | every preflight is answered 204 with no body; the index page is the only non-JSON answer; the status route reports the tokens; `POST /api/rd-station` and `POST /api/gemini`, with or without a query string, are answered by the lead and Gemini handlers; anything unmatched is a 404 naming the full URL and listing the endpoints |
| GeminiProxy.PromptBodyCarriesPrompt | server.js:29-37 | the upstream body holds one content with one part whose text is the prompt |
| GeminiProxy.ErrorMessage | api/gemini.js:93 | the error shown is the upstream `error.message` when truthy, otherwise the fixed fallback, so it is never falsy |
| GeminiProxy.Judge | api/gemini.js:80-105 | the upstream call is answered exactly when it was ok and parsable, refused exactly when it was not ok with a non-null parsable body, and otherwise crashes into the catch block |
| GeminiProxy.Forward | api/gemini.js:88-105 | status 200 exactly for an answered call, with the body passed through; a refusal keeps the upstream status and leads with the error message; a crash is 500 |
| GeminiProxy.UpstreamFailureNeverSucceeds | api/gemini.js:88-98 | a non-ok upstream status is never turned into success |
| GeminiApi.Handle | api/gemini.js:27-105 | preflight, health check, 405, then key before prompt; one upstream call exactly when a POST has both |
| GeminiPages.Handle | pages/api/gemini.js:15-98 | the same order as the other Vercel handler, with its own status and 405 bodies |
| GeminiPages.AgreesWithApiHandler | pages/api/gemini.js:15-98 | the two Vercel Gemini handlers agree on every status and every upstream call, and on the whole answer for OPTIONS and POST |
| Variants.TokenCheckedBeforeFieldsOnlyInProduction | api/rd-station.js:41-83 | without a token and with nome missing, the Vercel function answers 500 while the Next.js route answers 400 |
| Variants.ProductionStopsMalformedEmail | api/rd-station.js:85-92 | only the Vercel function rejects a malformed e-mail, with 400 and no upstream call |
| Variants.CompleteBodyPassesNextCheck | pages/api/rd-station.js:40 | a body complete for the five-field check also passes the three-field check |
| Variants.LocalServersAcceptAnyCompleteLead | server.js:94-109 | both local servers answer 200 to any complete lead, even a malformed one |
| Variants.SameMissingFields | dev-server.js:69-85 | the three handlers that list missing fields name the same fields in the same order |
| Variants.PromptAndKeyOrder | server.js:17-27 | with neither prompt nor key, server.js answers 400 while dev-server.js and the Vercel handler answer 500 |
| GeminiClient.Initialize | js/gemini-client.js:18-27 | initialisation succeeds exactly with a truthy key, and the client then holds that key; otherwise it fails with the key-required message |
| GeminiClient.GenerateContent | js/gemini-client.js:35-181 | no call is made exactly when the key, the prompt or its UTF-16 length fails, with the matching message in that order; otherwise exactly one request, and success exactly when it was ok and parsable, carrying the parsed data; an API error exactly for a non-ok, non-zero status with a non-null body, carrying the status, status text, `error.message` or its fallback, `error.details` or its fallback, and `error.code`; every other failure after the call is "service unavailable" exactly for a thrown TypeError mentioning "fetch failed", and otherwise the unexpected error, whose details are the thrown or parse error's message or 'Erro desconhecido', the null-read TypeError's message for a non-ok `null` body, and 'Erro desconhecido' for status 0 |
| GeminiClient.Receive | js/gemini-client.js:107-181 | the outcome of the one request decides the result: success for an ok, parsable answer; the API error with the upstream values for a non-ok, non-zero status and non-null body; service unavailable only for a thrown TypeError mentioning "fetch failed"; the unexpected error otherwise, with details `error.message || 'Erro desconhecido'`: the thrown or parse error's message, the null-read TypeError's message for a non-ok `null` body, and 'Erro desconhecido' for status 0 |
| GeminiClient.NullReadIsNotNetworkFailure | js/gemini-client.js:157 | the TypeError thrown by reading `error` of a null body never mentions "fetch failed", so it is reported as unexpected |
| GeminiClient.InitializedClientPassesKeyCheck | js/gemini-client.js:18-38 | a client that initialisation accepted never fails the key check |
| GeminiClient.NoOverridesKeepDefaults | js/gemini-client.js:53-97 | without a generationConfig object every generation setting is its default |
| GeminiClient.OverrideTakesPrecedence | js/gemini-client.js:79-97 | a setting named in generationConfig overrides its default; one not named keeps it |
| GeminiClient.SafetyIgnoresGenerationConfig | js/gemini-client.js:100-104 | the safety settings depend only on options.safetySettings |
| GeminiClient.DefaultSafetyBlocksNothing | js/gemini-client.js:58-75 | the default safety settings name the four harm categories in order, each with threshold BLOCK_NONE |
| GeminiClient.ThrownApiErrorShows | js/gemini-client.js:128-135 | the thrown API error carries the upstream status and error |
| GeminiClient.ApiErrorIsPassedOn | js/gemini-client.js:167-170 | an API error always passes the catch block's rethrow test and carries the upstream status |
| GeminiIntegration.QuoteFree | js/gemini-integration.js:204 | the run of non-quote characters ends at the first quote or the end |
| GeminiIntegration.MatchAtSpec | js/gemini-integration.js:204-211 | a match at a position succeeds exactly when `"text":"`, a non-empty quote-free text and a closing quote start there |
| GeminiIntegration.MatchFromSpec | js/gemini-integration.js:204-211 | the search finds nothing exactly when no match starts at or after the position, and otherwise returns the leftmost match |
| GeminiIntegration.MatchIsNonEmpty | js/gemini-integration.js:204-211 | a matched text is never empty |
| GeminiIntegration.ExtractText | js/gemini-integration.js:150-218 | a string response is returned unchanged and `null` gives the failure message; otherwise a MAX_TOKENS first candidate gives its text with the notice, or the fixed message, whatever else the response holds; then the first truthy of the candidate text, `response.text` and `content.parts[0].text` wins, in that order; then a model-role candidate gives the no-text message; and only then the pattern runs |
| GeminiIntegration.ExtractTextTruthy | js/gemini-integration.js:150-218 | text extraction never yields a falsy value unless the response itself is the empty string |
| GeminiIntegration.CandidateResponseReads | js/gemini-integration.js:176-183 | the first candidate's part text and finish reason are read back from a candidate response |
| GeminiIntegration.ExtractsCandidateText | js/gemini-integration.js:176-183 | a truthy candidate text is returned as it is when the answer was not truncated |
| GeminiIntegration.MarksTruncatedText | js/gemini-integration.js:160-173 | a MAX_TOKENS answer gets the truncation notice appended, or the fixed message when it has no text |
| GeminiIntegration.PatternFallback | js/gemini-integration.js:204-217 | the last resort always yields a non-empty string: the text of the first match in the serialized response, written in `JSON.stringify`'s own-key order, or the failure message |
| GeminiIntegration.FallbackFindsPartText | js/gemini-integration.js:204-211 | when only a bare part list carries the text, the regular-expression fallback still finds it |
| GeminiIntegration.IndexKeyFirst | js/gemini-integration.js:204-211 | for `{"z": {text: a}, "5": {text: b}}`, with a and b needing no escaping and b non-empty, the answer is b: the array-index name "5" is serialized before "z" |
| GeminiIntegration.FallbackReadsIndexKeysFirst | js/gemini-integration.js:204-211 | the same for a = "A" and b = "B": the answer is "B" |
| GeminiIntegration.LoadKey | js/gemini-integration.js:13-59 | a key is loaded exactly when the configuration answer was ok and parsable with a truthy geminiApiKey, and the key is that geminiApiKey |
| GeminiIntegration.InitializeIffKeyLoaded | js/gemini-integration.js:62-80 | the client is initialised exactly when a key was loaded, and holds that key |
| GeminiIntegration.Unanswer | js/gemini-integration.js:124-136 | the reported error is the failure's `error` when truthy, otherwise the fixed message; the details are the failure's `details`, else its `message`, else "Erro desconhecido" |
| GeminiIntegration.AskGemini | js/gemini-integration.js:88-143 | an existing client is used, otherwise one is initialised; without a client no call is made and the initialisation failure is reported; otherwise the client's calls are made, a rejection reaches the page as `{success: false, error, details}` built from the rejection value, and falsy data as the 'Resposta inválida da API Gemini' failure; every failure's error and details are truthy |
| GeminiIntegration.AnsweredIffData | js/gemini-integration.js:106-123 | the reply is an answer exactly when a call succeeded with truthy parsed data, and its text is what extraction finds in that data |
| GeminiIntegration.ClientIsReused | js/gemini-integration.js:90-96 | once a client exists, the configuration is not consulted and the client is kept |
| GeminiIntegration.RefusalBecomesDetails | js/gemini-integration.js:124-136 | a client-side refusal reaches the page with the fixed error and its message (or "Erro desconhecido") as details |
| GeminiIntegration.SendPrompt | js/gemini-integration.js:236-273 | sendPrompt asks with no settings; a failure's thrown message is `String(response.error)` of the unanswered reply, and its error is that message or 'Erro ao processar a requisição', never empty |
| GeminiIntegration.TextIffAnswered | js/gemini-integration.js:251-256 | sendPrompt returns text exactly when the request was answered, and returns that answer's text |
| GeminiIntegration.SendPromptUsesDefaults | js/gemini-integration.js:244-249 | every call from sendPrompt uses the default generation and safety settings |

## Left out

- **Page behaviour.**
  - The DOM, event listeners, CSS classes, alerts (including the missing-fields alert text), loading spinners, callbacks (`onStart`, `onSuccess`, `onError`, `onComplete`) and timers are not modelled.
  - The form model starts from the element values it reads (`FormInput`). It ends at the validation verdict and the text shown.
- **Network and environment.**
  - Every `fetch` result is an input of type `Http.Outcome`, and environment variables are inputs too.
  - Nothing is sent or received.
  - Headers apart from the upstream request's own, timeouts and retries are not modelled.
- **Logging and volatile values.** Console logging, timestamps, `responseTime`, request ids and the token-prefix debug field are dropped from every body. They are either non-deterministic or diagnostics.
- **CORS.** The headers are not modelled; only the preflight status is. In `dev-server.js` the `cors()` middleware answers every OPTIONS request, on any path, with 204 and no body.
- **Static files.**
  - The static file serving in both local servers is left out.
  - So is the HTML of the dev server's index route, which is `None` in `DevServer.Dispatch`.
- **Request bodies.**
  - Only string-valued fields are modelled.
  - A body that is an array, or that has non-string prompt values, is not modelled.
  - Express always supplies an object body, and the Vercel handlers may see none.
- RdGateway.Deliver: the second `response.text()` call on an already-read body is not modelled. The first attempt's body text stands in for the details string.
- **Configuration.**
  - The configuration endpoints and `window.AppConfig` are not modelled.
  - `GeminiIntegration.LoadKey` takes the configuration answer as an input and models only the check on it.
- **Generation settings.**
  - The defaults (0.7, 0.95, 40, 4096) are decimals kept as units and scale.
  - No arithmetic or floating-point behaviour is modelled on them.
  - Serializing the settings into the request body is not modelled: `GeminiClient.RequestFor` keeps them as a record.
- GeminiIntegration.SendPrompt: the `details` field of the thrown error is the engine's stack trace text. The model keeps only the error's message.
- GeminiClient.GenerateContent: the success object's `metadata` (the model name 'gemini-2.5-flash', the timestamp, the request id and the response time) and the API error's `requestId` are not modelled; the success result carries only the parsed data.
- GeminiClient.GenerateContent: `options` is always an object. With a `null` options argument the source runs the key, prompt and length checks first; only then does reading `options.generationConfig` throw a TypeError. That read is outside the `try`, so the promise rejects with the raw TypeError rather than the unexpected-error object. This path is not modelled.
- **Letter case.**
  - `toLowerCase` is modelled for ASCII letters and the Kelvin sign only.
  - Every personal domain is ASCII, so the verdict of `isCorporateEmail` is exact for any input whose lower-cased domain could match.
  - Other Unicode case mappings are not modelled.
- **JSON.** Objects with duplicate keys are serialized with every binding, where a JavaScript object keeps only the last. The property lookup finds the last occurrence, as a JavaScript object literal would. Property order follows section 10.1.11.1 of ECMA-262 (array-index names first, ascending, then insertion order); symbol keys do not occur in parsed JSON.
- **Numbers.** `Json.JNum` holds an unbounded integer. The model agrees with the source only for integers of magnitude below 2^53. Not modelled:
  - fractions, such as the `avgLogprobs` of a real Gemini candidate, or `String(0.5)`;
  - the exponent form that `String` and `JSON.stringify` write from 1e21 up, such as "1e+21";
  - the rounding by `JSON.parse` of integers beyond 2^53.

  The fallback pattern cannot start or end inside a number, and every status code is small. So these omissions do not change which text `GeminiIntegration.PatternFallback` finds or which status a handler answers.
- **Response bodies.** An `Http.Body` is taken as given. Nothing ties an empty `text` to `Unparsable`, although `response.json()` never parses the empty text. Callers are expected to pass consistent bodies.
- **Other files.** The health/debug endpoints (`check-env`, `auth-test`, `config`), the test scripts, analytics, button and footer scripts, and the Vite configuration are not part of this model.

=== FILE: dev_server.dfy ===
/** The development server (dev-server.js): its route table with the 404
    fallback, the status route, a lead route that always ends in success
    once the fields are present (optionally after a real RD Station call),
    and a Gemini route that checks the key before the prompt. */
module DevServer {
  import opened Wrappers
  import opened Json
  import opened Text
  import opened Http
  import opened LeadFields
  import opened GeminiProxy

  /** The three RD Station tokens read from the environment at start-up. */
  datatype Tokens = Tokens(instance: Option<string>, public: Option<string>, private: Option<string>)

  const EventsUrl := "https://api.rd.services/platform/events"

  /** The payload of the optional real call; its custom fields are named
      differently from the production handler's. */
  function RealCallPayload(l: Lead): Json {
    JObj([
      ("event_type", JStr("CONVERSION")),
      ("event_family", JStr("CDP")),
      ("payload", JObj([
        ("conversion_identifier", JStr("Lead-Calculadora-ROI")),
        ("name", JStr(l.nome)),
        ("email", JStr(l.email)),
        ("personal_phone", JStr(l.celular)),
        ("cargo_", JStr(l.cargo)),
        ("tamanho_de_empresa", JStr(l.tamanhoEmpresa)),
        ("cf_origem", JStr("Calculadora de Custos")),
        ("traffic_source", JStr("Calculadora Harpio"))
      ]))
    ])
  }

  /** The real call authenticates with the INSTANCE token; a missing token
      is interpolated as the text "undefined". */
  function RealCallRequest(tokens: Tokens, l: Lead): Request {
    Request(EventsUrl,
            [("Content-Type", "application/json"),
             ("Authorization", "Bearer " + tokens.instance.GetOr("undefined")),
             ("User-Agent", "Calculadora-Harpio-Dev/1.0")],
            RealCallPayload(l))
  }

  /** The 400 body of the lead route (its timestamp left out). */
  function IncompleteBody(missing: seq<Field>, received: RequestBody): Json {
    JObj([("error", JStr("Dados incompletos")), ("message", JStr("Todos os campos são obrigatórios")),
          ("missing_fields", Strings(Keys(missing))), ("received_data", BodyJson(received))])
  }

  /** The simulated success body (its timestamp left out). */
  function SimulatedBody(l: Lead): Json {
    JObj([("success", JBool(true)), ("message", JStr("Lead enviado com sucesso (simulado)")),
          ("method_used", JStr("Simulação Local")),
          ("data", JObj([("conversion_identifier", JStr("Lead-Calculadora-ROI")),
                         ("lead_data", LeadJson(l)),
                         ("rd_station_response", JObj([("simulated", JBool(true))]))]))])
  }

  /** The success body of an ok real call: the raw response text and the
      request body as received. */
  function RealCallBody(received: RequestBody, responseText: string): Json {
    JObj([("success", JBool(true)), ("message", JStr("Lead enviado com sucesso para RD Station (chamada real)")),
          ("data", JObj([("conversion_identifier", JStr("Lead-Calculadora-ROI")),
                         ("lead_data", BodyJson(received)), ("rd_response", JStr(responseText)),
                         ("real_call", JBool(true))]))])
  }

  /** `POST /api/rd-station`. `simulateRealCall` is the handler's
      `SIMULATE_REAL_CALL` switch (fixed to false in the source). */
  function RdStation(tokens: Tokens, simulateRealCall: bool, body: RequestBody, upstream: Outcome): (x: Exchange)
    ensures x.response.status == 400 <==> MissingIn(body) != []
    ensures x.response.status == 400 ==> x.response.body == Some(IncompleteBody(MissingIn(body), body))
    ensures x.response.status != 400 ==> x.response.status == 200
    ensures x.calls != [] <==> MissingIn(body) == [] && simulateRealCall
    ensures x.calls != [] ==> x.calls == [RealCallRequest(tokens, LeadOf(body))]
    ensures MissingIn(body) == [] && !(simulateRealCall && Succeeded(upstream)) ==>
              x.response == Response(200, Some(SimulatedBody(LeadOf(body))))
  {
    var missing := MissingIn(body);
    if missing != [] then Exchange(Response(400, Some(IncompleteBody(missing, body))), [])
    else
      var l := LeadOf(body);
      var simulated := Response(200, Some(SimulatedBody(l)));
      if !simulateRealCall then Exchange(simulated, [])
      else
        var calls := [RealCallRequest(tokens, l)];
        // a thrown fetch and a non-ok status both end in the local catch,
        // which falls through to the simulated success
        if Succeeded(upstream) then Exchange(Response(200, Some(RealCallBody(body, upstream.body.text))), calls)
        else Exchange(simulated, calls)
  }

  /** Whatever RD Station does, a complete lead is answered with 200. */
  lemma CompleteLeadAlwaysSucceeds(tokens: Tokens, simulateRealCall: bool, body: RequestBody, upstream: Outcome)
    requires MissingIn(body) == []
    ensures RdStation(tokens, simulateRealCall, body, upstream).response.status == 200
  {
  }

  const KeyNotConfiguredHere := JObj([("error", JStr("Configuração do servidor incompleta")),
                                      ("message", JStr("GEMINI_API_KEY não configurada no ambiente"))])

  /** `POST /api/gemini`: key first, then prompt, then the upstream call;
      a refusal also echoes the upstream `error` object as `details`. */
  function Gemini(apiKey: Option<string>, body: RequestBody, upstream: Outcome): (x: Exchange)
    ensures !Filled(apiKey) ==> x.response == Response(500, Some(KeyNotConfiguredHere))
    ensures Filled(apiKey) && !Filled(PromptOf(body)) ==> x.response == Response(400, Some(PromptRequired))
    ensures x.calls != [] <==> Filled(apiKey) && Filled(PromptOf(body))
    ensures x.calls != [] ==>
              x.calls == [ProxyRequest(apiKey.value, PromptOf(body).value)]
              && x.response == Forward(upstream, WithMessage, true)
  {
    if !Filled(apiKey) then Exchange(Response(500, Some(KeyNotConfiguredHere)), [])
    else
      var prompt := PromptOf(body);
      if !Filled(prompt) then Exchange(Response(400, Some(PromptRequired)), [])
      else Exchange(Forward(upstream, WithMessage, true), [ProxyRequest(apiKey.value, prompt.value)])
  }

  /** `GET /api/status` (its timestamp left out). */
  function StatusBody(tokens: Tokens): Json {
    JObj([("status", JStr("online")),
          ("endpoints", JObj([("POST /api/rd-station", JStr("Endpoint para envio de leads")),
                              ("POST /api/gemini", JStr("Endpoint para integração com Gemini AI")),
                              ("GET /api/status", JStr("Verificação de status do servidor"))])),
          ("tokens_configured", JObj([("instance", JBool(Filled(tokens.instance))),
                                      ("public", JBool(Filled(tokens.public))),
                                      ("private", JBool(Filled(tokens.private)))]))])
  }

  const AvailableEndpoints: seq<string> := ["POST /api/rd-station", "POST /api/gemini", "GET /api/status"]

  /** The 404 body of the catch-all (its timestamp left out); `url` is the
      request's original URL, query string included. */
  function NotFoundBody(verb: string, url: string): Json {
    JObj([("error", JStr("Rota não encontrada")), ("method", JStr(verb)), ("path", JStr(url)),
          ("available_endpoints", Strings(AvailableEndpoints))])
  }

  /** The routes in registration order, after the CORS middleware that
      answers every preflight itself. */
  datatype Route = Preflight | LeadRoute | IndexRoute | StatusRoute | GeminiRoute | NotFound

  /** The path of a request URL: everything before the first `?`. */
  function PathName(url: string): (p: string)
    ensures |p| <= |url| && url[..|p|] == p
    ensures '?' !in p
    ensures |p| < |url| ==> url[|p|] == '?'
  {
    if |url| == 0 || url[0] == '?' then "" else [url[0]] + PathName(url[1..])
  }

  /** A query string does not change the path. */
  lemma {:induction false} PathNameOfQuery(path: string, query: string)
    requires '?' !in path
    ensures PathName(path + "?" + query) == path
  {
    if |path| > 0 {
      assert (path + "?" + query)[1..] == path[1..] + "?" + query;
      PathNameOfQuery(path[1..], query);
    }
  }

  /** Express matches the path case-insensitively and accepts one trailing
      slash after a non-root route; a GET route also answers HEAD. */
  predicate PathIs(path: string, route: string) {
    Lower(path) == route || (route != "/" && Lower(path) == route + "/")
  }

  predicate IsGet(verb: string) {
    verb == "GET" || verb == "HEAD"
  }

  /** `cors()` runs before every route and ends each OPTIONS request;
      otherwise the first registered route whose method and path match
      is taken, and anything else reaches the catch-all. */
  function RouteOf(verb: string, url: string): (r: Route)
    ensures r == Preflight <==> verb == "OPTIONS"
    ensures r == LeadRoute <==> verb == "POST" && PathIs(PathName(url), "/api/rd-station")
    ensures r == StatusRoute <==> IsGet(verb) && PathIs(PathName(url), "/api/status")
    ensures r == GeminiRoute <==> verb == "POST" && PathIs(PathName(url), "/api/gemini")
    ensures r == IndexRoute <==> IsGet(verb) && PathIs(PathName(url), "/")
  {
    var path := PathName(url);
    if verb == "OPTIONS" then Preflight
    else if verb == "POST" && PathIs(path, "/api/rd-station") then LeadRoute
    else if IsGet(verb) && PathIs(path, "/") then IndexRoute
    else if IsGet(verb) && PathIs(path, "/api/status") then StatusRoute
    else if verb == "POST" && PathIs(path, "/api/gemini") then GeminiRoute
    else NotFound
  }

  /** Appending a query string never changes the route. */
  lemma RouteIgnoresQuery(verb: string, path: string, query: string)
    requires '?' !in path
    ensures RouteOf(verb, path + "?" + query) == RouteOf(verb, path)
  {
    PathNameOfQuery(path, query);
    PathNamePlain(path);
  }

  /** A URL without a query string is its own path. */
  lemma {:induction false} PathNamePlain(url: string)
    requires '?' !in url
    ensures PathName(url) == url
  {
    if |url| > 0 {
      PathNamePlain(url[1..]);
    }
  }

  /** Every preflight is answered 204 with no body; the lead and Gemini
      routes go to their handlers; every other unmatched request is
      answered 404 naming the three endpoints. */
  function Dispatch(tokens: Tokens, simulateRealCall: bool, geminiKey: Option<string>,
                    verb: string, url: string, body: RequestBody, upstream: Outcome): (x: Option<Exchange>)
    ensures x.None? <==> RouteOf(verb, url) == IndexRoute
    ensures verb == "OPTIONS" ==> x == Some(Exchange(Response(204, None), []))
    ensures RouteOf(verb, url) == NotFound ==>
              x == Some(Exchange(Response(404, Some(NotFoundBody(verb, url))), []))
    ensures RouteOf(verb, url) == StatusRoute ==> x == Some(Exchange(Response(200, Some(StatusBody(tokens))), []))
    ensures RouteOf(verb, url) == LeadRoute ==> x == Some(RdStation(tokens, simulateRealCall, body, upstream))
    ensures RouteOf(verb, url) == GeminiRoute ==> x == Some(Gemini(geminiKey, body, upstream))
  {
    match RouteOf(verb, url)
    case Preflight => Some(Exchange(Response(204, None), []))
    case LeadRoute => Some(RdStation(tokens, simulateRealCall, body, upstream))
    case IndexRoute => None
    case StatusRoute => Some(Exchange(Response(200, Some(StatusBody(tokens))), []))
    case GeminiRoute => Some(Gemini(geminiKey, body, upstream))
    case NotFound => Some(Exchange(Response(404, Some(NotFoundBody(verb, url))), []))
  }
}

=== FILE: express_server.dfy ===
/** The local Express server (server.js): a Gemini route that checks the
    prompt before the key, and a lead route that validates the five fields
    and answers with a simulated success without calling RD Station. The
    request body is always an object here (the JSON body parser defaults it
    to `{}`). */
module ExpressServer {
  import opened Wrappers
  import opened Json
  import opened Http
  import opened LeadFields
  import opened GeminiProxy

  /** `POST /api/gemini`. */
  function Gemini(apiKey: Option<string>, body: RequestBody, upstream: Outcome): (x: Exchange)
    ensures !Filled(PromptOf(body)) ==> x.response == Response(400, Some(PromptRequired))
    ensures Filled(PromptOf(body)) && !Filled(apiKey) ==> x.response == Response(500, Some(KeyNotConfigured))
    ensures x.calls != [] <==> Filled(PromptOf(body)) && Filled(apiKey)
    ensures x.calls != [] ==>
              x.calls == [ProxyRequest(apiKey.value, PromptOf(body).value)]
              && x.response == Forward(upstream, WithDetails, false)
  {
    var prompt := PromptOf(body);
    if !Filled(prompt) then Exchange(Response(400, Some(PromptRequired)), [])
    else if !Filled(apiKey) then Exchange(Response(500, Some(KeyNotConfigured)), [])
    else Exchange(Forward(upstream, WithDetails, false), [ProxyRequest(apiKey.value, prompt.value)])
  }

  /** The 400 body of the lead route (its timestamp left out). */
  function IncompleteBody(missing: seq<Field>): Json {
    JObj([("error", JStr("Dados incompletos")), ("message", JStr("Todos os campos são obrigatórios")),
          ("missing_fields", Strings(Keys(missing)))])
  }

  /** The simulated success: the five fields echoed back under `data`. */
  function SimulatedBody(l: Lead): Json {
    JObj([("success", JBool(true)), ("message", JStr("Lead enviado com sucesso (simulado)")),
          ("method_used", JStr("Simulação Local")), ("data", LeadJson(l))])
  }

  /** `POST /api/rd-station`: 400 with the missing-field list, otherwise 200
      echoing the lead. No e-mail check, no upstream call. */
  function RdStation(body: RequestBody): (r: Response)
    ensures r.status == 400 <==> MissingIn(body) != []
    ensures r.status == 400 ==> r.body == Some(IncompleteBody(MissingIn(body)))
    ensures r.status != 400 ==> r.status == 200 && r.body == Some(SimulatedBody(LeadOf(body)))
  {
    var missing := MissingIn(body);
    if missing != [] then Response(400, Some(IncompleteBody(missing)))
    else Response(200, Some(SimulatedBody(LeadOf(body))))
  }

  /** A complete body's fields come back unchanged in the success body. */
  lemma SimulationEchoesLead(body: RequestBody, f: Field)
    requires MissingIn(body) == []
    ensures RdStation(body).body.value.fields[3].1.JObj?
    ensures Lookup(RdStation(body).body.value.fields[3].1.fields, f.Key()) == Some(JStr(Value(body, f).value))
  {
    assert f !in MissingIn(body);
    LeadJsonEchoes(LeadOf(body), f);
  }
}

=== FILE: gemini_api.dfy ===
/** The Vercel Gemini proxy (api/gemini.js): preflight, a GET health check,
    POST only otherwise, then the key, the prompt and the upstream call. */
module GeminiApi {
  import opened Wrappers
  import opened Json
  import opened Http
  import opened GeminiProxy

  /** The GET health-check body (its timestamp left out). */
  function HealthBody(verb: string): Json {
    JObj([("ok", JBool(true)), ("message", JStr("Gemini API online")), ("method", JStr(verb))])
  }

  function Handle(verb: string, apiKey: Option<string>, body: Option<RequestBody>, upstream: Outcome): (x: Exchange)
    ensures verb == "OPTIONS" ==> x.response == Response(200, None)
    ensures verb == "GET" ==> x.response == Response(200, Some(HealthBody(verb)))
    ensures verb != "OPTIONS" && verb != "GET" && verb != "POST" ==> x.response.status == 405
    ensures verb == "POST" && !Filled(apiKey) ==> x.response == Response(500, Some(KeyNotConfigured))
    ensures verb == "POST" && Filled(apiKey) && body.None? ==> x.response.status == 500
    ensures verb == "POST" && Filled(apiKey) && body.Some? && !Filled(PromptOf(body.value)) ==>
              x.response == Response(400, Some(PromptRequired))
    ensures |x.calls| <= 1
    ensures x.calls != [] <==> verb == "POST" && Filled(apiKey) && body.Some? && Filled(PromptOf(body.value))
    ensures x.calls != [] ==>
              x.calls == [ProxyRequest(apiKey.value, PromptOf(body.value).value)]
              && x.response == Forward(upstream, Bare, false)
  {
    if verb == "OPTIONS" then Exchange(Response(200, None), [])
    else if verb == "GET" then Exchange(Response(200, Some(HealthBody(verb))), [])
    else if verb != "POST" then Exchange(Response(405, Some(JObj([("error", JStr("Método não permitido"))]))), [])
    else if !Filled(apiKey) then Exchange(Response(500, Some(KeyNotConfigured)), [])
    else if body.None? then
      // destructuring `req.body` throws; the catch block answers
      Exchange(Response(500, Some(CrashBody(Bare, DestructureUndefinedMessage("prompt", "req.body")))), [])
    else
      var prompt := PromptOf(body.value);
      if !Filled(prompt) then Exchange(Response(400, Some(PromptRequired)), [])
      else Exchange(Forward(upstream, Bare, false), [ProxyRequest(apiKey.value, prompt.value)])
  }
}

=== FILE: gemini_client.dfy ===
/** The browser-side Gemini client (js/gemini-client.js): a key given once
    to `initialize`, and `generateContent`, which checks the key and the
    prompt, merges the caller's generation settings over the defaults,
    makes one call, and turns every failure into one of three thrown
    shapes. */
module GeminiClient {
  import opened Wrappers
  import opened Json
  import opened Text
  import opened Http
  import GeminiProxy

  const MaxPromptLength := 10000

  const KeyRequired := "API Key é obrigatória para inicializar o cliente Gemini"
  const NotInitialized := "Cliente não inicializado. Chame initialize() primeiro com uma API Key válida"
  const PromptRequired := "Prompt é obrigatório"
  const PromptTooLong := "O prompt é muito longo (máx 10000 caracteres)"

  const Unavailable := "Serviço indisponível"
  const UnavailableDetails := "Não foi possível conectar ao serviço do Gemini. Verifique sua conexão com a internet."
  const UnexpectedError := "Erro ao processar requisição"
  const UnknownError := "Erro desconhecido"
  const NoDetails := "Sem detalhes adicionais"

  /** A client and the key it holds (`null` until `initialize`). */
  datatype Client = Client(apiKey: Json)

  /** `new GeminiClient()`. */
  const Fresh := Client(JNull)

  /** `initialize(apiKey)`: a falsy key throws, any other key is kept. */
  function Initialize(apiKey: Json): (r: Result<Client, string>)
    ensures r.Success? <==> Truthy(apiKey)
    ensures r.Success? ==> r.value.apiKey == apiKey && Truthy(r.value.apiKey)
    ensures r.Failure? ==> r.error == KeyRequired
  {
    if Truthy(apiKey) then Success(Client(apiKey)) else Failure(KeyRequired)
  }

  /** A decimal literal of the source: `units` × 10^-`scale`, so 0.7 is
      `Decimal(7, 1)`. */
  datatype Decimal = Decimal(units: int, scale: nat)

  /** The four generation settings the request carries. */
  datatype Knob = Temperature | TopP | TopK | MaxOutputTokens {
    function Key(): string {
      match this
      case Temperature => "temperature"
      case TopP => "topP"
      case TopK => "topK"
      case MaxOutputTokens => "maxOutputTokens"
    }

    /** The value in `defaultConfig`. */
    function Default(): Decimal {
      match this
      case Temperature => Decimal(7, 1)
      case TopP => Decimal(95, 2)
      case TopK => Decimal(40, 0)
      case MaxOutputTokens => Decimal(4096, 0)
    }
  }

  /** One setting as sent: the built-in default, or the value the caller's
      `options.generationConfig` gave for it. */
  datatype Setting = Preset(number: Decimal) | Given(value: Json)

  datatype GenerationConfig =
    GenerationConfig(temperature: Setting, topP: Setting, topK: Setting, maxOutputTokens: Setting)
  {
    function Get(k: Knob): Setting {
      match k
      case Temperature => temperature
      case TopP => topP
      case TopK => topK
      case MaxOutputTokens => maxOutputTokens
    }
  }

  const Defaults := GenerationConfig(Preset(Temperature.Default()), Preset(TopP.Default()),
                                     Preset(TopK.Default()), Preset(MaxOutputTokens.Default()))

  /** The `options` object, as its properties. */
  type Options = seq<(string, Json)>

  /** `options.generationConfig`. */
  function Overrides(options: Options): Option<Json> {
    Prop(Some(JObj(options)), "generationConfig")
  }

  /** One key of `{ ...defaultConfig, ...options.generationConfig }`: a key
      the spread object has wins (spreading a non-object adds none of the
      four keys). */
  function Effective(options: Options, k: Knob): Setting {
    var v := Prop(Overrides(options), k.Key());
    if v.Some? then Given(v.value) else Preset(k.Default())
  }

  /** The `generationConfig` of the request: only the four settings are
      copied out of the merged object. */
  function Settings(options: Options): GenerationConfig {
    GenerationConfig(Effective(options, Temperature), Effective(options, TopP),
                     Effective(options, TopK), Effective(options, MaxOutputTokens))
  }

  /** `{ category, threshold: 'BLOCK_NONE' }`. */
  function Unblocked(category: string): Json {
    JObj([("category", JStr(category)), ("threshold", JStr("BLOCK_NONE"))])
  }

  const HarmCategories := ["HARM_CATEGORY_HARASSMENT", "HARM_CATEGORY_HATE_SPEECH",
                           "HARM_CATEGORY_SEXUALLY_EXPLICIT", "HARM_CATEGORY_DANGEROUS_CONTENT"]

  const DefaultSafety := JArr([Unblocked("HARM_CATEGORY_HARASSMENT"), Unblocked("HARM_CATEGORY_HATE_SPEECH"),
                               Unblocked("HARM_CATEGORY_SEXUALLY_EXPLICIT"), Unblocked("HARM_CATEGORY_DANGEROUS_CONTENT")])

  /** `options.safetySettings` when truthy, otherwise the defaults. */
  function Safety(options: Options): Json {
    var s := Prop(Some(JObj(options)), "safetySettings");
    if Holds(s) then s.value else DefaultSafety
  }

  /** The one call: the key in the URL, the prompt as the single text
      part, the merged settings and the safety settings. */
  datatype GenerateRequest = GenerateRequest(url: string, prompt: string, config: GenerationConfig, safetySettings: Json)

  function RequestFor(c: Client, prompt: string, options: Options): GenerateRequest {
    GenerateRequest(GeminiProxy.KeyedUrl(JsToString(c.apiKey)), prompt, Settings(options), Safety(options))
  }

  /** What `generateContent` rejects with. */
  datatype Rejection =
    | Refused(message: string)                  // an Error thrown before the call
    | ApiError(status: int, statusText: string, error: Json, details: Json, code: Option<Json>)
    | ServiceUnavailable
    | Unexpected(reason: string)
  {
    /** The rejection value as its readers see it: an `Error` shows its
        `message`, the other three are plain objects. */
    function Thrown(): Json {
      match this
      case Refused(message) => ErrorValue(message)
      case ApiError(status, statusText, error, details, code) =>
        var base := [("status", JNum(status)), ("statusText", JStr(statusText)), ("error", error), ("details", details)];
        JObj(if code.Some? then base + [("code", code.value)] else base)
      case ServiceUnavailable =>
        JObj([("success", JBool(false)), ("error", JStr(Unavailable)), ("details", JStr(UnavailableDetails)),
              ("code", JStr("SERVICE_UNAVAILABLE"))])
      case Unexpected(reason) =>
        JObj([("success", JBool(false)), ("error", JStr(UnexpectedError)), ("details", JStr(reason)),
              ("code", JStr("UNEXPECTED_ERROR"))])
    }
  }

  /** `new Error(message)` as its properties are read. */
  function ErrorValue(message: string): Json {
    JObj([("message", JStr(message))])
  }

  /** The catch block for an `Error` (a thrown `fetch`, a failed
      `response.json()`, a property read of `null`): a `TypeError` about
      "fetch failed" is a network failure, anything else is unexpected. */
  function Catch(name: string, message: string): Rejection {
    if name == "TypeError" && Contains(message, "fetch failed") then ServiceUnavailable
    else Unexpected(Reason(message))
  }

  /** `error.message || 'Erro desconhecido'`: the details of an unexpected
      error. */
  function Reason(message: string): (r: string)
    ensures r != ""
    ensures message != "" ==> r == message
  {
    if message == "" then UnknownError else message
  }

  /** `errorData.error?.details || 'Sem detalhes adicionais'`. */
  function ErrorDetails(errorData: Json): Json {
    var d := Prop(Prop(Some(errorData), "error"), "details");
    if Holds(d) then d.value else JStr(NoDetails)
  }

  /** Everything after the call. A non-ok response with a non-null body
      becomes an `ApiError`, which the catch block passes on only when its
      status is truthy; a non-ok `null` body throws a TypeError on
      `errorData.error`. */
  function Receive(upstream: Outcome): (r: Result<Json, Rejection>)
    ensures r.Success? <==> Succeeded(upstream) && upstream.body.parsed.ParsedJson?
    ensures r.Success? ==> r.value == upstream.body.parsed.value
    ensures r.Failure? && r.error.ApiError? <==>
              upstream.Responded? && !IsOk(upstream.status) && upstream.status != 0
              && upstream.body.parsed.ParsedJson? && upstream.body.parsed.value != JNull
    ensures r.Failure? && r.error.ApiError? ==>
              var v := upstream.body.parsed.value;
              r.error == ApiError(upstream.status, upstream.statusText, GeminiProxy.ErrorMessage(v),
                                  ErrorDetails(v), Prop(Prop(Some(v), "error"), "code"))
    ensures r.Failure? ==> r.error.ApiError? || r.error == ServiceUnavailable || r.error.Unexpected?
    ensures upstream.Responded? && r.Failure? && !r.error.ApiError? ==> r.error.Unexpected?
    ensures upstream.Threw? ==>
              (r == Failure(ServiceUnavailable) <==>
                 upstream.name == "TypeError" && Contains(upstream.message, "fetch failed"))
    ensures upstream.Threw? && r != Failure(ServiceUnavailable) ==>
              r == Failure(Unexpected(Reason(upstream.message)))
    ensures upstream.Responded? && upstream.body.parsed.Unparsable? ==>
              r == Failure(Unexpected(Reason(upstream.body.parsed.message)))
    ensures upstream.Responded? && !IsOk(upstream.status) && upstream.body.parsed == ParsedJson(JNull) ==>
              r == Failure(Unexpected(NullReadMessage("error")))
    ensures upstream.Responded? && !IsOk(upstream.status) && upstream.status == 0
            && upstream.body.parsed.ParsedJson? && upstream.body.parsed.value != JNull ==>
              r == Failure(Unexpected(UnknownError))
  {
    match upstream
    case Threw(name, message) => Failure(Catch(name, message))
    case Responded(status, statusText, body) =>
      match body.parsed
      case Unparsable(message) => Failure(Catch("SyntaxError", message))
      case ParsedJson(v) => ReceiveParsed(status, statusText, v)
  }

  /** `Receive` for a body that parsed to `v`. */
  function ReceiveParsed(status: int, statusText: string, v: Json): (r: Result<Json, Rejection>)
    ensures r.Success? <==> IsOk(status)
    ensures r.Success? ==> r.value == v
    ensures r.Failure? && r.error.ApiError? <==> !IsOk(status) && status != 0 && v != JNull
    ensures r.Failure? && r.error.ApiError? ==>
              r.error == ApiError(status, statusText, GeminiProxy.ErrorMessage(v),
                                  ErrorDetails(v), Prop(Prop(Some(v), "error"), "code"))
    ensures !IsOk(status) && v == JNull ==> r == Failure(Unexpected(NullReadMessage("error")))
    ensures !IsOk(status) && status == 0 && v != JNull ==> r == Failure(Unexpected(UnknownError))
  {
    if IsOk(status) then Success(v)
    else if v == JNull then
      NullReadIsNotNetworkFailure();
      Failure(Catch("TypeError", NullReadMessage("error")))
    else if status == 0 then Failure(Unexpected(UnknownError))
    else Failure(ApiError(status, statusText, GeminiProxy.ErrorMessage(v), ErrorDetails(v),
                          Prop(Prop(Some(v), "error"), "code")))
  }

  /** A call to `generateContent`: its result (`Success(data)` for `{
      success: true, data, metadata }`) and the calls it made. */
  datatype Generated = Generated(result: Result<Json, Rejection>, calls: seq<GenerateRequest>)

  /** `generateContent(prompt, options)`: key, prompt and prompt length
      (in UTF-16 units) are checked in that order before anything is sent. */
  function GenerateContent(c: Client, prompt: string, options: Options, upstream: Outcome): (g: Generated)
    ensures g.calls == [] <==> !Truthy(c.apiKey) || prompt == "" || Utf16Length(prompt) > MaxPromptLength
    ensures !Truthy(c.apiKey) ==> g.result == Failure(Refused(NotInitialized))
    ensures Truthy(c.apiKey) && prompt == "" ==> g.result == Failure(Refused(PromptRequired))
    ensures Truthy(c.apiKey) && prompt != "" && Utf16Length(prompt) > MaxPromptLength ==>
              g.result == Failure(Refused(PromptTooLong))
    ensures g.calls != [] ==> g.calls == [RequestFor(c, prompt, options)]
    ensures g.result.Success? <==> g.calls != [] && Succeeded(upstream) && upstream.body.parsed.ParsedJson?
    ensures g.result.Success? ==> g.result.value == upstream.body.parsed.value
    ensures g.result.Failure? && g.result.error.ApiError? <==>
              g.calls != [] && upstream.Responded? && !IsOk(upstream.status) && upstream.status != 0
              && upstream.body.parsed.ParsedJson? && upstream.body.parsed.value != JNull
    ensures g.calls != [] && upstream.Threw? ==>
              (g.result == Failure(ServiceUnavailable) <==>
                 upstream.name == "TypeError" && Occurs(upstream.message, "fetch failed"))
    ensures g.result.Failure? && g.result.error.ApiError? ==>
              var v := upstream.body.parsed.value;
              g.result.error == ApiError(upstream.status, upstream.statusText, GeminiProxy.ErrorMessage(v),
                                         ErrorDetails(v), Prop(Prop(Some(v), "error"), "code"))
    ensures g.calls != [] && g.result.Failure? ==>
              g.result.error.ApiError? || g.result.error == ServiceUnavailable || g.result.error.Unexpected?
    ensures g.calls != [] && upstream.Responded? && g.result.Failure? && !g.result.error.ApiError? ==>
              g.result.error.Unexpected?
    ensures g.calls != [] && upstream.Threw? && g.result != Failure(ServiceUnavailable) ==>
              g.result == Failure(Unexpected(Reason(upstream.message)))
    ensures g.calls != [] && upstream.Responded? && upstream.body.parsed.Unparsable? ==>
              g.result == Failure(Unexpected(Reason(upstream.body.parsed.message)))
    ensures g.calls != [] && upstream.Responded? && !IsOk(upstream.status) && upstream.body.parsed == ParsedJson(JNull) ==>
              g.result == Failure(Unexpected(NullReadMessage("error")))
    ensures g.calls != [] && upstream.Responded? && !IsOk(upstream.status) && upstream.status == 0
            && upstream.body.parsed.ParsedJson? && upstream.body.parsed.value != JNull ==>
              g.result == Failure(Unexpected(UnknownError))
  {
    if !Truthy(c.apiKey) then Generated(Failure(Refused(NotInitialized)), [])
    else if prompt == "" then Generated(Failure(Refused(PromptRequired)), [])
    else if Utf16Length(prompt) > MaxPromptLength then Generated(Failure(Refused(PromptTooLong)), [])
    else
      var thrown := if upstream.Threw? then upstream.message else "";
      ContainsIffOccurs(thrown, "fetch failed");
      Generated(Receive(upstream), [RequestFor(c, prompt, options)])
  }

  /** Reading `error` of a `null` error body is never mistaken for a
      network failure: its message has no "h", which "fetch failed" needs. */
  lemma NullReadIsNotNetworkFailure()
    ensures !Contains(NullReadMessage("error"), "fetch failed")
  {
    var head := "Cannot read properties of null (reading '";
    assert 'h' !in head;
    assert NullReadMessage("error") == head + "error" + "')";
    ContainsNeedsChar(NullReadMessage("error"), "fetch failed", 4);
  }

  /** A client that `initialize` accepted never fails the key check. */
  lemma InitializedClientPassesKeyCheck(apiKey: Json, prompt: string, options: Options, upstream: Outcome)
    requires Initialize(apiKey).Success?
    ensures GenerateContent(Initialize(apiKey).value, prompt, options, upstream).result != Failure(Refused(NotInitialized))
  {
  }

  /** Without a `generationConfig` object every setting is its default. */
  lemma NoOverridesKeepDefaults(options: Options)
    requires Overrides(options).None? || !Overrides(options).value.JObj?
    ensures Settings(options) == Defaults
  {
  }

  /** A key of `generationConfig` replaces that setting's default, and a
      setting it does not name keeps its default. */
  lemma OverrideTakesPrecedence(options: Options, k: Knob)
    ensures Prop(Overrides(options), k.Key()).Some? ==>
              Settings(options).Get(k) == Given(Prop(Overrides(options), k.Key()).value)
    ensures Prop(Overrides(options), k.Key()).None? ==> Settings(options).Get(k) == Defaults.Get(k)
  {
  }

  /** The safety settings come from `options.safetySettings` alone: a
      `safetySettings` key inside `generationConfig` is never sent. */
  lemma SafetyIgnoresGenerationConfig(o1: Options, o2: Options)
    requires Prop(Some(JObj(o1)), "safetySettings") == Prop(Some(JObj(o2)), "safetySettings")
    ensures Safety(o1) == Safety(o2)
  {
  }

  /** The default safety settings list the four harm categories, in order,
      each with threshold BLOCK_NONE. */
  lemma DefaultSafetyBlocksNothing()
    ensures DefaultSafety.JArr? && |DefaultSafety.items| == |HarmCategories|
    ensures forall i :: 0 <= i < |HarmCategories| ==>
              Lookup(DefaultSafety.items[i].fields, "category") == Some(JStr(HarmCategories[i]))
              && Lookup(DefaultSafety.items[i].fields, "threshold") == Some(JStr("BLOCK_NONE"))
  {
    forall i | 0 <= i < |HarmCategories|
      ensures Lookup(DefaultSafety.items[i].fields, "category") == Some(JStr(HarmCategories[i]))
      ensures Lookup(DefaultSafety.items[i].fields, "threshold") == Some(JStr("BLOCK_NONE"))
    {
      UnblockedNamesCategory(HarmCategories[i]);
    }
  }

  lemma UnblockedNamesCategory(category: string)
    ensures Lookup(Unblocked(category).fields, "category") == Some(JStr(category))
    ensures Lookup(Unblocked(category).fields, "threshold") == Some(JStr("BLOCK_NONE"))
  {
    LookupLast(Unblocked(category).fields, 0, "category", JStr(category));
  }

  /** The thrown object of an `ApiError` shows its status and its error. */
  lemma ThrownApiErrorShows(e: Rejection)
    requires e.ApiError?
    ensures Prop(Some(e.Thrown()), "status") == Some(JNum(e.status))
    ensures Prop(Some(e.Thrown()), "error") == Some(e.error)
  {
    var base := [("status", JNum(e.status)), ("statusText", JStr(e.statusText)), ("error", e.error), ("details", e.details)];
    var fs := if e.code.Some? then base + [("code", e.code.value)] else base;
    assert e.Thrown() == JObj(fs);
    LookupLast(fs, 0, "status", JNum(e.status));
    LookupLast(fs, 2, "error", e.error);
  }

  /** An `ApiError` always survives the catch block's `error.status &&
      error.error` test, and carries the upstream status. */
  lemma ApiErrorIsPassedOn(c: Client, prompt: string, options: Options, upstream: Outcome)
    requires GenerateContent(c, prompt, options, upstream).result.Failure?
    requires GenerateContent(c, prompt, options, upstream).result.error.ApiError?
    ensures var e := GenerateContent(c, prompt, options, upstream).result.error;
            e.status == upstream.status && e.status != 0 && Truthy(e.error)
            && Holds(Prop(Some(e.Thrown()), "status")) && Holds(Prop(Some(e.Thrown()), "error"))
  {
    ThrownApiErrorShows(GenerateContent(c, prompt, options, upstream).result.error);
  }
}

=== FILE: gemini_integration.dfy ===
/** The page-side Gemini integration (js/gemini-integration.js): the key is
    fetched from the configuration endpoint the first time a prompt is
    sent, `askGemini` turns the client's answer or rejection into a
    `{ success, ... }` object, `extractTextFromGeminiResponse` digs the
    text out of whatever shape came back, and `sendPrompt` reduces it all
    to the text or an `{ error, details }` object. */
module GeminiIntegration {
  import opened Wrappers
  import opened Json
  import opened Text
  import opened Http
  import GeminiClient

  const Unprocessable := "Não foi possível processar a resposta do modelo."
  const TruncatedNotice := " [Resposta truncada]"
  const TruncatedWithoutText :=
    "A resposta foi truncada devido ao limite de tokens. Por favor, tente um prompt mais curto ou aumente o limite de tokens."
  const NoTextContent :=
    "A API retornou uma resposta sem conteúdo de texto. Isso pode ocorrer devido a limitações de tokens ou problemas com o modelo."

  /** The literal start of the fallback pattern `/"text":"([^"]+)"/`. */
  const TextKey := "\"text\":\""

  /** Length of the longest prefix of `s` without a double quote. */
  function QuoteFree(s: string): (n: nat)
    ensures n <= |s|
    ensures forall k :: 0 <= k < n ==> s[k] != '"'
    ensures n < |s| ==> s[n] == '"'
  {
    if |s| == 0 || s[0] == '"' then 0 else 1 + QuoteFree(s[1..])
  }

  /** The capture group of the pattern when a match starts at `i`: `[^"]+`
      takes every character up to the next quote, and that quote must
      exist. */
  function MatchAt(s: string, i: nat): Option<string>
    requires i <= |s|
  {
    if !StartsWith(s[i..], TextKey) then None
    else
      var rest := s[i + |TextKey|..];
      var n := QuoteFree(rest);
      if 0 < n < |rest| then Some(rest[..n]) else None
  }

  /** The capture of the leftmost match at or after `i`. */
  function MatchFrom(s: string, i: nat): Option<string>
    requires i <= |s|
    decreases |s| - i
  {
    if i == |s| then None
    else if MatchAt(s, i).Some? then MatchAt(s, i)
    else MatchFrom(s, i + 1)
  }

  /** `textMatches[0]` with the `"text":"` prefix and the closing quote
      stripped: the capture of the first match. */
  function FirstTextMatch(s: string): Option<string> {
    MatchFrom(s, 0)
  }

  ghost predicate QuoteFreeText(t: string) {
    forall k :: 0 <= k < |t| ==> t[k] != '"'
  }

  /** What the pattern matches at `i`, with `t` its capture: `"text":"`,
      a non-empty run of non-quote characters, and a quote. */
  ghost predicate MatchesAt(s: string, i: int, t: string) {
    t != "" && QuoteFreeText(t) && OccursAt(s, TextKey + t + "\"", i)
  }

  /** The anchored match computes exactly the pattern's capture. */
  lemma MatchAtSpec(s: string, i: nat, t: string)
    requires i <= |s|
    ensures MatchAt(s, i) == Some(t) <==> MatchesAt(s, i, t)
  {
    if MatchAt(s, i) == Some(t) {
      MatchAtSound(s, i);
    }
    if MatchesAt(s, i, t) {
      MatchAtComplete(s, i, t);
    }
  }

  lemma MatchAtSound(s: string, i: nat)
    requires i <= |s| && MatchAt(s, i).Some?
    ensures MatchesAt(s, i, MatchAt(s, i).value)
  {
    var k := |TextKey|;
    var t := MatchAt(s, i).value;
    var n := |t|;
    assert s[i..i + k + n + 1] == s[i..][..k] + s[i + k..][..n] + [s[i + k + n]];
  }

  lemma MatchAtComplete(s: string, i: nat, t: string)
    requires i <= |s| && MatchesAt(s, i, t)
    ensures MatchAt(s, i) == Some(t)
  {
    var k := |TextKey|;
    var n := |t|;
    var m := s[i..i + k + n + 1];
    assert m == TextKey + t + "\"";
    assert s[i..][..k] == m[..k] == TextKey;
    var rest := s[i + k..];
    forall x | 0 <= x < n ensures rest[x] == t[x] {
      assert rest[x] == m[k + x] == (TextKey + t + "\"")[k + x];
    }
    assert rest[..n] == t;
    assert rest[n] == m[k + n];
    assert QuoteFree(rest) == n;
  }

  /** The scan finds the leftmost match: none exactly when the pattern
      matches nowhere from `i` on, and otherwise the capture of a match with
      no match before it. */
  lemma {:induction false} MatchFromSpec(s: string, i: nat)
    requires i <= |s|
    ensures MatchFrom(s, i).None? <==> forall j, t :: i <= j ==> !MatchesAt(s, j, t)
    ensures MatchFrom(s, i).Some? ==>
              exists j :: i <= j && MatchesAt(s, j, MatchFrom(s, i).value)
                          && forall l, u :: i <= l < j ==> !MatchesAt(s, l, u)
    decreases |s| - i
  {
    if i == |s| {
      forall j, t | i <= j ensures !MatchesAt(s, j, t) { }
    } else if MatchAt(s, i).Some? {
      MatchAtSpec(s, i, MatchAt(s, i).value);
    } else {
      forall t ensures !MatchesAt(s, i, t) {
        MatchAtSpec(s, i, t);
      }
      MatchFromSpec(s, i + 1);
      if MatchFrom(s, i).Some? {
        var j :| i + 1 <= j && MatchesAt(s, j, MatchFrom(s, i).value)
                 && forall l, u :: i + 1 <= l < j ==> !MatchesAt(s, l, u);
        assert forall l, u :: i <= l < j ==> !MatchesAt(s, l, u);
      }
    }
  }

  /** A capture is never empty. */
  lemma MatchIsNonEmpty(s: string)
    ensures FirstTextMatch(s).Some? ==> FirstTextMatch(s).value != ""
  {
    MatchFromSpec(s, 0);
  }

  /** `x.content.parts[0].text` for a (possibly missing) `x.content`; each
      step that meets a falsy or non-object value gives `undefined`. */
  function PartText(content: Option<Json>): Option<Json> {
    Prop(Index0(Prop(content, "parts")), "text")
  }

  /** `response.candidates[0]`. */
  function FirstCandidate(response: Json): Option<Json> {
    Index0(Prop(Some(response), "candidates"))
  }

  /** `response.candidates[0].content.parts[0].text`. */
  function CandidateText(response: Json): Option<Json> {
    PartText(Prop(FirstCandidate(response), "content"))
  }

  /** The first candidate stopped at the token limit. */
  predicate Truncated(response: Json) {
    Prop(FirstCandidate(response), "finishReason") == Some(JStr("MAX_TOKENS"))
  }

  /** `extractTextFromGeminiResponse(response)`. A property read on `null`
      throws inside the `try`, and so does the final "invalid format"
      error; both end in the fixed failure message. The shapes are tried
      in a fixed order: a string as it is; a truncated first candidate,
      whatever else the response holds; the first candidate's text;
      `response.text`; `response.content.parts[0].text`; the notice for a
      candidate with the "model" role but no text; the pattern. */
  function ExtractText(response: Json): (r: Json)
    ensures response.JStr? ==> r == response
    ensures response == JNull ==> r == JStr(Unprocessable)
    ensures !response.JStr? && Truncated(response) ==>
              r == (if Holds(CandidateText(response))
                    then JStr(JsToString(CandidateText(response).value) + TruncatedNotice)
                    else JStr(TruncatedWithoutText))
    ensures !response.JStr? && !Truncated(response) && Holds(CandidateText(response)) ==>
              r == CandidateText(response).value
    ensures !response.JStr? && !Truncated(response) && !Holds(CandidateText(response))
            && Holds(Prop(Some(response), "text")) ==>
              r == Prop(Some(response), "text").value
    ensures !response.JStr? && !Truncated(response) && !Holds(CandidateText(response))
            && !Holds(Prop(Some(response), "text")) && Holds(PartText(Prop(Some(response), "content"))) ==>
              r == PartText(Prop(Some(response), "content")).value
    ensures !response.JStr? && !Truncated(response) && !Holds(CandidateText(response))
            && !Holds(Prop(Some(response), "text")) && !Holds(PartText(Prop(Some(response), "content")))
            && Prop(Prop(FirstCandidate(response), "content"), "role") == Some(JStr("model")) ==>
              r == JStr(NoTextContent)
    ensures !response.JStr? && response != JNull && !Truncated(response) && !Holds(CandidateText(response))
            && !Holds(Prop(Some(response), "text")) && !Holds(PartText(Prop(Some(response), "content")))
            && Prop(Prop(FirstCandidate(response), "content"), "role") != Some(JStr("model")) ==>
              r == PatternFallback(response)
  {
    if response.JStr? then response
    else if response == JNull then JStr(Unprocessable)
    else
      var candidateText := CandidateText(response);
      if Truncated(response) then
        if Holds(candidateText) then JStr(JsToString(candidateText.value) + TruncatedNotice)
        else JStr(TruncatedWithoutText)
      else if Holds(candidateText) then candidateText.value
      else if Holds(Prop(Some(response), "text")) then Prop(Some(response), "text").value
      else if Holds(PartText(Prop(Some(response), "content"))) then PartText(Prop(Some(response), "content")).value
      else if Prop(Prop(FirstCandidate(response), "content"), "role") == Some(JStr("model")) then JStr(NoTextContent)
      else PatternFallback(response)
  }

  /** The last resort: the first `"text":"..."` in the serialized response,
      or the failure message. Either way the result is a non-empty string. */
  function PatternFallback(response: Json): (r: Json)
    ensures r.JStr? && r.s != ""
  {
    MatchIsNonEmpty(Serialize(response));
    match FirstTextMatch(Serialize(response))
    case Some(t) => JStr(t)
    case None => JStr(Unprocessable)
  }

  /** Only an empty string comes back as a falsy text: every other input
      yields a truthy value. */
  lemma ExtractTextTruthy(response: Json)
    requires response != JStr("")
    ensures Truthy(ExtractText(response))
  {
  }

  /** The standard response shape: one candidate whose content has one
      text part and the role "model". */
  function CandidateResponse(text: Json, finishReason: string): Json {
    JObj([("candidates", JArr([JObj([
      ("content", JObj([("parts", JArr([JObj([("text", text)])])), ("role", JStr("model"))])),
      ("finishReason", JStr(finishReason))])]))])
  }

  /** The pieces of the standard shape, one property read at a time. */
  lemma CandidateResponseReads(text: Json, finishReason: string)
    ensures var first := Index0(Prop(Some(CandidateResponse(text, finishReason)), "candidates"));
            Prop(first, "finishReason") == Some(JStr(finishReason))
            && PartText(Prop(first, "content")) == Some(text)
  {
    var r := CandidateResponse(text, finishReason);
    LookupLast(r.fields, 0, "candidates", r.fields[0].1);
    var candidate := r.fields[0].1.items[0];
    LookupLast(candidate.fields, 1, "finishReason", JStr(finishReason));
    LookupLast(candidate.fields, 0, "content", candidate.fields[0].1);
    var content := candidate.fields[0].1;
    LookupLast(content.fields, 0, "parts", content.fields[0].1);
    var part := content.fields[0].1.items[0];
    LookupLast(part.fields, 0, "text", text);
  }

  /** A complete answer gives back its text unchanged. */
  lemma ExtractsCandidateText(text: Json, finishReason: string)
    requires Truthy(text) && finishReason != "MAX_TOKENS"
    ensures ExtractText(CandidateResponse(text, finishReason)) == text
  {
    CandidateResponseReads(text, finishReason);
  }

  /** A truncated answer gives back its text, as a string, with the
      truncation notice appended; without text, the truncation message. */
  lemma MarksTruncatedText(text: Json)
    ensures Truthy(text) ==>
              ExtractText(CandidateResponse(text, "MAX_TOKENS")) == JStr(JsToString(text) + TruncatedNotice)
    ensures !Truthy(text) ==> ExtractText(CandidateResponse(text, "MAX_TOKENS")) == JStr(TruncatedWithoutText)
  {
    CandidateResponseReads(text, "MAX_TOKENS");
  }

  /** A character `JSON.stringify` writes as itself inside a string. */
  predicate Plain(c: char) {
    c != '"' && c != '\\' && (c as int) >= 0x20
  }

  lemma {:induction false} EscapePlain(s: string)
    requires forall k :: 0 <= k < |s| ==> Plain(s[k])
    ensures EscapeString(s) == s
    decreases |s|
  {
    if |s| > 0 {
      EscapePlain(s[1..]);
      assert s == [s[0]] + s[1..];
    }
  }

  /** A string that needs no escaping is quoted as itself. */
  lemma QuotePlain(t: string)
    requires forall k :: 0 <= k < |t| ==> Plain(t[k])
    ensures Quote(t) == "\"" + t + "\""
  {
    EscapePlain(t);
  }

  /** `JSON.stringify` of a one-element array. */
  lemma SerializeSingleItem(v: Json)
    ensures Serialize(JArr([v])) == "[" + Serialize(v) + "]"
  {
    assert SerializeItems(JArr([v]), 0) == Serialize(v);
  }

  /** The quoted part object, regrouped around the pattern's prefix. */
  lemma PartObjectText(t: string)
    ensures "{" + "\"text\"" + ":" + ("\"" + t + "\"") + "}" == "{" + TextKey + t + "\"}"
  {
  }

  lemma BracketPartObject(t: string)
    ensures "[" + ("{" + TextKey + t + "\"}") + "]" == "[{" + TextKey + t + "\"}]"
  {
  }

  /** `JSON.stringify({ text: t })` for a `t` that needs no escaping. */
  lemma SerializePartObject(t: string)
    requires forall k :: 0 <= k < |t| ==> Plain(t[k])
    ensures Serialize(JObj([("text", JStr(t))])) == "{" + TextKey + t + "\"}"
  {
    assert Serialize(JObj([("text", JStr(t))])) == "{" + Quote("text") + ":" + Quote(t) + "}" by {
      SerializeSingleField("text", JStr(t));
    }
    assert Quote("text") == "\"text\"" by {
      QuotePlain("text");
    }
    assert Quote(t) == "\"" + t + "\"" by {
      QuotePlain(t);
    }
    PartObjectText(t);
  }

  /** `JSON.stringify([{ text: t }])` for a `t` that needs no escaping. */
  lemma SerializePartList(t: string)
    requires forall k :: 0 <= k < |t| ==> Plain(t[k])
    ensures Serialize(JArr([JObj([("text", JStr(t))])])) == "[{" + TextKey + t + "\"}]"
  {
    var part := JObj([("text", JStr(t))]);
    SerializePartObject(t);
    SerializeSingleItem(part);
    BracketPartObject(t);
  }

  /** In that text the first match is the one at position 2. */
  lemma PartListMatch(t: string)
    requires t != "" && forall k :: 0 <= k < |t| ==> Plain(t[k])
    ensures FirstTextMatch("[{" + TextKey + t + "\"}]") == Some(t)
  {
    var s := "[{" + TextKey + t + "\"}]";
    assert MatchesAt(s, 2, t) by {
      assert s[2..2 + |TextKey + t + "\""|] == TextKey + t + "\"";
    }
    MatchAtComplete(s, 2, t);
    assert s[0..][0] == '[' && s[1..][0] == '{';
    assert MatchAt(s, 0).None? && MatchAt(s, 1).None?;
    assert MatchFrom(s, 2) == Some(t);
    assert MatchFrom(s, 1) == MatchFrom(s, 2);
    assert MatchFrom(s, 0) == MatchFrom(s, 1);
  }

  /** When no known shape applies, the pattern still finds the text of a
      bare list of parts, `[{ "text": t }]`, provided `t` needs no
      escaping. */
  lemma FallbackFindsPartText(t: string)
    requires t != "" && forall k :: 0 <= k < |t| ==> Plain(t[k])
    ensures ExtractText(JArr([JObj([("text", JStr(t))])])) == JStr(t)
  {
    SerializePartList(t);
    PartListMatch(t);
  }

  /** `JSON.stringify` writes array-index names first: for the object
      `{"z": {"text": "A"}, "5": {"text": "B"}}` the text under "5" is the
      first match, although "z" was inserted first. */
  lemma FallbackReadsIndexKeysFirst()
    ensures ExtractText(JObj([("z", JObj([("text", JStr("A"))])), ("5", JObj([("text", JStr("B"))]))])) == JStr("B")
  {
    IndexKeyFirst(JObj([("text", JStr("A"))]), JObj([("text", JStr("B"))]), "A", "B");
  }

  /** An object without "candidates", "text" or "content" goes straight
      to the pattern. */
  lemma NoShapeFallsBack(response: Json)
    requires response.JObj?
    requires Lookup(response.fields, "candidates").None?
    requires Lookup(response.fields, "text").None?
    requires Lookup(response.fields, "content").None?
    ensures ExtractText(response) == PatternFallback(response)
  {
  }

  /** The same, for any two plain texts. */
  lemma IndexKeyFirst(a: Json, b: Json, ta: string, tb: string)
    requires a == JObj([("text", JStr(ta))]) && b == JObj([("text", JStr(tb))])
    requires tb != ""
    requires forall k :: 0 <= k < |ta| ==> Plain(ta[k])
    requires forall k :: 0 <= k < |tb| ==> Plain(tb[k])
    ensures ExtractText(JObj([("z", a), ("5", b)])) == JStr(tb)
  {
    var response := JObj([("z", a), ("5", b)]);
    var w := "\"z\"" + ":" + ("{" + TextKey + ta + "\"}");
    assert FirstTextMatch(Serialize(response)) == Some(tb) by {
      SerializedIndexFirst(a, b);
      SerializePartObject(ta);
      SerializePartObject(tb);
      IndexKeyMatch(tb, w);
    }
    assert ExtractText(response) == PatternFallback(response) by {
      LookupFinds(response.fields, "candidates");
      LookupFinds(response.fields, "text");
      LookupFinds(response.fields, "content");
      NoShapeFallsBack(response);
    }
  }

  lemma IndexKeys()
    ensures ArrayIndex("5") == Some(5) && ArrayIndex("z").None?
  {
    assert DecimalValue("5") == 10 * DecimalValue("") + 5;
    assert !AllDecimal("z") by {
      assert "z"[0] == 'z';
    }
  }

  lemma OrderIndexFirst(a: Json, b: Json)
    ensures OwnKeyOrder([("z", a), ("5", b)]) == [("5", b), ("z", a)]
  {
    var fs := [("z", a), ("5", b)];
    IndexKeys();
    assert fs[1..] == [("5", b)] && fs[1..][1..] == [];
    assert !IsIndexed(fs[0]) && IsIndexed(fs[1..][0]);
    assert IndexedFields(fs[1..][1..]) == [] && NamedFields(fs[1..][1..]) == [];
    assert IndexedFields(fs[1..]) == [("5", b)] && NamedFields(fs[1..]) == [];
    assert IndexedFields(fs) == [("5", b)];
    assert NamedFields(fs) == [("z", a)];
  }

  lemma SerializedIndexFirstQuoted(a: Json, b: Json)
    ensures Serialize(JObj([("z", a), ("5", b)]))
         == "{" + (Quote("5") + ":" + Serialize(b) + "," + (Quote("z") + ":" + Serialize(a))) + "}"
  {
    var fs := [("z", a), ("5", b)];
    OrderIndexFirst(a, b);
    SerializeTwoFields(fs);
    var o := OwnKeyOrder(fs);
    assert o[0].0 == "5" && o[0].1 == b && o[1].0 == "z" && o[1].1 == a;
  }

  lemma SerializedIndexFirst(a: Json, b: Json)
    ensures Serialize(JObj([("z", a), ("5", b)]))
         == "{" + ("\"5\"" + ":" + Serialize(b) + "," + ("\"z\"" + ":" + Serialize(a))) + "}"
  {
    SerializedIndexFirstQuoted(a, b);
    QuoteKeys();
  }

  lemma QuoteKeys()
    ensures Quote("5") == "\"5\"" && Quote("z") == "\"z\""
  {
    QuotePlain("5");
    QuotePlain("z");
  }

  /** A text whose first six characters cannot start a match, followed
      by a match at 6, yields that match's capture. */
  lemma MatchAfterSix(s: string, t: string)
    requires 6 <= |s| && MatchesAt(s, 6, t)
    requires s[0] != '"' && s[2] != '"' && s[4] != '"' && s[5] != '"'
    requires s[2] != 't' && s[4] != 't'
    ensures FirstTextMatch(s) == Some(t)
  {
    assert TextKey[0] == '"' && TextKey[1] == 't';
    MatchAtComplete(s, 6, t);
    NoMatchAt(s, 0, 0);
    NoMatchAt(s, 1, 1);
    NoMatchAt(s, 2, 0);
    NoMatchAt(s, 3, 1);
    NoMatchAt(s, 4, 0);
    NoMatchAt(s, 5, 0);
    assert MatchFrom(s, 5) == MatchFrom(s, 6);
    assert MatchFrom(s, 3) == MatchFrom(s, 5);
    assert MatchFrom(s, 1) == MatchFrom(s, 3);
  }

  /** In the serialized object the first match is the text under "5". */
  lemma IndexKeyMatch(t: string, w: string)
    requires t != "" && forall k :: 0 <= k < |t| ==> Plain(t[k])
    ensures FirstTextMatch("{" + ("\"5\"" + ":" + ("{" + TextKey + t + "\"}") + "," + w) + "}") == Some(t)
  {
    var s := "{" + ("\"5\"" + ":" + ("{" + TextKey + t + "\"}") + "," + w) + "}";
    assert MatchesAt(s, 6, t) by {
      assert s[6..6 + |TextKey + t + "\""|] == TextKey + t + "\"";
    }
    assert s[0] == '{' && s[2] == '5' && s[4] == ':' && s[5] == '{';
    MatchAfterSix(s, t);
  }

  /** No match can start at `i` when the `k`-th character disagrees with
      the pattern's prefix. */
  lemma NoMatchAt(s: string, i: nat, k: nat)
    requires i + k < |s| && k < |TextKey| && s[i + k] != TextKey[k]
    ensures MatchAt(s, i).None?
  {
    assert !StartsWith(s[i..], TextKey) by {
      if |TextKey| <= |s[i..]| {
        assert s[i..][..|TextKey|][k] == s[i + k];
      }
    }
  }

  /** `loadGeminiApiKey()`: the key from a successful, parsable answer of
      the configuration endpoint that holds a truthy `geminiApiKey`. */
  function LoadKey(config: Outcome): (k: Option<Json>)
    ensures k.Some? ==> Truthy(k.value)
    ensures k.Some? <==>
              Succeeded(config) && config.body.parsed.ParsedJson?
              && Holds(Prop(Some(config.body.parsed.value), "geminiApiKey"))
    ensures k.Some? ==> k == Prop(Some(config.body.parsed.value), "geminiApiKey")
  {
    if Succeeded(config) && config.body.parsed.ParsedJson? then
      var key := Prop(Some(config.body.parsed.value), "geminiApiKey");
      if Holds(key) then Some(key.value) else None
    else None
  }

  /** `initializeGeminiClient()`: a client holding the loaded key. */
  function InitializeClient(config: Outcome): Option<GeminiClient.Client> {
    match LoadKey(config)
    case None => None
    case Some(key) =>
      match GeminiClient.Initialize(key)
      case Success(c) => Some(c)
      case Failure(_) => None
  }

  /** Initialisation succeeds exactly when a key was loaded, and the client
      then holds that key. */
  lemma InitializeIffKeyLoaded(config: Outcome)
    ensures InitializeClient(config).Some? <==> LoadKey(config).Some?
    ensures InitializeClient(config).Some? ==> InitializeClient(config).value.apiKey == LoadKey(config).value
  {
  }

  const InitFailed := "Não foi possível inicializar o cliente Gemini"
  const InvalidReply := "Resposta inválida da API Gemini"
  const AskFallback := "Erro ao processar a requisição"
  const UnknownError := "Erro desconhecido"

  /** What `askGemini` resolves to: `{ success: true, text, fullResponse }`
      or `{ success: false, error, details }`. */
  datatype AskReply = Answered(text: Json, data: Json) | Unanswered(error: Json, details: Json)

  /** The catch block of `askGemini`: `error.error || fallback`, and
      `error.details || error.message || 'Erro desconhecido'`. */
  function Unanswer(thrown: Json): (r: AskReply)
    ensures r.Unanswered? && Truthy(r.error) && Truthy(r.details)
    ensures Holds(Prop(Some(thrown), "error")) ==> r.error == Prop(Some(thrown), "error").value
    ensures !Holds(Prop(Some(thrown), "error")) ==> r.error == JStr(AskFallback)
    ensures Holds(Prop(Some(thrown), "details")) ==> r.details == Prop(Some(thrown), "details").value
    ensures !Holds(Prop(Some(thrown), "details")) && Holds(Prop(Some(thrown), "message")) ==>
              r.details == Prop(Some(thrown), "message").value
    ensures !Holds(Prop(Some(thrown), "details")) && !Holds(Prop(Some(thrown), "message")) ==>
              r.details == JStr(UnknownError)
  {
    var e := Prop(Some(thrown), "error");
    var d := Prop(Some(thrown), "details");
    var m := Prop(Some(thrown), "message");
    Unanswered(if Holds(e) then e.value else JStr(AskFallback),
               if Holds(d) then d.value else if Holds(m) then m.value else JStr(UnknownError))
  }

  /** One `askGemini` call: its reply, the client it leaves behind, and the
      Gemini calls made. */
  datatype Asked = Asked(reply: AskReply, client: Option<GeminiClient.Client>, calls: seq<GeminiClient.GenerateRequest>)

  /** `askGemini(prompt, options)` with the current client (`None` while
      `geminiClient` is null); `config` is what the configuration endpoint
      would answer. */
  function AskGemini(client: Option<GeminiClient.Client>, config: Outcome, prompt: string,
                     options: GeminiClient.Options, upstream: Outcome): (a: Asked)
    ensures a.client == (if client.Some? then client else InitializeClient(config))
    ensures a.client.None? ==>
              a.calls == [] && a.reply == Unanswered(JStr(AskFallback), JStr(InitFailed))
    ensures a.client.Some? ==> a.calls == GeminiClient.GenerateContent(a.client.value, prompt, options, upstream).calls
    ensures a.reply.Unanswered? ==> Truthy(a.reply.error) && Truthy(a.reply.details)
    ensures a.client.Some? ==>
              var g := GeminiClient.GenerateContent(a.client.value, prompt, options, upstream);
              (g.result.Failure? ==> a.reply == Unanswer(g.result.error.Thrown()))
              && (g.result.Success? && !Truthy(g.result.value) ==>
                    a.reply == Unanswer(GeminiClient.ErrorValue(InvalidReply)))
  {
    var c := if client.Some? then client else InitializeClient(config);
    if c.None? then Asked(Unanswer(GeminiClient.ErrorValue(InitFailed)), None, [])
    else
      var g := GeminiClient.GenerateContent(c.value, prompt, options, upstream);
      var reply :=
        match g.result
        case Success(data) =>
          if Truthy(data) then Answered(ExtractText(data), data)
          else Unanswer(GeminiClient.ErrorValue(InvalidReply))
        case Failure(f) => Unanswer(f.Thrown());
      Asked(reply, c, g.calls)
  }

  /** The reply is an answer exactly when the client resolved with truthy
      data, and its text is what the extraction finds there. */
  lemma AnsweredIffData(client: Option<GeminiClient.Client>, config: Outcome, prompt: string,
                        options: GeminiClient.Options, upstream: Outcome)
    ensures var a := AskGemini(client, config, prompt, options, upstream);
            a.reply.Answered? <==>
              a.client.Some? && Succeeded(upstream) && upstream.body.parsed.ParsedJson?
              && Truthy(upstream.body.parsed.value) && a.calls != []
    ensures var a := AskGemini(client, config, prompt, options, upstream);
            a.reply.Answered? ==>
              a.reply.data == upstream.body.parsed.value && a.reply.text == ExtractText(a.reply.data)
  {
  }

  /** An initialised client is reused: the configuration endpoint is not
      consulted again and the client is kept. */
  lemma ClientIsReused(c: GeminiClient.Client, config1: Outcome, config2: Outcome, prompt: string,
                       options: GeminiClient.Options, upstream: Outcome)
    ensures AskGemini(Some(c), config1, prompt, options, upstream) == AskGemini(Some(c), config2, prompt, options, upstream)
    ensures AskGemini(Some(c), config1, prompt, options, upstream).client == Some(c)
  {
  }

  /** A rejection of the client before any call reaches the page as
      `{ success: false }` with the rejection's message as details. */
  lemma RefusalBecomesDetails(message: string)
    ensures Unanswer(GeminiClient.Refused(message).Thrown())
            == Unanswered(JStr(AskFallback), if message == "" then JStr(UnknownError) else JStr(message))
  {
    var fs := GeminiClient.ErrorValue(message).fields;
    LookupLast(fs, 0, "message", JStr(message));
    LookupFinds(fs, "error");
    LookupFinds(fs, "details");
  }

  const SendFallback := "Erro desconhecido ao processar a requisição"

  /** What `sendPrompt` resolves to: the text, or `{ error, details }`
      where `details` is the stack trace of the Error it threw (engine
      text; `thrownMessage` is that Error's message). */
  datatype Sent = Text(text: Json) | Problem(error: string, thrownMessage: string)

  datatype Delivery = Delivery(sent: Sent, asked: Asked)

  /** `sendPrompt(prompt, options)`: `askGemini` with only the callbacks as
      options, then the text when the reply carries a truthy one, else an
      Error built from `response.error`. */
  function SendPrompt(client: Option<GeminiClient.Client>, config: Outcome, prompt: string, upstream: Outcome): (d: Delivery)
    ensures d.asked == AskGemini(client, config, prompt, [], upstream)
    ensures d.sent.Problem? ==> d.sent.error != ""
    ensures d.sent.Problem? && d.asked.reply.Unanswered? ==> d.sent.thrownMessage == JsToString(d.asked.reply.error)
    ensures d.sent.Problem? ==>
              d.sent.error == (if d.sent.thrownMessage == "" then AskFallback else d.sent.thrownMessage)
  {
    var a := AskGemini(client, config, prompt, [], upstream);
    if a.reply.Answered? && Truthy(a.reply.text) then Delivery(Text(a.reply.text), a)
    else
      var cause := if a.reply.Unanswered? && Truthy(a.reply.error) then a.reply.error else JStr(SendFallback);
      var message := JsToString(cause);
      Delivery(Problem(if message == "" then AskFallback else message, message), a)
  }

  /** `sendPrompt` returns text exactly when `askGemini` answered: an
      answer's text is never falsy, since the data it came from was
      truthy. */
  lemma TextIffAnswered(client: Option<GeminiClient.Client>, config: Outcome, prompt: string, upstream: Outcome)
    ensures var d := SendPrompt(client, config, prompt, upstream);
            d.sent.Text? <==> d.asked.reply.Answered?
    ensures var d := SendPrompt(client, config, prompt, upstream);
            d.sent.Text? ==> d.sent.text == d.asked.reply.text
  {
    var a := AskGemini(client, config, prompt, [], upstream);
    if a.reply.Answered? {
      ExtractTextTruthy(a.reply.data);
    }
  }

  /** Every call `askGemini` makes carries the settings it was given. */
  lemma AskUsesSettings(client: Option<GeminiClient.Client>, config: Outcome, prompt: string,
                        options: GeminiClient.Options, upstream: Outcome)
    ensures var a := AskGemini(client, config, prompt, options, upstream);
            forall i :: 0 <= i < |a.calls| ==>
              a.calls[i].config == GeminiClient.Settings(options)
              && a.calls[i].safetySettings == GeminiClient.Safety(options)
  {
  }

  /** `sendPrompt` passes no generation or safety settings, so its call
      always uses the defaults. */
  lemma SendPromptUsesDefaults(client: Option<GeminiClient.Client>, config: Outcome, prompt: string, upstream: Outcome)
    ensures var d := SendPrompt(client, config, prompt, upstream);
            forall i :: 0 <= i < |d.asked.calls| ==>
              d.asked.calls[i].config == GeminiClient.Defaults
              && d.asked.calls[i].safetySettings == GeminiClient.DefaultSafety
  {
    GeminiClient.NoOverridesKeepDefaults([]);
    assert GeminiClient.Safety([]) == GeminiClient.DefaultSafety;
    AskUsesSettings(client, config, prompt, [], upstream);
  }
}

=== FILE: gemini_pages.dfy ===
/** The Next.js Gemini proxy (pages/api/gemini.js): the same dispatch as
    api/gemini.js, with a different health-check body and a more detailed
    405 body. */
module GeminiPages {
  import opened Wrappers
  import opened Json
  import opened Http
  import opened GeminiProxy
  import GeminiApi

  /** The GET status body (its timestamp left out). */
  function StatusBody(verb: string): Json {
    JObj([("status", JStr("API Gemini funcionando")), ("method", JStr(verb)),
          ("message", JStr("Use POST para gerar relatórios"))])
  }

  /** The 405 body. */
  function NotAllowedBody(verb: string): Json {
    JObj([("error", JStr("Método não permitido")), ("received_method", JStr(verb)),
          ("allowed_methods", Strings(["POST"]))])
  }

  function Handle(verb: string, apiKey: Option<string>, body: Option<RequestBody>, upstream: Outcome): (x: Exchange)
    ensures verb == "OPTIONS" ==> x.response == Response(200, None)
    ensures verb == "GET" ==> x.response == Response(200, Some(StatusBody(verb)))
    ensures verb != "OPTIONS" && verb != "GET" && verb != "POST" ==>
              x.response == Response(405, Some(NotAllowedBody(verb)))
    ensures verb == "POST" && !Filled(apiKey) ==> x.response == Response(500, Some(KeyNotConfigured))
    ensures verb == "POST" && Filled(apiKey) && body.Some? && !Filled(PromptOf(body.value)) ==>
              x.response == Response(400, Some(PromptRequired))
    ensures x.calls != [] <==> verb == "POST" && Filled(apiKey) && body.Some? && Filled(PromptOf(body.value))
    ensures x.calls != [] ==>
              x.calls == [ProxyRequest(apiKey.value, PromptOf(body.value).value)]
              && x.response == Forward(upstream, Bare, false)
  {
    if verb == "OPTIONS" then Exchange(Response(200, None), [])
    else if verb == "GET" then Exchange(Response(200, Some(StatusBody(verb))), [])
    else if verb != "POST" then Exchange(Response(405, Some(NotAllowedBody(verb))), [])
    else if !Filled(apiKey) then Exchange(Response(500, Some(KeyNotConfigured)), [])
    else if body.None? then
      Exchange(Response(500, Some(CrashBody(Bare, DestructureUndefinedMessage("prompt", "req.body")))), [])
    else
      var prompt := PromptOf(body.value);
      if !Filled(prompt) then Exchange(Response(400, Some(PromptRequired)), [])
      else Exchange(Forward(upstream, Bare, false), [ProxyRequest(apiKey.value, prompt.value)])
  }

  /** The two Vercel handlers differ only in their GET and 405 bodies: they
      agree on every status, and on every body and upstream call except
      those two. */
  lemma AgreesWithApiHandler(verb: string, apiKey: Option<string>, body: Option<RequestBody>, upstream: Outcome)
    ensures Handle(verb, apiKey, body, upstream).response.status
            == GeminiApi.Handle(verb, apiKey, body, upstream).response.status
    ensures Handle(verb, apiKey, body, upstream).calls == GeminiApi.Handle(verb, apiKey, body, upstream).calls
    ensures verb == "OPTIONS" || verb == "POST" ==>
              Handle(verb, apiKey, body, upstream) == GeminiApi.Handle(verb, apiKey, body, upstream)
  {
  }
}

=== FILE: gemini_proxy.dfy ===
/** What the four Gemini proxy routes share: the upstream URL and request
    body, and the way each turns the upstream `fetch` into a response:
    `response.json()`, then the upstream status with an error message when
    the response is not ok, or the parsed body passed through unchanged. */
module GeminiProxy {
  import opened Wrappers
  import opened Json
  import opened Http

  const GenerateUrl := "https://generativelanguage.googleapis.com/v1beta/models/gemini-2.5-flash:generateContent"
  const FallbackError := "Erro na API do Gemini"

  /** The upstream URL with the key as a query parameter. */
  function KeyedUrl(key: string): string {
    GenerateUrl + "?key=" + key
  }

  /** `{ contents: [{ parts: [{ text: prompt }] }] }`. */
  function PromptBody(prompt: string): Json {
    JObj([("contents", JArr([JObj([("parts", JArr([JObj([("text", JStr(prompt))])]))])]))])
  }

  /** The one text part of a request body. */
  function OnlyText(body: Json): Option<string> {
    var contents := Prop(Some(body), "contents");
    if contents.Some? && contents.value.JArr? && |contents.value.items| == 1 then
      var parts := Prop(Some(contents.value.items[0]), "parts");
      if parts.Some? && parts.value.JArr? && |parts.value.items| == 1 then
        var text := Prop(Some(parts.value.items[0]), "text");
        if text.Some? && text.value.JStr? then Some(text.value.s) else None
      else None
    else None
  }

  /** The request body holds exactly one content with one part, and that
      part's text is the prompt. */
  lemma PromptBodyCarriesPrompt(prompt: string)
    ensures OnlyText(PromptBody(prompt)) == Some(prompt)
  {
    LookupLast(PromptBody(prompt).fields, 0, "contents", PromptBody(prompt).fields[0].1);
    var content := PromptBody(prompt).fields[0].1.items[0];
    LookupLast(content.fields, 0, "parts", content.fields[0].1);
    var part := content.fields[0].1.items[0];
    LookupLast(part.fields, 0, "text", JStr(prompt));
  }

  /** The request every proxy route sends upstream. */
  function ProxyRequest(key: string, prompt: string): Request {
    Request(KeyedUrl(key), [("Content-Type", "application/json")], PromptBody(prompt))
  }

  /** `result.error?.message || 'Erro na API do Gemini'`: the upstream
      message when it is truthy, otherwise the fixed fallback. */
  function ErrorMessage(result: Json): (r: Json)
    ensures Truthy(r)
    ensures var m := Prop(Prop(Some(result), "error"), "message");
            (Holds(m) ==> r == m.value) && (!Holds(m) ==> r == JStr(FallbackError))
  {
    var m := Prop(Prop(Some(result), "error"), "message");
    if Holds(m) then m.value else JStr(FallbackError)
  }

  /** What became of the upstream call once `response.json()` has run. */
  datatype Verdict =
    | Answered(result: Json)                      // ok: the parsed body
    | Refused(status: int, result: Json)          // not ok, with a non-null body
    | Crashed(message: string)                    // an exception reached the catch block

  /** A thrown `fetch` or an unparsable body reaches the catch block with its
      message; a non-ok `null` body does too, because `result.error` throws. */
  function Judge(upstream: Outcome): (v: Verdict)
    ensures v.Answered? <==> Succeeded(upstream) && upstream.body.parsed.ParsedJson?
    ensures v.Answered? ==> v.result == upstream.body.parsed.value
    ensures v.Refused? <==>
              upstream.Responded? && !IsOk(upstream.status) && upstream.body.parsed.ParsedJson?
              && upstream.body.parsed.value != JNull
    ensures v.Refused? ==> v.status == upstream.status && v.result == upstream.body.parsed.value
    ensures v.Crashed? && upstream.Threw? ==> v.message == upstream.message
  {
    match upstream
    case Threw(_, message) => Crashed(message)
    case Responded(status, _, body) =>
      match body.parsed
      case Unparsable(message) => Crashed(message)
      case ParsedJson(result) =>
        if IsOk(status) then Answered(result)
        else if result == JNull then Crashed(NullReadMessage("error"))
        else Refused(status, result)
  }

  /** The three catch-block bodies: the error alone (the Vercel handlers),
      with `details` (server.js) or with `message` (dev-server.js). */
  datatype CatchStyle = Bare | WithDetails | WithMessage

  function CrashBody(style: CatchStyle, message: string): Json {
    match style
    case Bare => JObj([("error", JStr("Erro interno do servidor"))])
    case WithDetails => JObj([("error", JStr("Erro interno do servidor")), ("details", JStr(message))])
    case WithMessage => JObj([("error", JStr("Erro interno do servidor")), ("message", JStr(message))])
  }

  /** `{ error: result.error?.message || fallback }`, plus `details:
      result.error` when `echoError` (a missing `error` property is left out,
      as `JSON.stringify` drops `undefined`). */
  function RefusalBody(result: Json, echoError: bool): Json {
    var error := Prop(Some(result), "error");
    if echoError && error.Some? then JObj([("error", ErrorMessage(result)), ("details", error.value)])
    else JObj([("error", ErrorMessage(result))])
  }

  /** The response once the upstream call has been made: the verdict decides
      the status, and the route's style decides the error bodies. */
  function Forward(upstream: Outcome, style: CatchStyle, echoError: bool): (r: Response)
    ensures r.body.Some?
    ensures r.status == 200 <==> Judge(upstream).Answered?
    ensures Judge(upstream).Answered? ==> r.body == Some(upstream.body.parsed.value)
    ensures Judge(upstream).Refused? ==>
              r.status == upstream.status && r.body.value.JObj?
              && |r.body.value.fields| > 0 && r.body.value.fields[0] == ("error", ErrorMessage(upstream.body.parsed.value))
    ensures Judge(upstream).Crashed? ==> r.status == 500
  {
    match Judge(upstream)
    case Answered(result) => Response(200, Some(result))
    case Refused(status, result) => Response(status, Some(RefusalBody(result, echoError)))
    case Crashed(message) => Response(500, Some(CrashBody(style, message)))
  }

  /** A non-ok upstream status is never turned into a success: it comes back
      as itself, or as 500 from the catch block. */
  lemma UpstreamFailureNeverSucceeds(upstream: Outcome, style: CatchStyle, echoError: bool)
    requires upstream.Responded? && !IsOk(upstream.status)
    ensures Forward(upstream, style, echoError).status in {upstream.status, 500}
  {
  }

  /** The outcome of a proxy route: its response and the calls it made. */
  datatype Exchange = Exchange(response: Response, calls: seq<Request>)

  const PromptRequired := JObj([("error", JStr("Prompt é obrigatório"))])
  const KeyNotConfigured := JObj([("error", JStr("Configuração do servidor incompleta"))])

  /** `const { prompt } = req.body` then `if (!prompt)`. */
  function PromptOf(b: RequestBody): Option<string> {
    Read(b, "prompt")
  }
}

=== FILE: http.dfy ===
/** What an upstream HTTP call can come back with, and the shape of the
    responses the handlers send. The network itself is not modelled: every
    `fetch` result is an input value of type `Outcome`. */
module Http {
  import opened Wrappers
  import opened Json

  /** The result of `JSON.parse` on a response text. */
  datatype Parsed = ParsedJson(value: Json) | Unparsable(message: string)

  /** A response body: its raw text and what parsing that text gives.
      `response.json()` never parses the empty text, so a consistent body
      with `text == ""` has `parsed.Unparsable?`; the handlers do not rely
      on this. */
  datatype Body = Body(text: string, parsed: Parsed)

  /** One `fetch`: either a response (status, status text, body) or a thrown
      error (its `name`, such as "TypeError", and its `message`). */
  datatype Outcome =
    | Responded(status: int, statusText: string, body: Body)
    | Threw(name: string, message: string)

  /** `response.ok`: the status is in the 2xx range. */
  predicate IsOk(status: int) {
    200 <= status <= 299
  }

  /** The outcome is a response with `response.ok`. */
  predicate Succeeded(o: Outcome) {
    o.Responded? && IsOk(o.status)
  }

  /** An outbound request: URL, headers in the order written, JSON body. */
  datatype Request = Request(url: string, headers: seq<(string, string)>, body: Json)

  /** A response sent to the browser: the status and the JSON body, or no
      body at all for `res.status(200).end()`. */
  datatype Response = Response(status: int, body: Option<Json>)

  /** Incoming JSON bodies, restricted to their string-valued properties,
      in the order they were sent. */
  type RequestBody = seq<(string, string)>

  /** A request-body property read by destructuring (`undefined` if absent;
      the last binding of a repeated key wins, as in `JSON.parse`). */
  function Read(b: RequestBody, key: string): (r: Option<string>)
    ensures r.Some? ==> (key, r.value) in b
    ensures r.None? <==> forall i :: 0 <= i < |b| ==> b[i].0 != key
  {
    if |b| == 0 then None
    else if b[|b| - 1].0 == key then Some(b[|b| - 1].1)
    else Read(b[..|b| - 1], key)
  }

  /** A binding that no later binding of the same key overrides is the one
      `Read` finds: the last binding wins. */
  lemma {:induction false} ReadLastBinding(b: RequestBody, i: nat, key: string)
    requires i < |b| && b[i].0 == key
    requires forall j :: i < j < |b| ==> b[j].0 != key
    ensures Read(b, key) == Some(b[i].1)
    decreases |b|
  {
    if i < |b| - 1 {
      ReadLastBinding(b[..|b| - 1], i, key);
    }
  }

  /** JavaScript truthiness of a string property that may be absent. */
  predicate Filled(v: Option<string>) {
    v.Some? && v.value != ""
  }

  /** The body as a JSON object (for handlers that echo it back). */
  function BodyJson(b: RequestBody): (j: Json)
    ensures j.JObj? && |j.fields| == |b|
    ensures forall i :: 0 <= i < |b| ==> j.fields[i] == (b[i].0, JStr(b[i].1))
  {
    JObj(seq(|b|, i requires 0 <= i < |b| => (b[i].0, JStr(b[i].1))))
  }

  /** Reading a property of the echoed object gives the string the request
      body holds for it, and `undefined` when the body lacks it. */
  lemma {:induction false} BodyJsonReads(b: RequestBody, key: string)
    ensures Lookup(BodyJson(b).fields, key) == (if Read(b, key).Some? then Some(JStr(Read(b, key).value)) else None)
    decreases |b|
  {
    if |b| > 0 {
      var p := b[..|b| - 1];
      assert BodyJson(b).fields[..|b| - 1] == BodyJson(p).fields;
      if b[|b| - 1].0 != key {
        BodyJsonReads(p, key);
      }
    }
  }

  /** The V8 message of the TypeError raised by `const { p } = x` when `x`
      is `undefined`. */
  function DestructureUndefinedMessage(property: string, source: string): string {
    "Cannot destructure property '" + property + "' of '" + source + "' as it is undefined."
  }

  /** The V8 message of the TypeError raised by reading `key` of `null`. */
  function NullReadMessage(key: string): string {
    "Cannot read properties of null (reading '" + key + "')"
  }
}

=== FILE: json.dfy ===
/** JavaScript values as they travel through the handlers: the JSON subset
    (numbers restricted to integers), with objects kept as ORDERED lists of
    properties so that `JSON.stringify` can be modelled faithfully. */
module Json {
  import opened Wrappers

  datatype Json =
    | JNull
    | JBool(b: bool)
    | JNum(n: int)
    | JStr(s: string)
    | JArr(items: seq<Json>)
    | JObj(fields: seq<(string, Json)>)

  /** JavaScript truthiness: `null`, `false`, `0` and `""` are falsy. */
  predicate Truthy(j: Json) {
    match j
    case JNull => false
    case JBool(b) => b
    case JNum(n) => n != 0
    case JStr(s) => s != ""
    case JArr(_) => true
    case JObj(_) => true
  }

  /** Truthiness of a value that may be `undefined` (`None`). */
  predicate Holds(v: Option<Json>) {
    v.Some? && Truthy(v.value)
  }

  /** The property `k` of an object with fields `fs`; as in `JSON.parse`,
      the LAST binding of a repeated key wins. */
  function Lookup(fs: seq<(string, Json)>, k: string): Option<Json> {
    if |fs| == 0 then None
    else if fs[|fs| - 1].0 == k then Some(fs[|fs| - 1].1)
    else Lookup(fs[..|fs| - 1], k)
  }

  /** A key is found exactly when some binding has it. */
  lemma {:induction false} LookupFinds(fs: seq<(string, Json)>, k: string)
    ensures Lookup(fs, k).None? <==> forall i :: 0 <= i < |fs| ==> fs[i].0 != k
    ensures Lookup(fs, k).Some? ==> (k, Lookup(fs, k).value) in fs
  {
    if |fs| > 0 && fs[|fs| - 1].0 != k {
      LookupFinds(fs[..|fs| - 1], k);
      assert forall i :: 0 <= i < |fs| - 1 ==> fs[..|fs| - 1][i] == fs[i];
    }
  }

  /** A binding that no later binding of the same key overrides is the
      one `Lookup` finds: the last binding wins. */
  lemma {:induction false} LookupLast(fs: seq<(string, Json)>, i: nat, k: string, v: Json)
    requires i < |fs| && fs[i] == (k, v)
    requires forall m :: i < m < |fs| ==> fs[m].0 != k
    ensures Lookup(fs, k) == Some(v)
  {
    if i < |fs| - 1 {
      LookupLast(fs[..|fs| - 1], i, k, v);
    }
  }

  /** `v.k` for a value already known not to be `null` or `undefined`, or
      `v?.k`: only objects have the properties this model reads, so every
      other value yields `undefined`. */
  function Prop(v: Option<Json>, k: string): Option<Json> {
    if v.Some? && v.value.JObj? then Lookup(v.value.fields, k) else None
  }

  /** `v[0]`: the first array element, the first character of a string, or
      the property "0" of an object. */
  function Index0(v: Option<Json>): Option<Json> {
    if v.None? then None
    else match v.value
      case JArr(items) => if |items| > 0 then Some(items[0]) else None
      case JStr(s) => if |s| > 0 then Some(JStr([s[0]])) else None
      case JObj(fs) => Lookup(fs, "0")
      case _ => None
  }

  /** Decimal rendering of a natural number. */
  function NatToString(n: nat): (r: string)
    ensures |r| > 0
    ensures forall i :: 0 <= i < |r| ==> '0' <= r[i] <= '9'
    decreases n
  {
    var d := [(('0' as int) + n % 10) as char];
    if n < 10 then d else NatToString(n / 10) + d
  }

  /** The value of a string of decimal digits. */
  function DecimalValue(s: string): nat
    requires forall i :: 0 <= i < |s| ==> '0' <= s[i] <= '9'
  {
    if |s| == 0 then 0
    else 10 * DecimalValue(s[..|s| - 1]) + (s[|s| - 1] as int - '0' as int)
  }

  /** Reading back the decimal rendering gives the number again, so
      distinct status codes render as distinct texts. */
  lemma {:induction false} NatToStringRoundTrip(n: nat)
    ensures DecimalValue(NatToString(n)) == n
    decreases n
  {
    var d := [(('0' as int) + n % 10) as char];
    if n >= 10 {
      NatToStringRoundTrip(n / 10);
      var r := NatToString(n / 10) + d;
      assert r[..|r| - 1] == NatToString(n / 10);
    }
  }

  /** `String(n)` for an integer. */
  function IntToString(n: int): string {
    if n < 0 then "-" + NatToString(-n) else NatToString(n)
  }

  /** `String(v)`: how `+` with a string and template literals render a value. */
  function JsToString(j: Json): string
    decreases j, 1
  {
    match j
    case JNull => "null"
    case JBool(b) => if b then "true" else "false"
    case JNum(n) => IntToString(n)
    case JStr(s) => s
    case JArr(items) => JoinItems(j, 0)
    case JObj(_) => "[object Object]"
  }

  /** `Array.prototype.join(",")` over `parent.items[i..]`, where `null`
      elements render as the empty string. */
  function JoinItems(parent: Json, i: nat): string
    requires parent.JArr? && i <= |parent.items|
    decreases parent, 0, |parent.items| - i
  {
    if i == |parent.items| then ""
    else
      var e := parent.items[i];
      assert e in parent.items;
      var here := if e.JNull? then "" else JsToString(e);
      if i + 1 == |parent.items| then here else here + "," + JoinItems(parent, i + 1)
  }

  /** One hexadecimal digit (lower case, as `JSON.stringify` writes it). */
  function HexDigit(n: nat): char
    requires n < 16
  {
    if n < 10 then (('0' as int) + n) as char else (('a' as int) + n - 10) as char
  }

  /** The escaped form of one character inside a JSON string literal. */
  function EscapeChar(c: char): string {
    if c == '"' then "\\\""
    else if c == '\\' then "\\\\"
    else if c == '\U{8}' then "\\b"
    else if c == '\U{C}' then "\\f"
    else if c == '\n' then "\\n"
    else if c == '\r' then "\\r"
    else if c == '\t' then "\\t"
    else if (c as int) < 0x20 then ['\\', 'u', '0', '0', HexDigit((c as int) / 16), HexDigit((c as int) % 16)]
    else [c]
  }

  function EscapeString(s: string): string {
    if |s| == 0 then "" else EscapeChar(s[0]) + EscapeString(s[1..])
  }

  /** A JSON string literal: the escaped text between double quotes. */
  function Quote(s: string): string {
    "\"" + EscapeString(s) + "\""
  }

  /** `JSON.stringify(v)` without indentation. Object properties are
      written in the engine's own-key order (`OwnKeyOrder`). */
  function Serialize(j: Json): string
    decreases j, 1
  {
    match j
    case JNull => "null"
    case JBool(b) => if b then "true" else "false"
    case JNum(n) => IntToString(n)
    case JStr(s) => Quote(s)
    case JArr(items) => "[" + SerializeItems(j, 0) + "]"
    case JObj(fs) =>
      OwnKeyOrderSpec(fs);
      "{" + SerializeFields(j, OwnKeyOrder(fs), 0) + "}"
  }

  function SerializeItems(parent: Json, i: nat): string
    requires parent.JArr? && i <= |parent.items|
    decreases parent, 0, |parent.items| - i
  {
    if i == |parent.items| then ""
    else
      var e := parent.items[i];
      assert e in parent.items;
      var here := Serialize(e);
      if i + 1 == |parent.items| then here else here + "," + SerializeItems(parent, i + 1)
  }

  /** The properties `order[i..]` of `parent`, comma-separated. */
  function SerializeFields(parent: Json, order: seq<(string, Json)>, i: nat): string
    requires parent.JObj? && i <= |order|
    requires multiset(order) == multiset(parent.fields)
    decreases parent, 0, |order| - i
  {
    if i == |order| then ""
    else
      var f := order[i];
      assert f in multiset(parent.fields);
      var here := Quote(f.0) + ":" + Serialize(f.1);
      if i + 1 == |order| then here else here + "," + SerializeFields(parent, order, i + 1)
  }

  // ---------------------------------------------------------------------
  // Own-key order (section 10.1.11.1, OrdinaryOwnPropertyKeys, of
  // ECMA-262): properties whose names are array indices come first, in
  // ascending numeric order; the others follow in insertion order.

  predicate AllDecimal(k: string) {
    forall i :: 0 <= i < |k| ==> '0' <= k[i] <= '9'
  }

  /** The numeric value of a property name that is an array index: a
      canonical decimal ("0", or no leading zero) below 2^32 - 1. */
  function ArrayIndex(k: string): Option<nat> {
    if |k| == 0 || !AllDecimal(k) || (|k| > 1 && k[0] == '0') then None
    else if DecimalValue(k) < 0xFFFF_FFFF then Some(DecimalValue(k))
    else None
  }

  predicate IsIndexed(p: (string, Json)) {
    ArrayIndex(p.0).Some?
  }

  /** The index a property name stands for (0 when it is not an index). */
  function IndexValue(p: (string, Json)): nat {
    ArrayIndex(p.0).GetOr(0)
  }

  /** The properties named by array indices, in list order. */
  function IndexedFields(fs: seq<(string, Json)>): (r: seq<(string, Json)>)
    ensures forall p :: p in r ==> IsIndexed(p)
  {
    if |fs| == 0 then []
    else if IsIndexed(fs[0]) then [fs[0]] + IndexedFields(fs[1..])
    else IndexedFields(fs[1..])
  }

  /** The other properties, in list order. */
  function NamedFields(fs: seq<(string, Json)>): (r: seq<(string, Json)>)
    ensures forall p :: p in r ==> !IsIndexed(p)
  {
    if |fs| == 0 then []
    else if IsIndexed(fs[0]) then NamedFields(fs[1..])
    else [fs[0]] + NamedFields(fs[1..])
  }

  /** Indexed properties in nondecreasing index order. */
  predicate IndexSorted(fs: seq<(string, Json)>) {
    forall i, j :: 0 <= i < j < |fs| ==> IndexValue(fs[i]) <= IndexValue(fs[j])
  }

  /** Insertion of one property into a list sorted by index: before the
      first property whose index is not smaller. */
  function InsertByIndex(p: (string, Json), sorted: seq<(string, Json)>): (r: seq<(string, Json)>)
    ensures multiset(r) == multiset(sorted) + multiset{p}
    ensures |r| > 0 && r[0] == (if |sorted| == 0 || IndexValue(p) <= IndexValue(sorted[0]) then p else sorted[0])
  {
    if |sorted| == 0 then [p]
    else if IndexValue(p) <= IndexValue(sorted[0]) then [p] + sorted
    else
      assert sorted == [sorted[0]] + sorted[1..];
      [sorted[0]] + InsertByIndex(p, sorted[1..])
  }

  /** Insertion keeps a sorted list sorted. */
  lemma {:induction false} InsertSorted(p: (string, Json), sorted: seq<(string, Json)>)
    requires IndexSorted(sorted)
    ensures IndexSorted(InsertByIndex(p, sorted))
  {
    if |sorted| > 0 && IndexValue(p) > IndexValue(sorted[0]) {
      var rest := InsertByIndex(p, sorted[1..]);
      InsertSorted(p, sorted[1..]);
      assert IndexValue(sorted[0]) <= IndexValue(rest[0]);
      assert InsertByIndex(p, sorted) == [sorted[0]] + rest;
    }
  }

  function SortByIndex(fs: seq<(string, Json)>): (r: seq<(string, Json)>)
    ensures multiset(r) == multiset(fs)
    ensures IndexSorted(r)
  {
    if |fs| == 0 then []
    else
      assert fs == [fs[0]] + fs[1..];
      InsertSorted(fs[0], SortByIndex(fs[1..]));
      InsertByIndex(fs[0], SortByIndex(fs[1..]))
  }

  /** The order in which `JSON.stringify` (and `Object.keys`) visits the
      properties. */
  function OwnKeyOrder(fs: seq<(string, Json)>): seq<(string, Json)> {
    SortByIndex(IndexedFields(fs)) + NamedFields(fs)
  }

  lemma {:induction false} SplitKeepsFields(fs: seq<(string, Json)>)
    ensures multiset(IndexedFields(fs)) + multiset(NamedFields(fs)) == multiset(fs)
  {
    if |fs| > 0 {
      SplitKeepsFields(fs[1..]);
      assert fs == [fs[0]] + fs[1..];
    }
  }

  lemma {:induction false} NoIndexedFields(fs: seq<(string, Json)>)
    requires forall i :: 0 <= i < |fs| ==> !IsIndexed(fs[i])
    ensures IndexedFields(fs) == [] && NamedFields(fs) == fs
  {
    if |fs| > 0 {
      NoIndexedFields(fs[1..]);
      assert fs == [fs[0]] + fs[1..];
    }
  }

  /** The own-key order is a permutation of the properties that puts every
      array-index name first, in ascending order, and keeps the other names
      in insertion order; without array-index names nothing moves. */
  lemma OwnKeyOrderSpec(fs: seq<(string, Json)>)
    ensures multiset(OwnKeyOrder(fs)) == multiset(fs)
    ensures var r := OwnKeyOrder(fs);
            forall i, j :: 0 <= i < j < |r| && IsIndexed(r[j]) ==>
              IsIndexed(r[i]) && IndexValue(r[i]) <= IndexValue(r[j])
    ensures |IndexedFields(fs)| <= |OwnKeyOrder(fs)| && OwnKeyOrder(fs)[|IndexedFields(fs)|..] == NamedFields(fs)
    ensures (forall i :: 0 <= i < |fs| ==> !IsIndexed(fs[i])) ==> OwnKeyOrder(fs) == fs
  {
    SplitKeepsFields(fs);
    var a := SortByIndex(IndexedFields(fs));
    var b := NamedFields(fs);
    assert |a| == |IndexedFields(fs)| by {
      assert |multiset(a)| == |multiset(IndexedFields(fs))|;
    }
    var r := a + b;
    forall i, j | 0 <= i < j < |r| && IsIndexed(r[j])
      ensures IsIndexed(r[i]) && IndexValue(r[i]) <= IndexValue(r[j])
    {
      if j < |a| {
        assert r[i] == a[i] && r[j] == a[j];
        assert a[i] in multiset(IndexedFields(fs));
      }
    }
    if forall i :: 0 <= i < |fs| ==> !IsIndexed(fs[i]) {
      NoIndexedFields(fs);
    }
  }

  /** A single property stays where it is. */
  lemma SingleKeyOrder(p: (string, Json))
    ensures OwnKeyOrder([p]) == [p]
  {
    assert [p][1..] == [];
    assert IndexedFields([p][1..]) == [] && NamedFields([p][1..]) == [];
  }

  /** `JSON.stringify` of a one-property object. */
  lemma SerializeSingleField(k: string, v: Json)
    ensures Serialize(JObj([(k, v)])) == "{" + Quote(k) + ":" + Serialize(v) + "}"
  {
    var fs := [(k, v)];
    SingleKeyOrder((k, v));
    assert SerializeFields(JObj(fs), fs, 0) == Quote(k) + ":" + Serialize(v);
  }

  /** `JSON.stringify` of a two-property object, in its own-key order. */
  lemma SerializeTwoFields(fs: seq<(string, Json)>)
    requires |fs| == 2
    ensures var o := OwnKeyOrder(fs);
            |o| == 2 &&
            Serialize(JObj(fs)) == "{" + (Quote(o[0].0) + ":" + Serialize(o[0].1) + ","
                                       + (Quote(o[1].0) + ":" + Serialize(o[1].1))) + "}"
  {
    OwnKeyOrderSpec(fs);
    var o := OwnKeyOrder(fs);
    assert |o| == 2 by {
      assert |multiset(o)| == |multiset(fs)|;
    }
    var j := JObj(fs);
    assert Serialize(j) == "{" + SerializeFields(j, o, 0) + "}";
    assert SerializeFields(j, o, 1) == Quote(o[1].0) + ":" + Serialize(o[1].1);
  }

  /** A JSON array of strings. */
  function Strings(ss: seq<string>): (r: Json)
    ensures r.JArr? && |r.items| == |ss|
    ensures forall i :: 0 <= i < |ss| ==> r.items[i] == JStr(ss[i])
  {
    JArr(seq(|ss|, i requires 0 <= i < |ss| => JStr(ss[i])))
  }
}

=== FILE: lead_fields.dfy ===
/** The five fields of a lead and the "missing fields" list that every
    lead-submission variant builds in the same fixed order. */
module LeadFields {
  import opened Wrappers
  import opened Json
  import opened Http

  datatype Field = Nome | Email | Celular | Cargo | TamanhoEmpresa {

    /** The property name in request bodies and in `missing_fields`. */
    function Key(): string {
      match this
      case Nome => "nome"
      case Email => "email"
      case Celular => "celular"
      case Cargo => "cargo"
      case TamanhoEmpresa => "tamanhoEmpresa"
    }

    /** Position in the fixed checking order. */
    function Rank(): nat {
      match this
      case Nome => 0
      case Email => 1
      case Celular => 2
      case Cargo => 3
      case TamanhoEmpresa => 4
    }
  }

  /** The order in which every variant checks the fields. */
  const AllFields: seq<Field> := [Nome, Email, Celular, Cargo, TamanhoEmpresa]

  /** Strictly increasing in checking order (hence also without repeats). */
  predicate InFieldOrder(fs: seq<Field>) {
    forall i, j :: 0 <= i < j < |fs| ==> fs[i].Rank() < fs[j].Rank()
  }

  /** The fields of `fs` (taken in order) that are not filled. */
  function MissingAmong(fs: seq<Field>, filled: Field -> bool): (r: seq<Field>)
    requires InFieldOrder(fs)
    ensures forall f :: f in r <==> f in fs && !filled(f)
    ensures InFieldOrder(r)
  {
    if |fs| == 0 then []
    else
      var rest := MissingAmong(fs[1..], filled);
      assert forall i :: 0 <= i < |rest| ==> fs[0].Rank() < rest[i].Rank() by {
        forall i | 0 <= i < |rest|
          ensures fs[0].Rank() < rest[i].Rank()
        {
          assert rest[i] in fs[1..];
          var j :| 0 <= j < |fs[1..]| && fs[1..][j] == rest[i];
          assert fs[j + 1] == rest[i];
        }
      }
      if filled(fs[0]) then rest else [fs[0]] + rest
  }

  /** The missing-field list: exactly the unfilled fields, in checking order.
      Membership plus strict order determine the list uniquely. */
  function Missing(filled: Field -> bool): (r: seq<Field>)
    ensures forall f :: f in r <==> !filled(f)
    ensures InFieldOrder(r)
    ensures |r| == 0 <==> forall f :: filled(f)
  {
    forall f: Field ensures f in AllFields {
      assert AllFields[f.Rank()] == f;
    }
    MissingAmong(AllFields, filled)
  }

  /** Two lists in checking order with the same members are equal, so the
      contract of `Missing` pins down its result. */
  lemma {:induction false} InFieldOrderUnique(a: seq<Field>, b: seq<Field>)
    requires InFieldOrder(a) && InFieldOrder(b)
    requires forall f :: f in a <==> f in b
    ensures a == b
    decreases |a| + |b|
  {
    if |a| > 0 || |b| > 0 {
      assert |a| > 0 && |b| > 0 by {
        if |a| > 0 { assert a[0] in b; }
        if |b| > 0 { assert b[0] in a; }
      }
      assert a[0] == b[0] by {
        assert a[0] in b && b[0] in a;
        RankInjective(a[0], b[0]);
      }
      forall f ensures f in a[1..] <==> f in b[1..] {
        if f in a[1..] {
          TailMember(a, b, f);
        }
        if f in b[1..] {
          TailMember(b, a, f);
        }
      }
      InFieldOrderUnique(a[1..], b[1..]);
      assert a == [a[0]] + a[1..] && b == [b[0]] + b[1..];
    }
  }

  /** With equal heads, a member of one tail is in the other tail: it
      ranks above the head, so it cannot be the head. */
  lemma TailMember(a: seq<Field>, b: seq<Field>, f: Field)
    requires InFieldOrder(a) && InFieldOrder(b)
    requires |a| > 0 && |b| > 0 && a[0] == b[0]
    requires forall g :: g in a <==> g in b
    requires f in a[1..]
    ensures f in b[1..]
  {
    var j :| 0 <= j < |a[1..]| && a[1..][j] == f;
    assert a[0].Rank() < a[j + 1].Rank();
    assert a[j + 1] in a;
    var k :| 0 <= k < |b| && b[k] == f;
    assert k != 0;
    assert b[1..][k - 1] == f;
  }

  lemma RankInjective(f: Field, g: Field)
    requires f.Rank() == g.Rank()
    ensures f == g
  {
  }

  /** The field a request body supplies (`undefined` if absent). */
  function Value(b: RequestBody, f: Field): Option<string> {
    Read(b, f.Key())
  }

  /** `missingFields` of the server handlers: the fields whose value in the
      body is falsy (absent or empty), in checking order. */
  function MissingIn(b: RequestBody): (r: seq<Field>)
    ensures forall f :: f in r <==> !Filled(Value(b, f))
    ensures InFieldOrder(r)
  {
    Missing(f => Filled(Value(b, f)))
  }

  /** The keys of a missing-field list, as the JSON `missing_fields` array. */
  function Keys(fs: seq<Field>): (r: seq<string>)
    ensures |r| == |fs|
    ensures forall i :: 0 <= i < |fs| ==> r[i] == fs[i].Key()
  {
    seq(|fs|, i requires 0 <= i < |fs| => fs[i].Key())
  }

  /** The `missing_fields` array names exactly the lead keys whose value in
      the request body is falsy. */
  lemma MissingKeysNameFalsy(b: RequestBody, k: string)
    ensures k in Keys(MissingIn(b)) <==> k in Keys(AllFields) && !Filled(Read(b, k))
  {
    if k in Keys(MissingIn(b)) {
      MissingKeyIsFalsy(b, k);
    }
    if k in Keys(AllFields) && !Filled(Read(b, k)) {
      FalsyKeyIsMissing(b, k);
    }
  }

  lemma MissingKeyIsFalsy(b: RequestBody, k: string)
    requires k in Keys(MissingIn(b))
    ensures k in Keys(AllFields) && !Filled(Read(b, k))
  {
    var f := KeyWitness(MissingIn(b), k);
    assert !Filled(Value(b, f));
    FieldKeyListed(f);
  }

  lemma FieldKeyListed(f: Field)
    ensures f.Key() in Keys(AllFields)
  {
    assert AllFields[f.Rank()] == f;
    KeyListed(AllFields, f.Rank());
  }

  lemma FalsyKeyIsMissing(b: RequestBody, k: string)
    requires k in Keys(AllFields) && !Filled(Read(b, k))
    ensures k in Keys(MissingIn(b))
  {
    var m := MissingIn(b);
    var f := KeyWitness(AllFields, k);
    assert f in m;
    var j :| 0 <= j < |m| && m[j] == f;
    KeyListed(m, j);
  }

  /** A key in the list of keys comes from a field of the list. */
  lemma KeyWitness(fs: seq<Field>, k: string) returns (f: Field)
    requires k in Keys(fs)
    ensures f in fs && f.Key() == k
  {
    var i :| 0 <= i < |fs| && Keys(fs)[i] == k;
    f := fs[i];
  }

  lemma KeyListed(fs: seq<Field>, i: nat)
    requires i < |fs|
    ensures fs[i].Key() in Keys(fs)
  {
    assert Keys(fs)[i] == fs[i].Key();
  }

  /** The five values of a lead as the handlers destructure them from the
      request body; an absent property is kept as the empty string (the
      handlers only build a lead once their required fields are present). */
  datatype Lead = Lead(nome: string, email: string, celular: string, cargo: string, tamanhoEmpresa: string) {

    function Get(f: Field): string {
      match f
      case Nome => nome
      case Email => email
      case Celular => celular
      case Cargo => cargo
      case TamanhoEmpresa => tamanhoEmpresa
    }
  }

  /** The lead a request body describes. */
  function LeadOf(b: RequestBody): (l: Lead)
    ensures forall f :: l.Get(f) == Value(b, f).GetOr("")
    ensures forall f :: l.Get(f) == "" <==> f in MissingIn(b)
    ensures forall f :: l.Get(f) != "" ==> Value(b, f) == Some(l.Get(f))
  {
    var l := Lead(Value(b, Nome).GetOr(""), Value(b, Email).GetOr(""), Value(b, Celular).GetOr(""),
                  Value(b, Cargo).GetOr(""), Value(b, TamanhoEmpresa).GetOr(""));
    assert forall f :: l.Get(f) == Value(b, f).GetOr("") by {
      forall f
        ensures l.Get(f) == Value(b, f).GetOr("")
      {
        assert f.Nome? || f.Email? || f.Celular? || f.Cargo? || f.TamanhoEmpresa?;
      }
    }
    l
  }

  /** `{ nome, email, celular, cargo, tamanhoEmpresa }`: the lead echoed back
      in the success envelopes, under the request-body keys. */
  function LeadJson(l: Lead): (j: Json)
    ensures j.JObj? && |j.fields| == |AllFields|
    ensures forall i :: 0 <= i < |AllFields| ==> j.fields[i] == (AllFields[i].Key(), JStr(l.Get(AllFields[i])))
  {
    JObj([("nome", JStr(l.nome)), ("email", JStr(l.email)), ("celular", JStr(l.celular)),
          ("cargo", JStr(l.cargo)), ("tamanhoEmpresa", JStr(l.tamanhoEmpresa))])
  }

  /** Every field of the echoed lead can be read back under its key. */
  lemma LeadJsonEchoes(l: Lead, f: Field)
    ensures Lookup(LeadJson(l).fields, f.Key()) == Some(JStr(l.Get(f)))
  {
    assert AllFields[f.Rank()] == f;
    LookupLast(LeadJson(l).fields, f.Rank(), f.Key(), JStr(l.Get(f)));
  }
}

=== FILE: lead_form.dfy ===
/** The pure decisions of the lead form in the browser (envia-rd.js):
    the submit-time validation `validateLeadForm`, the as-you-type
    validation `validateFormRealTime` and the classification of submission
    errors as "backend unavailable". Reading and writing the DOM is replaced
    by the `FormInput` record and the returned result records. */
module LeadForm {
  import opened Wrappers
  import opened Text
  import opened Validators
  import opened LeadFields

  /** The values of the five form controls; `None` when the element is not
      on the page. */
  datatype FormInput = FormInput(
    nome: Option<string>,
    email: Option<string>,
    celular: Option<string>,
    cargo: Option<string>,
    tamanhoEmpresa: Option<string>)
  {
    function Raw(f: Field): Option<string> {
      match f
      case Nome => nome
      case Email => email
      case Celular => celular
      case Cargo => cargo
      case TamanhoEmpresa => tamanhoEmpresa
    }

    /** `element?.value.trim() || ''`. */
    function Collected(f: Field): string {
      if Raw(f).Some? then Trim(Raw(f).value) else ""
    }
  }

  /** One entry of the submit-time error list. */
  datatype FormError =
    | NomeTooShort | EmailRequired | EmailMalformed | EmailPersonal
    | CelularRequired | CelularMalformed | CargoTooShort | TamanhoRequired
  {
    /** The field the error is about. */
    function Subject(): Field {
      match this
      case NomeTooShort => Nome
      case EmailRequired => Email
      case EmailMalformed => Email
      case EmailPersonal => Email
      case CelularRequired => Celular
      case CelularMalformed => Celular
      case CargoTooShort => Cargo
      case TamanhoRequired => TamanhoEmpresa
    }

    /** The message shown to the user. */
    function Message(): string {
      match this
      case NomeTooShort => "Nome completo é obrigatório (mínimo 2 caracteres)"
      case EmailRequired => "E-mail é obrigatório"
      case EmailMalformed => "E-mail deve ter um formato válido"
      case EmailPersonal => "Por favor, use um e-mail corporativo (não pessoal como Gmail, Yahoo, Hotmail, etc.)"
      case CelularRequired => "Celular é obrigatório"
      case CelularMalformed => "Celular deve ter um formato válido (DDD + número)"
      case CargoTooShort => "Cargo é obrigatório (mínimo 2 caracteres)"
      case TamanhoRequired => "Tamanho da empresa é obrigatório"
    }
  }

  /** The trimmed field values (`formData`), as the form hands them to the
      submission step. */
  datatype FormData = FormData(nome: string, email: string, celular: string, cargo: string, tamanhoEmpresa: string)
  {
    function Get(f: Field): string {
      match f
      case Nome => nome
      case Email => email
      case Celular => celular
      case Cargo => cargo
      case TamanhoEmpresa => tamanhoEmpresa
    }
  }

  /** Reading the form: every value trimmed, a missing element read as the
      empty string. */
  function Collect(form: FormInput): (d: FormData)
    ensures forall f :: d.Get(f) == form.Collected(f)
  {
    var d := FormData(form.Collected(Nome), form.Collected(Email), form.Collected(Celular),
                      form.Collected(Cargo), form.Collected(TamanhoEmpresa));
    assert forall f :: d.Get(f) == form.Collected(f) by {
      forall f
        ensures d.Get(f) == form.Collected(f)
      {
        assert f.Nome? || f.Email? || f.Celular? || f.Cargo? || f.TamanhoEmpresa?;
      }
    }
    d
  }

  /** A collected value is empty exactly when its control is absent or holds
      only whitespace, and otherwise has no whitespace at either end. */
  lemma CollectTrims(form: FormInput)
    ensures forall f :: Collect(form).Get(f) == "" <==> form.Raw(f).None? || AllSpace(form.Raw(f).value)
    ensures forall f :: var v := Collect(form).Get(f); v == "" || (!IsSpace(v[0]) && !IsSpace(v[|v| - 1]))
  {
    forall f
      ensures Collect(form).Get(f) == "" <==> form.Raw(f).None? || AllSpace(form.Raw(f).value)
      ensures var v := Collect(form).Get(f); v == "" || (!IsSpace(v[0]) && !IsSpace(v[|v| - 1]))
    {
      if form.Raw(f).Some? {
        TrimSpec(form.Raw(f).value);
      }
    }
  }

  /** `validateLeadForm`'s result: nothing (after an alert listing the empty
      fields) or the `{isValid, errors, data}` record. */
  datatype FormResult =
    | Incomplete(missing: seq<Field>)
    | Checked(isValid: bool, errors: seq<FormError>, data: FormData)

  /** The outcome of every check `validateLeadForm` makes on the trimmed
      values, computed once. */
  datatype Checks = Checks(
    nomeShort: bool,
    emailEmpty: bool,
    emailValid: bool,
    emailCorporate: bool,
    celularEmpty: bool,
    celularValid: bool,
    cargoShort: bool,
    tamanhoEmpty: bool)

  /** The checks on the trimmed values: a name or job title is too short
      below two UTF-16 code units (an empty one included). */
  function ChecksOf(d: FormData): (c: Checks)
    ensures c.nomeShort <==> Utf16Length(d.nome) < 2
    ensures c.emailEmpty <==> d.email == ""
    ensures c.emailValid <==> IsValidEmail(d.email)
    ensures c.emailCorporate <==> IsCorporateEmail(d.email)
    ensures c.celularEmpty <==> d.celular == ""
    ensures c.celularValid <==> IsValidPhone(d.celular)
    ensures c.cargoShort <==> Utf16Length(d.cargo) < 2
    ensures c.tamanhoEmpty <==> d.tamanhoEmpresa == ""
  {
    Checks(
      d.nome == "" || Utf16Length(d.nome) < 2,
      d.email == "",
      IsValidEmail(d.email),
      IsCorporateEmail(d.email),
      d.celular == "",
      IsValidPhone(d.celular),
      d.cargo == "" || Utf16Length(d.cargo) < 2,
      d.tamanhoEmpresa == "")
  }

  /** The error reported for one field, if any; the email checks are tried
      in order and stop at the first failure, and so are the phone's. */
  function ErrorOf(f: Field, c: Checks): (r: Option<FormError>)
    ensures r.Some? ==> r.value.Subject() == f
    ensures r == Some(NomeTooShort) <==> f == Nome && c.nomeShort
    ensures r == Some(EmailRequired) <==> f == Email && c.emailEmpty
    ensures r == Some(EmailMalformed) <==> f == Email && !c.emailEmpty && !c.emailValid
    ensures r == Some(EmailPersonal) <==> f == Email && !c.emailEmpty && c.emailValid && !c.emailCorporate
    ensures r == Some(CelularRequired) <==> f == Celular && c.celularEmpty
    ensures r == Some(CelularMalformed) <==> f == Celular && !c.celularEmpty && !c.celularValid
    ensures r == Some(CargoTooShort) <==> f == Cargo && c.cargoShort
    ensures r == Some(TamanhoRequired) <==> f == TamanhoEmpresa && c.tamanhoEmpty
  {
    match f
    case Nome => if c.nomeShort then Some(NomeTooShort) else None
    case Email =>
      if c.emailEmpty then Some(EmailRequired)
      else if !c.emailValid then Some(EmailMalformed)
      else if !c.emailCorporate then Some(EmailPersonal)
      else None
    case Celular =>
      if c.celularEmpty then Some(CelularRequired)
      else if !c.celularValid then Some(CelularMalformed)
      else None
    case Cargo => if c.cargoShort then Some(CargoTooShort) else None
    case TamanhoEmpresa => if c.tamanhoEmpty then Some(TamanhoRequired) else None
  }

  /** `a` is about a field checked before `b`'s. */
  predicate Before(a: FormError, b: FormError) {
    a.Subject().Rank() < b.Subject().Rank()
  }

  /** Strictly increasing in checking order, so at most one error per
      field. */
  predicate ErrorsInOrder(errors: seq<FormError>) {
    forall i, j :: 0 <= i < j < |errors| ==> Before(errors[i], errors[j])
  }

  function FieldOfRank(k: nat): (f: Field)
    requires k < |AllFields|
    ensures f.Rank() == k
  {
    AllFields[k]
  }

  /** The errors of the fields of rank `k` and above, in checking order. */
  function ErrorsFrom(k: nat, errorOf: Field -> Option<FormError>): (r: seq<FormError>)
    requires k <= |AllFields|
    requires forall f :: errorOf(f).Some? ==> errorOf(f).value.Subject() == f
    ensures forall e :: e in r <==> e.Subject().Rank() >= k && errorOf(e.Subject()) == Some(e)
    ensures forall i :: 0 <= i < |r| ==> r[i].Subject().Rank() >= k
    ensures ErrorsInOrder(r)
    decreases |AllFields| - k
  {
    if k == |AllFields| then []
    else
      var rest := ErrorsFrom(k + 1, errorOf);
      var f := FieldOfRank(k);
      assert forall g: Field :: g.Rank() == k ==> g == f by {
        forall g: Field | g.Rank() == k ensures g == f { RankInjective(g, f); }
      }
      match errorOf(f)
      case None => rest
      case Some(e) =>
        var r := [e] + rest;
        assert forall i :: 0 < i < |r| ==> r[i] == rest[i - 1];
        r
  }

  /** The error list of `validateLeadForm`: at most one error per field, in
      field order, each exactly when its check fails; the three email errors
      exclude one another, and so do the two phone errors. */
  function FieldErrors(c: Checks): (r: seq<FormError>)
    ensures ErrorsInOrder(r)
    ensures NomeTooShort in r <==> c.nomeShort
    ensures EmailRequired in r <==> c.emailEmpty
    ensures EmailMalformed in r <==> !c.emailEmpty && !c.emailValid
    ensures EmailPersonal in r <==> !c.emailEmpty && c.emailValid && !c.emailCorporate
    ensures CelularRequired in r <==> c.celularEmpty
    ensures CelularMalformed in r <==> !c.celularEmpty && !c.celularValid
    ensures CargoTooShort in r <==> c.cargoShort
    ensures TamanhoRequired in r <==> c.tamanhoEmpty
  {
    var errorOf := f => ErrorOf(f, c);
    var r := ErrorsFrom(0, errorOf);
    assert NomeTooShort in r <==> errorOf(Nome) == Some(NomeTooShort);
    assert EmailRequired in r <==> errorOf(Email) == Some(EmailRequired);
    assert EmailMalformed in r <==> errorOf(Email) == Some(EmailMalformed);
    assert EmailPersonal in r <==> errorOf(Email) == Some(EmailPersonal);
    assert CelularRequired in r <==> errorOf(Celular) == Some(CelularRequired);
    assert CelularMalformed in r <==> errorOf(Celular) == Some(CelularMalformed);
    assert CargoTooShort in r <==> errorOf(Cargo) == Some(CargoTooShort);
    assert TamanhoRequired in r <==> errorOf(TamanhoEmpresa) == Some(TamanhoRequired);
    r
  }

  /** The `{isValid, errors, data}` record for trimmed values that are all
      filled in: valid exactly when no check failed, and the data is the
      input with the phone formatted. */
  function CheckForm(d: FormData): (r: FormResult)
    ensures r.Checked?
    ensures r.errors == FieldErrors(ChecksOf(d))
    ensures r.isValid <==> r.errors == []
    ensures r.data == d.(celular := FormatPhone(d.celular))
  {
    var errors := FieldErrors(ChecksOf(d));
    Checked(|errors| == 0, errors, d.(celular := FormatPhone(d.celular)))
  }

  /** `validateLeadForm`: if any trimmed field is empty the form is not
      checked and exactly the empty fields are reported, in checking order;
      otherwise the form is checked. */
  function ValidateLeadForm(form: FormInput): (r: FormResult)
    ensures var d := Collect(form);
      && (r.Incomplete? <==> exists f :: d.Get(f) == "")
      && (r.Incomplete? ==> (forall f :: f in r.missing <==> d.Get(f) == "") && InFieldOrder(r.missing))
      && (r.Checked? ==> r == CheckForm(d))
  {
    var d := Collect(form);
    var missing := Missing(f => d.Get(f) != "");
    if |missing| > 0 then
      assert missing[0] in missing;
      Incomplete(missing)
    else
      CheckForm(d)
  }

  // ---------------------------------------------------------------------
  // As-you-type validation (envia-rd.js:740-807)

  /** What happens to a field's inline error message. */
  datatype Feedback = Untouched | Cleared | Shown(message: string)

  datatype RealTimeResult = RealTimeResult(
    valid: bool,
    submitDisabled: Option<bool>,
    nome: Feedback,
    email: Feedback,
    celular: Feedback,
    cargo: Feedback,
    tamanhoEmpresa: Feedback)

  // Each real-time check reads `element?.value.trim()`: a missing element
  // gives `undefined`, which fails every check exactly as the empty string
  // does, so the checks can be stated on the collected values.

  predicate NomeOk(d: FormData) {
    Utf16Length(d.nome) >= 2
  }

  predicate EmailOk(d: FormData) {
    d.email != "" && IsValidEmail(d.email) && IsCorporateEmail(d.email)
  }

  predicate CelularOk(d: FormData) {
    d.celular != "" && IsValidPhone(d.celular)
  }

  predicate CargoOk(d: FormData) {
    Utf16Length(d.cargo) > 0
  }

  predicate TamanhoOk(d: FormData) {
    Utf16Length(d.tamanhoEmpresa) > 0
  }

  function NomeFeedback(d: FormData): (r: Feedback)
    ensures r.Shown? <==> d.nome != "" && !NomeOk(d)
    ensures r == Untouched <==> d.nome == ""
  {
    if d.nome != "" then
      if !NomeOk(d) then Shown("Nome deve ter pelo menos 2 caracteres") else Cleared
    else Untouched
  }

  function EmailFeedback(d: FormData): (r: Feedback)
    ensures r.Shown? <==> d.email != "" && !EmailOk(d)
    ensures r == Untouched <==> d.email == ""
    ensures r == Shown("Formato de e-mail inválido") <==> d.email != "" && !IsValidEmail(d.email)
    ensures r == Shown("Por favor, use um e-mail corporativo") <==>
              d.email != "" && IsValidEmail(d.email) && !IsCorporateEmail(d.email)
  {
    if d.email != "" then
      if !IsValidEmail(d.email) then Shown("Formato de e-mail inválido")
      else if !IsCorporateEmail(d.email) then Shown("Por favor, use um e-mail corporativo")
      else Cleared
    else Untouched
  }

  function CelularFeedback(d: FormData): (r: Feedback)
    ensures r.Shown? <==> d.celular != "" && !CelularOk(d)
    ensures r == Untouched <==> d.celular == ""
  {
    if d.celular != "" then
      if !IsValidPhone(d.celular) then Shown("Formato de telefone inválido (DDD + número)") else Cleared
    else Untouched
  }

  /** The select fields complain only about a non-empty value that trims to
      nothing; otherwise their message is cleared. */
  function SelectFeedback(v: Option<string>, message: string): (r: Feedback)
    ensures r.Shown? <==> v.Some? && v.value != "" && Trim(v.value) == ""
    ensures r != Untouched
  {
    if v.Some? && Utf16Length(Trim(v.value)) == 0 && v.value != "" then Shown(message) else Cleared
  }

  /** `validateFormRealTime`: the form is valid exactly when every field's
      own check passes, and the submit button (when present) is disabled
      exactly when the form is not valid. */
  function ValidateFormRealTime(form: FormInput, hasSubmitButton: bool): (r: RealTimeResult)
    ensures var d := Collect(form);
      r.valid <==> NomeOk(d) && EmailOk(d) && CelularOk(d) && CargoOk(d) && TamanhoOk(d)
    ensures hasSubmitButton ==> r.submitDisabled == Some(!r.valid)
    ensures !hasSubmitButton ==> r.submitDisabled.None?
  {
    var d := Collect(form);
    var isFormValid := NomeOk(d) && EmailOk(d) && CelularOk(d) && CargoOk(d) && TamanhoOk(d);
    RealTimeResult(
      isFormValid,
      if hasSubmitButton then Some(!isFormValid) else None,
      NomeFeedback(d), EmailFeedback(d), CelularFeedback(d),
      SelectFeedback(form.cargo, "Selecione um cargo válido"),
      SelectFeedback(form.tamanhoEmpresa, "Selecione o tamanho da empresa"))
  }

  /** Whatever passes the submit-time validation also enables the submit
      button while typing. */
  lemma SubmitValidImpliesRealTimeValid(form: FormInput, hasSubmitButton: bool)
    requires ValidateLeadForm(form).Checked? && ValidateLeadForm(form).isValid
    ensures ValidateFormRealTime(form, hasSubmitButton).valid
  {
    var d := Collect(form);
    assert FieldErrors(ChecksOf(d)) == [];
  }

  /** Conversely, a form the real-time check accepts is checked at submit
      time, and passes exactly when the job title has at least two UTF-16
      code units (the real-time check only asks for one); otherwise the
      job-title error is the only one. */
  lemma RealTimeValidThenSubmitValidIffCargoLong(form: FormInput, hasSubmitButton: bool)
    requires ValidateFormRealTime(form, hasSubmitButton).valid
    ensures ValidateLeadForm(form).Checked?
    ensures ValidateLeadForm(form).isValid <==> Utf16Length(Collect(form).cargo) >= 2
    ensures !ValidateLeadForm(form).isValid ==> ValidateLeadForm(form).errors == [CargoTooShort]
  {
    var d := Collect(form);
    assert d.nome != "" && d.email != "" && d.celular != "" && d.cargo != "" && d.tamanhoEmpresa != "";
    assert forall f :: d.Get(f) != "" by {
      forall f ensures d.Get(f) != "" {
        assert f.Nome? || f.Email? || f.Celular? || f.Cargo? || f.TamanhoEmpresa?;
      }
    }
    var c := ChecksOf(d);
    assert !c.nomeShort && !c.emailEmpty && c.emailValid && c.emailCorporate;
    assert !c.celularEmpty && c.celularValid && !c.tamanhoEmpty;
    assert ValidateLeadForm(form) == CheckForm(d);
    if Utf16Length(d.cargo) >= 2 {
      NoErrorsWhenChecksPass(c);
    } else {
      OnlyCargoError(c);
    }
  }

  /** No failed check, no error. */
  lemma NoErrorsWhenChecksPass(c: Checks)
    requires !c.nomeShort && !c.emailEmpty && c.emailValid && c.emailCorporate
    requires !c.celularEmpty && c.celularValid && !c.cargoShort && !c.tamanhoEmpty
    ensures FieldErrors(c) == []
  {
    var errors := FieldErrors(c);
    if errors != [] {
      assert errors[0] in errors;
      match errors[0]
      case NomeTooShort =>
      case EmailRequired =>
      case EmailMalformed =>
      case EmailPersonal =>
      case CelularRequired =>
      case CelularMalformed =>
      case CargoTooShort =>
      case TamanhoRequired =>
    }
  }

  /** Only the job-title check fails, so only its error is reported. */
  lemma OnlyCargoError(c: Checks)
    requires !c.nomeShort && !c.emailEmpty && c.emailValid && c.emailCorporate
    requires !c.celularEmpty && c.celularValid && c.cargoShort && !c.tamanhoEmpty
    ensures FieldErrors(c) == [CargoTooShort]
  {
    var errors := FieldErrors(c);
    assert CargoTooShort in errors;
    forall i | 0 <= i < |errors| ensures errors[i] == CargoTooShort {
      assert errors[i] in errors;
      match errors[i]
      case NomeTooShort =>
      case EmailRequired =>
      case EmailMalformed =>
      case EmailPersonal =>
      case CelularRequired =>
      case CelularMalformed =>
      case CargoTooShort =>
      case TamanhoRequired =>
    }
    assert |errors| == 1 by {
      assert |errors| > 0;
      assert |errors| <= 1 || Before(errors[0], errors[1]);
    }
  }

  // ---------------------------------------------------------------------
  // Submission-error classification (envia-rd.js:372-375)

  /** The message names an unavailable backend. */
  function IsBackendError(message: string): (r: bool)
    ensures r <==> Occurs(message, "404") || Occurs(message, "Failed to fetch")
                   || Occurs(message, "CORS") || Occurs(message, "ERR_FAILED")
  {
    ContainsIffOccurs(message, "404");
    ContainsIffOccurs(message, "Failed to fetch");
    ContainsIffOccurs(message, "CORS");
    ContainsIffOccurs(message, "ERR_FAILED");
    Contains(message, "404") || Contains(message, "Failed to fetch")
    || Contains(message, "CORS") || Contains(message, "ERR_FAILED")
  }
}

=== FILE: rd_gateway.dfy ===
/** The production lead endpoint (api/rd-station.js): method and token
    gating, the missing-field list, the e-mail check, the two payloads and
    the fallback from the Bearer-token events API to the api_key
    conversions API. Both `fetch` results are inputs; the requests the
    handler makes are part of its result. */
module RdGateway {
  import opened Wrappers
  import opened Json
  import opened Text
  import opened Http
  import opened LeadFields
  import opened Validators

  const ConversionIdentifier := "Lead-Calculadora-ROI"
  const EventsUrl := "https://api.rd.services/platform/events"
  const ConversionsUrlPrefix := "https://api.rd.services/platform/conversions?api_key="
  const UserAgent := "Calculadora-Harpio/1.0"

  /** The flat body of the conversions API. */
  function ConversionPayload(l: Lead): Json {
    JObj([
      ("conversion_identifier", JStr(ConversionIdentifier)),
      ("name", JStr(l.nome)),
      ("email", JStr(l.email)),
      ("personal_phone", JStr(l.celular)),
      ("cf_cargo", JStr(l.cargo)),
      ("cf_tamanho_de_empresa", JStr(l.tamanhoEmpresa)),
      ("cf_origem", JStr("Calculadora de Custos")),
      ("traffic_source", JStr("Calculadora Harpio")),
      ("available_for_mailing", JBool(true))
    ])
  }

  /** The body of the events API. The handler writes its inner payload out
      a second time rather than reusing the conversions body. */
  function EventsPayload(l: Lead): Json {
    JObj([
      ("event_type", JStr("CONVERSION")),
      ("event_family", JStr("CDP")),
      ("payload", JObj([
        ("conversion_identifier", JStr("Lead-Calculadora-ROI")),
        ("name", JStr(l.nome)),
        ("email", JStr(l.email)),
        ("personal_phone", JStr(l.celular)),
        ("cf_cargo", JStr(l.cargo)),
        ("cf_tamanho_de_empresa", JStr(l.tamanhoEmpresa)),
        ("cf_origem", JStr("Calculadora de Custos")),
        ("traffic_source", JStr("Calculadora Harpio")),
        ("available_for_mailing", JBool(true))
      ]))
    ])
  }

  /** The events envelope carries exactly the conversions body. */
  lemma EventsWrapConversion(l: Lead)
    ensures EventsPayload(l).JObj?
    ensures Lookup(EventsPayload(l).fields, "event_type") == Some(JStr("CONVERSION"))
    ensures Lookup(EventsPayload(l).fields, "event_family") == Some(JStr("CDP"))
    ensures Lookup(EventsPayload(l).fields, "payload") == Some(ConversionPayload(l))
  {
    var fs := EventsPayload(l).fields;
    LookupLast(fs, 0, "event_type", JStr("CONVERSION"));
    LookupLast(fs, 1, "event_family", JStr("CDP"));
    LookupLast(fs, 2, "payload", ConversionPayload(l));
  }

  /** The name under which the conversions body sends a lead field. */
  function RdKey(f: Field): string {
    match f
    case Nome => "name"
    case Email => "email"
    case Celular => "personal_phone"
    case Cargo => "cf_cargo"
    case TamanhoEmpresa => "cf_tamanho_de_empresa"
  }

  /** The conversions body sends each lead field under its RD Station name. */
  lemma ConversionCarriesLead(l: Lead, f: Field)
    ensures ConversionPayload(l).JObj?
    ensures Lookup(ConversionPayload(l).fields, RdKey(f)) == Some(JStr(l.Get(f)))
  {
    var fs := ConversionPayload(l).fields;
    match f
    case Nome => LookupLast(fs, 1, "name", JStr(l.nome));
    case Email => LookupLast(fs, 2, "email", JStr(l.email));
    case Celular => LookupLast(fs, 3, "personal_phone", JStr(l.celular));
    case Cargo => LookupLast(fs, 4, "cf_cargo", JStr(l.cargo));
    case TamanhoEmpresa => LookupLast(fs, 5, "cf_tamanho_de_empresa", JStr(l.tamanhoEmpresa));
  }

  /** Both bodies are tagged with the same conversion identifier. */
  lemma ConversionIdentified(l: Lead)
    ensures ConversionPayload(l).JObj?
    ensures Lookup(ConversionPayload(l).fields, "conversion_identifier") == Some(JStr(ConversionIdentifier))
  {
    LookupLast(ConversionPayload(l).fields, 0, "conversion_identifier", JStr(ConversionIdentifier));
  }

  /** Attempt 1: the events API, authenticated by a Bearer header. */
  function BearerRequest(token: string, l: Lead): Request {
    Request(EventsUrl,
            [("Content-Type", "application/json"), ("Authorization", "Bearer " + token), ("User-Agent", UserAgent)],
            EventsPayload(l))
  }

  /** Attempt 2: the conversions API, with the token as a query parameter. */
  function ApiKeyRequest(token: string, l: Lead): Request {
    Request(ConversionsUrlPrefix + token,
            [("Content-Type", "application/json"), ("User-Agent", UserAgent)],
            ConversionPayload(l))
  }

  /** The two ways of authenticating, named as in `method_used`. */
  datatype Strategy = BearerToken | ApiKeyQuery {
    function Name(): string {
      match this
      case BearerToken => "OAuth2 Bearer Token"
      case ApiKeyQuery => "API Key Query Parameter"
    }
  }

  /** The message of the error that ends attempt 1 when it is not ok: the
      thrown error itself, or the one the handler throws on a 401 or on any
      other status. */
  function BearerFailure(o: Outcome): string {
    match o
    case Threw(_, message) => message
    case Responded(status, statusText, _) =>
      if status == 401 then "Token OAuth2 inválido, tentando API Key..."
      else "Erro " + IntToString(status) + ": " + statusText
  }

  /** `response?.status || 'Sem resposta'` for the final response. */
  function StatusLabel(response: Option<Outcome>): string {
    if response.Some? && response.value.Responded? && response.value.status != 0
    then IntToString(response.value.status)
    else "Sem resposta"
  }

  /** `rd_station_response`: an empty body counts as `{success: true}`, a
      body that parses is passed through, and one that does not parse is
      replaced by a fixed success object. */
  function RdStationResponse(b: Body): (r: Json)
    ensures b.text != "" && b.parsed.ParsedJson? ==> r == b.parsed.value
    ensures b.text == "" || b.parsed.Unparsable? ==>
              r.JObj? && Lookup(r.fields, "success") == Some(JBool(true))
    ensures b.text == "" ==> r == JObj([("success", JBool(true))])
    ensures b.text != "" && b.parsed.Unparsable? ==>
              Lookup(r.fields, "message") == Some(JStr("Lead enviado com sucesso")) && |r.fields| == 2
  {
    if b.text == "" then JObj([("success", JBool(true))])
    else match b.parsed
      case ParsedJson(v) => v
      case Unparsable(_) => JObj([("success", JBool(true)), ("message", JStr("Lead enviado com sucesso"))])
  }

  /** The environment variable names that `environment_vars` lists: those
      containing "RD", in their original order. */
  function RdNames(names: seq<string>): (r: seq<string>)
    ensures forall n :: n in r <==> n in names && Occurs(n, "RD")
    ensures |r| <= |names|
  {
    if |names| == 0 then []
    else
      ContainsIffOccurs(names[0], "RD");
      var rest := RdNames(names[1..]);
      assert forall n :: n in names <==> n == names[0] || n in names[1..];
      if Contains(names[0], "RD") then [names[0]] + rest else rest
  }

  /** The filter works name by name: the list for a concatenation is the
      concatenation of the lists, so the names keep their original order. */
  lemma {:induction false} RdNamesConcat(a: seq<string>, b: seq<string>)
    ensures RdNames(a + b) == RdNames(a) + RdNames(b)
    ensures |a| == 1 ==> RdNames(a) == (if Occurs(a[0], "RD") then a else [])
  {
    if |a| > 0 {
      RdNamesConcat(a[1..], b);
      assert (a + b)[1..] == a[1..] + b;
      ContainsIffOccurs(a[0], "RD");
      if |a| == 1 {
        assert a[1..] == [];
      }
    } else {
      assert a + b == b;
    }
  }

  const FetchWords: seq<string> := ["fetch", "network", "Failed to fetch"]
  const CorsWords: seq<string> := ["CORS", "cross-origin", "Access-Control"]
  const AuthWords: seq<string> := ["auth", "token", "401", "403"]

  /** `error.message || 'Erro desconhecido'`. */
  function Described(message: string): string {
    if message == "" then "Erro desconhecido" else message
  }

  function MethodNotAllowedJson(verb: string): Json {
    JObj([("error", JStr("Método não permitido")), ("message", JStr("Apenas POST é aceito")),
          ("received_method", JStr(verb)), ("allowed_methods", Strings(["POST"]))])
  }

  function MissingTokenJson(names: seq<string>): Json {
    JObj([("error", JStr("Configuração inválida")), ("message", JStr("Token RD Station não encontrado")),
          ("environment_vars", Strings(names))])
  }

  function IncompleteJson(missing: seq<Field>, received: RequestBody): Json {
    JObj([("error", JStr("Dados incompletos")), ("message", JStr("Todos os campos são obrigatórios")),
          ("missing_fields", Strings(Keys(missing))), ("received_data", BodyJson(received))])
  }

  function InvalidEmailJson(): Json {
    JObj([("error", JStr("Email inválido")), ("message", JStr("Formato de email inválido"))])
  }

  function DeliveryFailedJson(shown: string, details: string, attempted: Strategy, lastError: string): Json {
    JObj([("error", JStr("Erro no envio para RD Station")),
          ("message", JStr("Falha na comunicação com RD Station: " + shown)),
          ("details", JStr(details)), ("method_attempted", JStr(attempted.Name())),
          ("last_error", JStr(lastError))])
  }

  function DeliveredJson(via: Strategy, lead: Lead, rdResponse: Json): Json {
    JObj([("success", JBool(true)), ("message", JStr("Lead enviado com sucesso para RD Station")),
          ("method_used", JStr(via.Name())),
          ("data", JObj([("conversion_identifier", JStr("contato-calculadora-harpio")),
                         ("lead_data", LeadJson(lead)), ("rd_station_response", rdResponse)]))])
  }

  /** The outer catch's body: the error's class name and message, and three
      keyword classifications of the message. */
  function InternalErrorJson(errorType: string, message: string): Json {
    var described := Described(message);
    JObj([("error", JStr("Erro interno do servidor")),
          ("message", JStr("Ocorreu um erro ao processar sua solicitação")),
          ("error_type", JStr(errorType)),
          ("is_fetch_error", JBool(MentionsAny(described, FetchWords))),
          ("is_cors_error", JBool(MentionsAny(described, CorsWords))),
          ("is_auth_error", JBool(MentionsAny(described, AuthWords))),
          ("details", JStr(message))])
  }

  /** Every response the handler can send. */
  datatype Reply =
    | Preflight
    | MethodNotAllowed(verb: string)
    | MissingToken(environmentVars: seq<string>)
    | Incomplete(missing: seq<Field>, received: RequestBody)
    | InvalidEmail
    | DeliveryFailed(statusLabel: string, details: string, attempted: Strategy, lastError: string)
    | Delivered(via: Strategy, lead: Lead, rdResponse: Json)
    | InternalError(errorType: string, message: string)
  {
    function Status(): int {
      match this
      case Preflight => 200
      case MethodNotAllowed(_) => 405
      case MissingToken(_) => 500
      case Incomplete(_, _) => 400
      case InvalidEmail => 400
      case DeliveryFailed(_, _, _, _) => 500
      case Delivered(_, _, _) => 200
      case InternalError(_, _) => 500
    }

    /** The JSON body (timestamps and the token prefix left out); `None` for
        the preflight's empty body. */
    function Render(): (r: Option<Json>)
      ensures r.None? <==> Preflight?
    {
      match this
      case Preflight => None
      case MethodNotAllowed(verb) => Some(MethodNotAllowedJson(verb))
      case MissingToken(names) => Some(MissingTokenJson(names))
      case Incomplete(missing, received) => Some(IncompleteJson(missing, received))
      case InvalidEmail => Some(InvalidEmailJson())
      case DeliveryFailed(shown, details, attempted, lastError) => Some(DeliveryFailedJson(shown, details, attempted, lastError))
      case Delivered(via, lead, rdResponse) => Some(DeliveredJson(via, lead, rdResponse))
      case InternalError(errorType, message) => Some(InternalErrorJson(errorType, message))
    }
  }

  /** What the handler answers and which upstream requests it made. */
  datatype Exchange = Exchange(reply: Reply, calls: seq<Request>)

  /** The two-attempt delivery of a validated lead. Attempt 2 runs exactly
      when attempt 1 is not ok; the lead is delivered exactly when one of
      the attempts is ok, and `method_used` names that attempt. On failure
      the reported method is always the api_key one and `last_error` is the
      latest error thrown. */
  function Deliver(token: string, l: Lead, bearer: Outcome, apiKey: Outcome): (x: Exchange)
    ensures |x.calls| == (if Succeeded(bearer) then 1 else 2)
    ensures x.calls[0] == BearerRequest(token, l)
    ensures |x.calls| == 2 ==> x.calls[1] == ApiKeyRequest(token, l)
    ensures x.reply.Delivered? <==> Succeeded(bearer) || Succeeded(apiKey)
    ensures x.reply.Delivered? || x.reply.DeliveryFailed?
    ensures x.reply.Delivered? ==>
              x.reply.lead == l && x.reply.via == (if Succeeded(bearer) then BearerToken else ApiKeyQuery)
    ensures x.reply.DeliveryFailed? ==>
              x.reply.attempted == ApiKeyQuery
              && x.reply.lastError == (if apiKey.Threw? then apiKey.message else BearerFailure(bearer))
    ensures x.reply.Delivered? && Succeeded(bearer) ==> x.reply.rdResponse == RdStationResponse(bearer.body)
    ensures x.reply.Delivered? && !Succeeded(bearer) ==>
              apiKey.Responded? && x.reply.rdResponse == RdStationResponse(apiKey.body)
    ensures x.reply.DeliveryFailed? && apiKey.Responded? ==>
              x.reply.statusLabel == StatusLabel(Some(apiKey)) && x.reply.details == apiKey.body.text
    ensures x.reply.DeliveryFailed? && apiKey.Threw? ==>
              x.reply.statusLabel == StatusLabel(if bearer.Responded? then Some(bearer) else None)
              && x.reply.details == (if bearer.Responded? then bearer.body.text else "Sem resposta")
  {
    var first := BearerRequest(token, l);
    if Succeeded(bearer) then
      Exchange(Delivered(BearerToken, l, RdStationResponse(bearer.body)), [first])
    else
      var calls := [first, ApiKeyRequest(token, l)];
      match apiKey
      case Responded(status, _, body) =>
        if IsOk(status) then Exchange(Delivered(ApiKeyQuery, l, RdStationResponse(body)), calls)
        else Exchange(DeliveryFailed(StatusLabel(Some(apiKey)), body.text, ApiKeyQuery, BearerFailure(bearer)), calls)
      case Threw(_, message) =>
        // `response` still holds attempt 1's reply, or null if it threw
        var response := if bearer.Responded? then Some(bearer) else None;
        var details := if bearer.Responded? then bearer.body.text else "Sem resposta";
        Exchange(DeliveryFailed(StatusLabel(response), details, ApiKeyQuery, message), calls)
  }

  /** The whole handler: preflight, method check, token check, body
      destructuring, missing fields, e-mail format, then delivery. */
  function Handle(verb: string, token: Option<string>, envNames: seq<string>,
                  body: Option<RequestBody>, bearer: Outcome, apiKey: Outcome): (x: Exchange)
    ensures x.reply.Preflight? <==> verb == "OPTIONS"
    ensures x.reply.MethodNotAllowed? <==> verb != "OPTIONS" && verb != "POST"
    ensures x.reply.MissingToken? <==> verb == "POST" && !Filled(token)
    ensures x.reply.InternalError? <==> verb == "POST" && Filled(token) && body.None?
    ensures x.reply.Incomplete? <==>
              verb == "POST" && Filled(token) && body.Some? && MissingIn(body.value) != []
    ensures x.reply.Incomplete? ==> x.reply.missing == MissingIn(body.value)
    ensures x.reply.InvalidEmail? <==>
              verb == "POST" && Filled(token) && body.Some? && MissingIn(body.value) == []
              && !IsValidEmail(LeadOf(body.value).email)
    ensures x.calls != [] <==>
              verb == "POST" && Filled(token) && body.Some? && MissingIn(body.value) == []
              && IsValidEmail(LeadOf(body.value).email)
    ensures |x.calls| <= 2
    ensures x.reply.Delivered? ==> x.calls != [] && x.reply.lead == LeadOf(body.value)
    ensures x.calls != [] ==> x == Deliver(token.value, LeadOf(body.value), bearer, apiKey)
  {
    if verb == "OPTIONS" then Exchange(Preflight, [])
    else if verb != "POST" then Exchange(MethodNotAllowed(verb), [])
    else if !Filled(token) then Exchange(MissingToken(RdNames(envNames)), [])
    else if body.None? then
      // `const { nome, ... } = req.body` with no body
      Exchange(InternalError("TypeError", DestructureUndefinedMessage("nome", "req.body")), [])
    else
      var missing := MissingIn(body.value);
      if missing != [] then Exchange(Incomplete(missing, body.value), [])
      else
        var l := LeadOf(body.value);
        if !IsValidEmail(l.email) then Exchange(InvalidEmail, [])
        else Deliver(token.value, l, bearer, apiKey)
  }

  /** The status is 200 exactly for the preflight and for a delivered lead,
      and a lead is delivered exactly when the request passed every check
      and one of the two attempts was ok. */
  lemma SuccessIffSomeAttemptOk(verb: string, token: Option<string>, envNames: seq<string>,
                                body: Option<RequestBody>, bearer: Outcome, apiKey: Outcome)
    ensures var x := Handle(verb, token, envNames, body, bearer, apiKey);
            x.reply.Status() == 200 <==> verb == "OPTIONS" || (x.calls != [] && (Succeeded(bearer) || Succeeded(apiKey)))
  {
  }

  /** An ok first attempt means a single upstream call; otherwise the
      api_key attempt always follows, whatever went wrong with the first. */
  lemma FallbackIffBearerNotOk(verb: string, token: Option<string>, envNames: seq<string>,
                               body: Option<RequestBody>, bearer: Outcome, apiKey: Outcome)
    requires Handle(verb, token, envNames, body, bearer, apiKey).calls != []
    ensures var x := Handle(verb, token, envNames, body, bearer, apiKey);
            x.calls[0].url == EventsUrl
            && (|x.calls| == 2 <==> !Succeeded(bearer))
            && (|x.calls| == 2 ==> x.calls[1].url == ConversionsUrlPrefix + token.value)
  {
  }
}

=== FILE: rd_pages.dfy ===
/** The Next.js lead endpoint (pages/api/rd-station.js): only nome, email
    and celular are required, they are checked before the three RD Station
    tokens, there is no e-mail format check, and a single events-API call is
    made whose status is passed back to the browser. */
module RdPages {
  import opened Wrappers
  import opened Json
  import opened Http
  import opened LeadFields

  const EventsUrl := "https://api.rd.services/platform/events"

  /** The fields this variant insists on, in the order it tests them. */
  const Required: seq<Field> := [Nome, Email, Celular]

  /** `nome && email && celular`. */
  predicate HasRequired(b: RequestBody) {
    Filled(Value(b, Nome)) && Filled(Value(b, Email)) && Filled(Value(b, Celular))
  }

  /** All three tokens are set (and non-empty). */
  predicate TokensSet(publicToken: Option<string>, privateToken: Option<string>, instanceToken: Option<string>) {
    Filled(publicToken) && Filled(privateToken) && Filled(instanceToken)
  }

  /** The events body; `cargo || ''` and `tamanhoEmpresa || ''` make the two
      optional fields empty strings when absent. */
  function LeadData(l: Lead): Json {
    JObj([
      ("event_type", JStr("CONVERSION")),
      ("event_family", JStr("CDP")),
      ("payload", JObj([
        ("conversion_identifier", JStr("formulario-calculadora")),
        ("name", JStr(l.nome)),
        ("email", JStr(l.email)),
        ("personal_phone", JStr(l.celular)),
        ("job_title", JStr(l.cargo)),
        ("company_size", JStr(l.tamanhoEmpresa)),
        ("cf_utm_source", JStr("calculadora-harpia")),
        ("cf_utm_medium", JStr("landing-page")),
        ("cf_utm_campaign", JStr("harpia-calculator")),
        ("cf_landing_page", JStr("https://calculadora-eta-umber.vercel.app")),
        ("cf_form_origin", JStr("harpia-calculator")),
        ("traffic_source", JStr("direct")),
        ("traffic_medium", JStr("form")),
        ("traffic_campaign", JStr("harpia-calculator")),
        ("traffic_value", JStr("calculadora-harpia")),
        ("tags", Strings(["calculadora-harpia", "lead-calculator"]))
      ]))
    ])
  }

  /** The inner payload of the events body. */
  function Payload(l: Lead): Json {
    LeadData(l).fields[2].1
  }

  /** The payload sends cargo as `job_title` and tamanhoEmpresa as
      `company_size`. */
  lemma PayloadMapsOptionalFields(l: Lead)
    ensures Payload(l).JObj?
    ensures Lookup(Payload(l).fields, "conversion_identifier") == Some(JStr("formulario-calculadora"))
    ensures Lookup(Payload(l).fields, "job_title") == Some(JStr(l.cargo))
    ensures Lookup(Payload(l).fields, "company_size") == Some(JStr(l.tamanhoEmpresa))
  {
    LookupLast(Payload(l).fields, 0, "conversion_identifier", JStr("formulario-calculadora"));
    LookupLast(Payload(l).fields, 4, "job_title", JStr(l.cargo));
    LookupLast(Payload(l).fields, 5, "company_size", JStr(l.tamanhoEmpresa));
  }

  /** The single upstream request: Bearer public token plus the instance
      token as `x-instance-id`. */
  function EventsRequest(publicToken: string, instanceToken: string, l: Lead): Request {
    Request(EventsUrl,
            [("Content-Type", "application/json"), ("Authorization", "Bearer " + publicToken),
             ("x-instance-id", instanceToken)],
            LeadData(l))
  }

  /** Every response the handler can send. */
  datatype Reply =
    | Preflight
    | MethodNotAllowed
    | MissingRequired
    | TokensMissing
    | Relayed(status: int, details: Json)
    | Sent(data: Json)
    | ServerError(message: string)
  {
    function Status(): int {
      match this
      case Preflight => 200
      case MethodNotAllowed => 405
      case MissingRequired => 400
      case TokensMissing => 500
      case Relayed(status, _) => status
      case Sent(_) => 200
      case ServerError(_) => 500
    }

    /** The JSON body; `None` for the preflight's empty body. */
    function Render(): (r: Option<Json>)
      ensures r.None? <==> Preflight?
    {
      match this
      case Preflight => None
      case MethodNotAllowed => Some(JObj([("error", JStr("Method not allowed"))]))
      case MissingRequired =>
        Some(JObj([("error", JStr("Missing required fields")), ("required", Strings(["nome", "email", "celular"]))]))
      case TokensMissing =>
        Some(JObj([("error", JStr("Server configuration error")), ("message", JStr("RD Station tokens not configured"))]))
      case Relayed(_, details) =>
        Some(JObj([("error", JStr("Error sending to RD Station")), ("details", details)]))
      case Sent(data) =>
        Some(JObj([("success", JBool(true)), ("message", JStr("Lead sent to RD Station successfully")), ("data", data)]))
      case ServerError(message) =>
        Some(JObj([("error", JStr("Internal server error")), ("message", JStr(message))]))
    }
  }

  datatype Exchange = Exchange(reply: Reply, calls: seq<Request>)

  /** What happens once the request is known to be complete and configured:
      one call, whose parsed body is relayed with the upstream status when
      it is not ok. A thrown `fetch` and an unparsable body both end in the
      catch block's 500. */
  function Relay(upstream: Outcome): (r: Reply)
    ensures r.Sent? <==> Succeeded(upstream) && upstream.body.parsed.ParsedJson?
    ensures r.Relayed? <==> upstream.Responded? && !IsOk(upstream.status) && upstream.body.parsed.ParsedJson?
    ensures r.Sent? ==> r.data == upstream.body.parsed.value
    ensures r.Relayed? ==> r.status == upstream.status && r.details == upstream.body.parsed.value
    ensures r.ServerError? <==> upstream.Threw? || upstream.body.parsed.Unparsable?
  {
    match upstream
    case Threw(_, message) => ServerError(message)
    case Responded(status, _, body) =>
      match body.parsed
      case Unparsable(message) => ServerError(message)
      case ParsedJson(result) => if IsOk(status) then Sent(result) else Relayed(status, result)
  }

  /** The handler: preflight, method, destructuring, required fields,
      tokens, then the single call. */
  function Handle(verb: string, publicToken: Option<string>, privateToken: Option<string>,
                  instanceToken: Option<string>, body: Option<RequestBody>, upstream: Outcome): (x: Exchange)
    ensures x.reply.Preflight? <==> verb == "OPTIONS"
    ensures x.reply.MethodNotAllowed? <==> verb != "OPTIONS" && verb != "POST"
    ensures x.reply.MissingRequired? <==> verb == "POST" && body.Some? && !HasRequired(body.value)
    ensures x.reply.TokensMissing? <==>
              verb == "POST" && body.Some? && HasRequired(body.value)
              && !TokensSet(publicToken, privateToken, instanceToken)
    ensures |x.calls| <= 1
    ensures x.calls != [] <==>
              verb == "POST" && body.Some? && HasRequired(body.value)
              && TokensSet(publicToken, privateToken, instanceToken)
    ensures x.calls != [] ==>
              x.calls[0] == EventsRequest(publicToken.value, instanceToken.value, LeadOf(body.value))
              && x.reply == Relay(upstream)
    ensures verb == "POST" && body.None? ==>
              x.reply == ServerError(DestructureUndefinedMessage("nome", "req.body"))
  {
    if verb == "OPTIONS" then Exchange(Preflight, [])
    else if verb != "POST" then Exchange(MethodNotAllowed, [])
    else if body.None? then Exchange(ServerError(DestructureUndefinedMessage("nome", "req.body")), [])
    else if !HasRequired(body.value) then Exchange(MissingRequired, [])
    else if !TokensSet(publicToken, privateToken, instanceToken) then Exchange(TokensMissing, [])
    else
      var request := EventsRequest(publicToken.value, instanceToken.value, LeadOf(body.value));
      Exchange(Relay(upstream), [request])
  }

  /** Only the three required fields gate the call: a body lacking cargo and
      tamanhoEmpresa, or carrying a malformed e-mail, still goes upstream. */
  lemma OptionalFieldsNeverBlock(verb: string, publicToken: Option<string>, privateToken: Option<string>,
                                 instanceToken: Option<string>, b: RequestBody, upstream: Outcome)
    requires verb == "POST" && TokensSet(publicToken, privateToken, instanceToken)
    requires HasRequired(b)
    ensures Handle(verb, publicToken, privateToken, instanceToken, Some(b), upstream).calls
            == [EventsRequest(publicToken.value, instanceToken.value, LeadOf(b))]
  {
  }
}

=== FILE: text.dfy ===
/** Character classes and string operations of JavaScript that the source
    relies on: `trim`, the regular-expression classes `\s` and `\D`,
    `toLowerCase`, `includes` and UTF-16 `length`. */
module Text {

  /** The characters JavaScript's `trim` removes and `\s` matches: the
      WhiteSpace and LineTerminator code points of ECMAScript. */
  predicate IsSpace(c: char) {
    || c == '\t' || c == '\n' || c == '\U{B}' || c == '\U{C}' || c == '\r' || c == ' '
    || c == '\U{A0}' || c == '\U{1680}'
    || ('\U{2000}' <= c <= '\U{200A}')
    || c == '\U{2028}' || c == '\U{2029}' || c == '\U{202F}' || c == '\U{205F}'
    || c == '\U{3000}' || c == '\U{FEFF}'
  }

  predicate AllSpace(s: string) {
    forall i :: 0 <= i < |s| ==> IsSpace(s[i])
  }

  predicate NoSpace(s: string) {
    forall i :: 0 <= i < |s| ==> !IsSpace(s[i])
  }

  /** Number of leading whitespace characters. */
  function LeadingSpace(s: string): (n: nat)
    ensures n <= |s|
  {
    if |s| == 0 || !IsSpace(s[0]) then 0
    else 1 + LeadingSpace(s[1..])
  }

  /** `LeadingSpace` counts the whole whitespace run at the front. */
  lemma {:induction false} LeadingSpaceSpec(s: string)
    ensures AllSpace(s[..LeadingSpace(s)])
    ensures LeadingSpace(s) < |s| ==> !IsSpace(s[LeadingSpace(s)])
  {
    if |s| > 0 && IsSpace(s[0]) {
      LeadingSpaceSpec(s[1..]);
      var n := LeadingSpace(s);
      assert s[..n] == [s[0]] + s[1..][..n - 1];
    }
  }

  /** Number of trailing whitespace characters. */
  function TrailingSpace(s: string): (n: nat)
    ensures n <= |s|
  {
    if |s| == 0 || !IsSpace(s[|s| - 1]) then 0
    else 1 + TrailingSpace(s[..|s| - 1])
  }

  /** `TrailingSpace` counts the whole whitespace run at the back. */
  lemma {:induction false} TrailingSpaceSpec(s: string)
    ensures AllSpace(s[|s| - TrailingSpace(s)..])
    ensures TrailingSpace(s) < |s| ==> !IsSpace(s[|s| - TrailingSpace(s) - 1])
  {
    if |s| > 0 && IsSpace(s[|s| - 1]) {
      TrailingSpaceSpec(s[..|s| - 1]);
      var n := TrailingSpace(s);
      assert s[|s| - n..] == s[..|s| - 1][|s| - 1 - (n - 1)..] + [s[|s| - 1]];
    }
  }

  /** `String.prototype.trim`. */
  function Trim(s: string): (r: string)
    ensures |r| <= |s|
  {
    var i := LeadingSpace(s);
    if i == |s| then ""
    else
      var rest := s[i..];
      var t := TrailingSpace(rest);
      if t == |rest| then "" else s[i..|s| - t]
  }

  /** The window `s[i..j]` that `trim` keeps: whitespace before and after
      it, and no whitespace at either of its ends. */
  lemma TrimWindow(s: string) returns (i: nat, j: nat)
    ensures i <= j <= |s| && Trim(s) == s[i..j]
    ensures AllSpace(s[..i]) && AllSpace(s[j..])
    ensures i < j ==> !IsSpace(s[i]) && !IsSpace(s[j - 1])
  {
    i := LeadingSpace(s);
    LeadingSpaceSpec(s);
    if i == |s| {
      j := i;
      return;
    }
    var rest := s[i..];
    var t := TrailingSpace(rest);
    TrailingSpaceSpec(rest);
    assert t < |rest| by {
      assert !AllSpace(rest) by {
        assert rest[0] == s[i];
      }
      assert rest[|rest| - |rest|..] == rest;
    }
    j := |s| - t;
    assert Trim(s) == s[i..j];
    assert AllSpace(s[j..]) by {
      assert s[j..] == rest[|rest| - t..];
    }
    assert !IsSpace(s[j - 1]) by {
      assert s[j - 1] == rest[|rest| - t - 1];
    }
  }

  /** `trim` removes exactly a whitespace prefix and a whitespace suffix,
      leaving a string that is empty or neither starts nor ends with
      whitespace; it is empty exactly for all-whitespace input. */
  lemma TrimSpec(s: string)
    ensures exists i, j :: 0 <= i <= j <= |s| && Trim(s) == s[i..j] && AllSpace(s[..i]) && AllSpace(s[j..])
    ensures Trim(s) == "" || (!IsSpace(Trim(s)[0]) && !IsSpace(Trim(s)[|Trim(s)| - 1]))
    ensures Trim(s) == "" <==> AllSpace(s)
  {
    var i, j := TrimWindow(s);
    if i == j {
      forall k | 0 <= k < |s|
        ensures IsSpace(s[k])
      {
        if k < i {
          assert s[k] == s[..i][k];
        } else {
          assert s[k] == s[j..][k - j];
        }
      }
    } else {
      assert Trim(s)[0] == s[i];
      assert Trim(s)[|Trim(s)| - 1] == s[j - 1];
    }
  }

  /** Trimming twice trims nothing more. */
  lemma TrimIdempotent(s: string)
    ensures Trim(Trim(s)) == Trim(s)
  {
    var r := Trim(s);
    TrimSpec(s);
    if r != "" {
      assert LeadingSpace(r) == 0;
      assert r[0..] == r;
      assert TrailingSpace(r) == 0;
      assert r[0..|r| - 0] == r;
    }
  }

  /** A string without surrounding whitespace is its own trim. */
  lemma TrimOfTrimmed(s: string)
    requires s == "" || (!IsSpace(s[0]) && !IsSpace(s[|s| - 1]))
    ensures Trim(s) == s
  {
    if s != "" {
      assert LeadingSpace(s) == 0;
      assert s[0..] == s;
      assert TrailingSpace(s) == 0;
    }
  }

  /** The `\d` class: ASCII decimal digits only. */
  predicate IsDigit(c: char) {
    '0' <= c <= '9'
  }

  predicate AllDigits(s: string) {
    forall i :: 0 <= i < |s| ==> IsDigit(s[i])
  }

  /** `s.replace(/\D/g, '')`: the digits of `s`, in order. */
  function Digits(s: string): (r: string)
    ensures AllDigits(r)
    ensures |r| <= |s|
  {
    if |s| == 0 then ""
    else if IsDigit(s[0]) then [s[0]] + Digits(s[1..])
    else Digits(s[1..])
  }

  /** Digit extraction distributes over concatenation. */
  lemma {:induction false} DigitsConcat(a: string, b: string)
    ensures Digits(a + b) == Digits(a) + Digits(b)
    decreases |a|
  {
    if |a| > 0 {
      assert (a + b)[1..] == a[1..] + b;
      DigitsConcat(a[1..], b);
    } else {
      assert a + b == b;
    }
  }

  /** A string of digits is its own digit string. */
  lemma {:induction false} DigitsOfDigits(s: string)
    requires AllDigits(s)
    ensures Digits(s) == s
    decreases |s|
  {
    if |s| > 0 {
      DigitsOfDigits(s[1..]);
      assert s == [s[0]] + s[1..];
    }
  }

  /** A string without digits contributes nothing. */
  lemma {:induction false} DigitsOfNonDigits(s: string)
    requires forall i :: 0 <= i < |s| ==> !IsDigit(s[i])
    ensures Digits(s) == ""
    decreases |s|
  {
    if |s| > 0 {
      DigitsOfNonDigits(s[1..]);
    }
  }

  /** `toLowerCase` on the characters that lower-case INTO the ASCII range:
      `A`-`Z` and the Kelvin sign (which lower-cases to `k`). Every other
      character is kept; no other code point lower-cases to ASCII text, so
      comparisons against ASCII strings come out as in JavaScript. */
  function LowerChar(c: char): char {
    if 'A' <= c <= 'Z' then ((c as int) + 32) as char
    else if c == '\U{212A}' then 'k'
    else c
  }

  function Lower(s: string): (r: string)
    ensures |r| == |s|
    ensures forall i :: 0 <= i < |s| ==> r[i] == LowerChar(s[i])
  {
    seq(|s|, i requires 0 <= i < |s| => LowerChar(s[i]))
  }

  /** Lower-casing is idempotent. */
  lemma LowerIdempotent(s: string)
    ensures Lower(Lower(s)) == Lower(s)
  {
  }

  /** `s.startsWith(t)`. */
  predicate StartsWith(s: string, t: string) {
    |t| <= |s| && s[..|t|] == t
  }

  /** `s.includes(t)`, searched position by position. */
  function Contains(s: string, t: string): bool
    decreases |s|
  {
    StartsWith(s, t) || (|s| > 0 && Contains(s[1..], t))
  }

  /** `t` occurs in `s` at some position. */
  ghost predicate Occurs(s: string, t: string) {
    exists i :: OccursAt(s, t, i)
  }

  /** `t` occurs in `s` starting at position `i`. */
  ghost predicate OccursAt(s: string, t: string, i: int) {
    0 <= i && i + |t| <= |s| && s[i..i + |t|] == t
  }

  /** A successful search names a position where `t` occurs. */
  lemma {:induction false} ContainsSound(s: string, t: string) returns (i: nat)
    requires Contains(s, t)
    ensures OccursAt(s, t, i)
    decreases |s|
  {
    if StartsWith(s, t) {
      i := 0;
    } else {
      var k := ContainsSound(s[1..], t);
      assert s[k + 1..k + 1 + |t|] == s[1..][k..k + |t|];
      i := k + 1;
    }
  }

  /** Every occurrence is found by the search. */
  lemma {:induction false} ContainsComplete(s: string, t: string, i: nat)
    requires OccursAt(s, t, i)
    ensures Contains(s, t)
    decreases i
  {
    if i > 0 {
      assert s[1..][i - 1..i - 1 + |t|] == s[i..i + |t|];
      ContainsComplete(s[1..], t, i - 1);
    }
  }

  /** A text that lacks one of the characters of `t` does not contain `t`. */
  lemma ContainsNeedsChar(s: string, t: string, k: nat)
    requires k < |t| && t[k] !in s
    ensures !Contains(s, t)
  {
    forall i | 0 <= i && i + |t| <= |s|
      ensures !OccursAt(s, t, i)
    {
      assert s[i..i + |t|][k] == s[i + k];
    }
    ContainsIffOccurs(s, t);
  }

  /** The position-by-position search finds exactly the occurrences. */
  lemma ContainsIffOccurs(s: string, t: string)
    ensures Contains(s, t) <==> Occurs(s, t)
  {
    if Contains(s, t) {
      var i := ContainsSound(s, t);
    }
    if Occurs(s, t) {
      var i :| OccursAt(s, t, i);
      ContainsComplete(s, t, i);
    }
  }

  /** `words.some(w => s.includes(w))`: the chains of `includes` tests the
      handlers use to classify error messages. */
  function MentionsAny(s: string, words: seq<string>): (r: bool)
    ensures r <==> exists i :: 0 <= i < |words| && Occurs(s, words[i])
  {
    if |words| == 0 then false
    else
      ContainsIffOccurs(s, words[0]);
      var rest := MentionsAny(s, words[1..]);
      assert rest <==> exists i :: 1 <= i < |words| && Occurs(s, words[i]) by {
        forall i | 1 <= i < |words| ensures words[1..][i - 1] == words[i] { }
      }
      Contains(s, words[0]) || rest
  }

  /** `s.length`: JavaScript counts UTF-16 code units, so characters
      outside the Basic Multilingual Plane count twice. */
  function Utf16Length(s: string): (n: nat)
    ensures |s| <= n <= 2 * |s|
  {
    if |s| == 0 then 0
    else (if (s[0] as int) > 0xFFFF then 2 else 1) + Utf16Length(s[1..])
  }

  /** The positions of the characters outside the Basic Multilingual Plane,
      each of which UTF-16 writes as a surrogate pair. */
  ghost function AstralPositions(s: string): set<int> {
    set i | 0 <= i < |s| && (s[i] as int) > 0xFFFF
  }

  /** `s.length` is the number of characters plus one for every character
      above U+FFFF. */
  lemma Utf16LengthCountsAstral(s: string)
    ensures Utf16Length(s) == |s| + |AstralPositions(s)|
  {
    Utf16LengthPrefix(s, |s|);
    assert s[..|s|] == s;
  }

  lemma {:induction false} Utf16LengthPrefix(s: string, k: nat)
    requires k <= |s|
    ensures Utf16Length(s[..k]) == k + |set i | 0 <= i < k && (s[i] as int) > 0xFFFF|
  {
    if k > 0 {
      Utf16LengthPrefix(s, k - 1);
      Utf16LengthConcat(s[..k - 1], [s[k - 1]]);
      assert s[..k] == s[..k - 1] + [s[k - 1]];
      var before := set i | 0 <= i < k - 1 && (s[i] as int) > 0xFFFF;
      var after := set i | 0 <= i < k && (s[i] as int) > 0xFFFF;
      if (s[k - 1] as int) > 0xFFFF {
        assert after == before + {k - 1};
      } else {
        assert after == before;
      }
    }
  }

  /** UTF-16 lengths add up over concatenation. */
  lemma {:induction false} Utf16LengthConcat(a: string, b: string)
    ensures Utf16Length(a + b) == Utf16Length(a) + Utf16Length(b)
  {
    if |a| > 0 {
      Utf16LengthConcat(a[1..], b);
      assert (a + b)[1..] == a[1..] + b;
    } else {
      assert a + b == b;
    }
  }
}

=== FILE: validators.dfy ===
/** The browser-side field validators and phone formatters of the lead form
    (envia-rd.js): the email regular expression, the personal-domain
    blocklist, the digit-count phone check, the phone formatter and the
    as-you-type phone mask. */
module Validators {
  import opened Wrappers
  import opened Text

  // ---------------------------------------------------------------------
  // Character counting helpers

  function CountOf(s: string, c: char): nat {
    if |s| == 0 then 0 else (if s[0] == c then 1 else 0) + CountOf(s[1..], c)
  }

  /** Position of the first `c` in `s`. */
  function IndexOf(s: string, c: char): (k: nat)
    requires c in s
    ensures k < |s| && s[k] == c && c !in s[..k]
  {
    if s[0] == c then 0
    else
      assert c in s[1..] by { var j :| 0 <= j < |s| && s[j] == c; assert s[1..][j - 1] == c; }
      var k := 1 + IndexOf(s[1..], c);
      assert s[..k] == [s[0]] + s[1..][..k - 1];
      k
  }

  lemma {:induction false} CountZero(s: string, c: char)
    ensures CountOf(s, c) == 0 <==> c !in s
    decreases |s|
  {
    if |s| > 0 {
      CountZero(s[1..], c);
      assert s == [s[0]] + s[1..];
    }
  }

  /** `c` occurs exactly once iff its occurrence at `k` is the only one. */
  lemma {:induction false} CountOne(s: string, c: char, k: nat)
    requires k < |s| && s[k] == c
    ensures CountOf(s, c) == 1 <==> forall i :: 0 <= i < |s| && i != k ==> s[i] != c
    decreases |s|
  {
    CountZero(s[1..], c);
    if k == 0 {
      assert forall i :: 0 < i < |s| ==> s[i] == s[1..][i - 1];
    } else {
      CountOne(s[1..], c, k - 1);
      assert forall i :: 0 < i < |s| ==> s[i] == s[1..][i - 1];
      if s[0] == c {
        assert s[1..][k - 1] == c;
      }
    }
  }

  // ---------------------------------------------------------------------
  // Email shape (envia-rd.js:31-34, api/rd-station.js:86-87)

  /** `/^[^\s@]+@[^\s@]+\.[^\s@]+$/.test(s)`, decided directly: no
      whitespace, exactly one `@`, something before it, and after it a dot
      with at least one character on each side. */
  predicate IsValidEmail(s: string) {
    && NoSpace(s)
    && '@' in s
    && CountOf(s, '@') == 1
    && var k := IndexOf(s, '@');
       k > 0 && k + 4 <= |s| && '.' in s[k + 2..|s| - 1]
  }

  /** The regular expression read as a split of `s`: an `@` at `at` and a
      dot at `dot` delimiting three non-empty runs of characters that are
      neither whitespace nor `@`. */
  ghost predicate EmailSplit(s: string, at: int, dot: int) {
    && 0 < at && at + 1 < dot && dot + 1 < |s|
    && s[at] == '@' && s[dot] == '.'
    && forall i :: 0 <= i < |s| && i != at ==> !IsSpace(s[i]) && s[i] != '@'
  }

  ghost predicate MatchesEmailPattern(s: string) {
    exists at, dot :: EmailSplit(s, at, dot)
  }

  /** The direct decision agrees with the regular expression, both ways. */
  lemma EmailCheckMatchesPattern(s: string)
    ensures IsValidEmail(s) <==> MatchesEmailPattern(s)
  {
    if IsValidEmail(s) {
      var k := IndexOf(s, '@');
      CountOne(s, '@', k);
      var m := s[k + 2..|s| - 1];
      var j :| 0 <= j < |m| && m[j] == '.';
      assert s[k + 2 + j] == '.';
      assert EmailSplit(s, k, k + 2 + j);
    }
    if MatchesEmailPattern(s) {
      var at, dot :| EmailSplit(s, at, dot);
      CountOne(s, '@', at);
      var k := IndexOf(s, '@');
      assert k == at;
      assert s[k + 2..|s| - 1][dot - k - 2] == '.';
    }
  }

  // ---------------------------------------------------------------------
  // Personal-domain blocklist (envia-rd.js:37-58)

  /** The 27 personal email domains the form refuses. */
  const PersonalDomains: seq<string> := [
    "gmail.com", "yahoo.com", "hotmail.com", "outlook.com", "live.com",
    "icloud.com", "me.com", "aol.com", "msn.com", "terra.com.br",
    "uol.com.br", "bol.com.br", "ig.com.br", "r7.com", "globo.com",
    "globomail.com", "oi.com.br", "zipmail.com.br", "pop.com.br",
    "click21.com.br", "ibest.com.br", "superig.com.br", "yahoo.com.br",
    "hotmail.com.br", "outlook.com.br", "live.com.br", "msn.com.br"
  ]

  /** `email.split('@')[1]`: the text between the first `@` and the next
      one (or the end), or `undefined` when there is no `@`. */
  function DomainOf(email: string): (r: Option<string>)
    ensures r.None? <==> '@' !in email
    ensures r.Some? ==> '@' !in r.value
    ensures r.Some? ==>
              var i := IndexOf(email, '@');
              var e := i + 1 + |r.value|;
              e <= |email| && email[i + 1..e] == r.value && (e == |email| || email[e] == '@')
  {
    if '@' !in email then None
    else
      var i := IndexOf(email, '@');
      var rest := email[i + 1..];
      if '@' in rest then
        var j := IndexOf(rest, '@');
        assert email[i + 1..i + 1 + j] == rest[..j];
        Some(rest[..j])
      else Some(rest)
  }

  /** The first `c` is at `k` when `s[k]` is `c` and no earlier character is. */
  lemma IndexOfUnique(s: string, c: char, k: nat)
    requires k < |s| && s[k] == c && c !in s[..k]
    ensures IndexOf(s, c) == k
  {
  }

  /** Lower-casing the e-mail lower-cases its domain and nothing more: the
      `@` positions stay where they were. */
  lemma DomainOfLower(email: string)
    requires '@' in email
    ensures DomainOf(Lower(email)) == Some(Lower(DomainOf(email).value))
  {
    LowerKeepsAt(email);
    var l := Lower(email);
    var i := IndexOf(email, '@');
    assert '@' !in l[..i];
    IndexOfUnique(l, '@', i);
    var rest := email[i + 1..];
    var lrest := l[i + 1..];
    assert lrest == Lower(rest);
    LowerKeepsAt(rest);
    if '@' in rest {
      var j := IndexOf(rest, '@');
      assert '@' !in lrest[..j];
      IndexOfUnique(lrest, '@', j);
      assert lrest[..j] == Lower(rest[..j]);
    }
  }

  /** `isCorporateEmail`: false for an empty email; otherwise true unless
      the lower-cased domain is one of the personal domains. */
  function IsCorporateEmail(email: string): (r: bool)
    ensures email == "" ==> !r
    ensures email != "" && '@' !in email ==> r
    ensures email != "" && '@' in email ==> (r <==> Lower(DomainOf(email).value) !in PersonalDomains)
  {
    if email == "" then false
    else
      var d := DomainOf(Lower(email));
      assert '@' in email ==> d == Some(Lower(DomainOf(email).value)) by {
        if '@' in email {
          DomainOfLower(email);
        }
      }
      !(d.Some? && d.value in PersonalDomains)
  }

  lemma LowerKeepsAt(s: string)
    ensures forall i :: 0 <= i < |s| ==> (Lower(s)[i] == '@' <==> s[i] == '@')
    ensures ('@' in Lower(s)) <==> ('@' in s)
  {
    if '@' in s {
      var i :| 0 <= i < |s| && s[i] == '@';
      assert Lower(s)[i] == '@';
    }
    if '@' in Lower(s) {
      var i :| 0 <= i < |s| && Lower(s)[i] == '@';
      assert s[i] == '@';
    }
  }

  /** For a well-formed email the blocklist is consulted on the whole text
      after its single `@`, compared case-insensitively. */
  lemma CorporateOnValidEmail(email: string, at: nat)
    requires IsValidEmail(email)
    requires at < |email| && email[at] == '@'
    ensures IsCorporateEmail(email) <==> Lower(email[at + 1..]) !in PersonalDomains
  {
    CountOne(email, '@', IndexOf(email, '@'));
    var l := Lower(email);
    LowerKeepsAt(email);
    var k := IndexOf(l, '@');
    assert k == at;
    var rest := l[k + 1..];
    assert '@' !in rest;
    assert rest == Lower(email[at + 1..]);
  }

  /** Upper and lower case are treated alike. */
  lemma CorporateIgnoresCase(email: string)
    ensures IsCorporateEmail(Lower(email)) == IsCorporateEmail(email)
  {
    LowerIdempotent(email);
  }

  // ---------------------------------------------------------------------
  // Phone validation, formatting and mask (envia-rd.js:61-77, 917-932)

  /** `isValidPhone`: 10 or 11 digits, whatever else the text holds. */
  predicate IsValidPhone(phone: string) {
    10 <= |Digits(phone)| <= 11
  }

  /** Inserting or removing non-digit characters never changes validity. */
  lemma PhoneValidityIgnoresNonDigits(a: string, x: string, b: string)
    requires Digits(x) == ""
    ensures IsValidPhone(a + x + b) == IsValidPhone(a + b)
  {
    DigitsConcat(a + x, b);
    DigitsConcat(a, x);
    DigitsConcat(a, b);
  }

  /** `s` has the layout of `pattern`, where `#` stands for any digit and
      every other pattern character must appear literally. */
  predicate FitsPattern(s: string, pattern: string) {
    |s| == |pattern| &&
    forall i :: 0 <= i < |s| ==> if pattern[i] == '#' then IsDigit(s[i]) else s[i] == pattern[i]
  }

  const MobileLayout := "(##) #####-####"
  const LandlineLayout := "(##) ####-####"

  /** `formatPhone`: 11 digits as `(AB) CDEFG-HIJK`, 10 digits as
      `(AB) CDEF-GHIJ`, anything else returned unchanged. */
  function FormatPhone(phone: string): (r: string)
    ensures |Digits(phone)| == 11 ==> FitsPattern(r, MobileLayout)
    ensures |Digits(phone)| == 10 ==> FitsPattern(r, LandlineLayout)
    ensures !IsValidPhone(phone) ==> r == phone
  {
    var d := Digits(phone);
    if |d| == 11 then "(" + d[..2] + ") " + d[2..7] + "-" + d[7..11]
    else if |d| == 10 then "(" + d[..2] + ") " + d[2..6] + "-" + d[6..10]
    else phone
  }

  lemma DigitsAppend(x: string, y: string, dx: string)
    requires Digits(x) == dx
    ensures Digits(x + y) == dx + Digits(y)
  {
    DigitsConcat(x, y);
  }

  lemma DigitsOfGrouped(a: string, b: string, c: string)
    requires AllDigits(a) && AllDigits(b) && AllDigits(c)
    ensures Digits("(" + a + ") " + b + "-" + c) == a + b + c
  {
    DigitsOfDigits(a);
    DigitsOfDigits(b);
    DigitsOfDigits(c);
    var x1 := "(" + a;
    DigitsAppend("(", a, "");
    var x2 := x1 + ") ";
    DigitsAppend(x1, ") ", a);
    var x3 := x2 + b;
    DigitsAppend(x2, b, a);
    var x4 := x3 + "-";
    DigitsAppend(x3, "-", a + b);
    DigitsAppend(x4, c, a + b);
  }

  lemma DigitsOfPair(a: string, b: string)
    requires AllDigits(a) && AllDigits(b)
    ensures Digits("(" + a + ") " + b) == a + b
  {
    DigitsOfDigits(a);
    DigitsOfDigits(b);
    var x1 := "(" + a;
    DigitsAppend("(", a, "");
    var x2 := x1 + ") ";
    DigitsAppend(x1, ") ", a);
    DigitsAppend(x2, b, a);
  }

  /** Formatting keeps exactly the digits, in order. */
  lemma FormatPhoneKeepsDigits(phone: string)
    ensures Digits(FormatPhone(phone)) == Digits(phone)
  {
    var d := Digits(phone);
    if |d| == 11 {
      DigitsOfGrouped(d[..2], d[2..7], d[7..11]);
      assert d[..2] + d[2..7] + d[7..11] == d;
    } else if |d| == 10 {
      DigitsOfGrouped(d[..2], d[2..6], d[6..10]);
      assert d[..2] + d[2..6] + d[6..10] == d;
    }
  }

  /** Formatting a formatted number changes nothing. */
  lemma FormatPhoneIdempotent(phone: string)
    ensures FormatPhone(FormatPhone(phone)) == FormatPhone(phone)
  {
    FormatPhoneKeepsDigits(phone);
  }

  /** Formatting does not change whether a number is valid. */
  lemma FormatPhoneKeepsValidity(phone: string)
    ensures IsValidPhone(FormatPhone(phone)) == IsValidPhone(phone)
  {
    FormatPhoneKeepsDigits(phone);
  }

  /** The input-event transform of `applyPhoneMask`: the digits of the
      field, regrouped as the user types. Digits beyond the eleventh are
      kept after the formatted part, as the regular-expression replace
      leaves them untouched. */
  function PhoneMask(value: string): string {
    var d := Digits(value);
    if |d| >= 11 then "(" + d[..2] + ") " + d[2..7] + "-" + d[7..11] + d[11..]
    else if |d| >= 7 then "(" + d[..2] + ") " + d[2..6] + "-" + d[6..]
    else if |d| >= 3 then "(" + d[..2] + ") " + d[2..]
    else d
  }

  /** The characters the masked field can hold: digits and the layout's
      parentheses, space and hyphen. */
  predicate MaskText(s: string) {
    forall i :: 0 <= i < |s| ==> IsDigit(s[i]) || s[i] == '(' || s[i] == ')' || s[i] == ' ' || s[i] == '-'
  }

  lemma MaskTextConcat(a: string, b: string)
    requires MaskText(a) && MaskText(b)
    ensures MaskText(a + b)
  {
    forall i | 0 <= i < |a + b|
      ensures var c := (a + b)[i]; IsDigit(c) || c == '(' || c == ')' || c == ' ' || c == '-'
    {
      if i < |a| {
        assert (a + b)[i] == a[i];
      } else {
        assert (a + b)[i] == b[i - |a|];
      }
    }
  }

  /** Whatever was typed, the masked field holds only digits and layout
      characters: letters and other symbols are dropped. */
  lemma PhoneMaskCharset(value: string)
    ensures MaskText(PhoneMask(value))
  {
    var d := Digits(value);
    if |d| >= 3 {
      var a := d[..2];
      MaskTextConcat("(", a);
      MaskTextConcat("(" + a, ") ");
      if |d| >= 11 {
        MaskTextConcat("(" + a + ") ", d[2..7]);
        MaskTextConcat("(" + a + ") " + d[2..7], "-");
        MaskTextConcat("(" + a + ") " + d[2..7] + "-", d[7..11]);
        MaskTextConcat("(" + a + ") " + d[2..7] + "-" + d[7..11], d[11..]);
      } else if |d| >= 7 {
        MaskTextConcat("(" + a + ") ", d[2..6]);
        MaskTextConcat("(" + a + ") " + d[2..6], "-");
        MaskTextConcat("(" + a + ") " + d[2..6] + "-", d[6..]);
      } else {
        MaskTextConcat("(" + a + ") ", d[2..]);
      }
    }
  }

  /** The mask keeps exactly the typed digits, in order. */
  lemma PhoneMaskKeepsDigits(value: string)
    ensures Digits(PhoneMask(value)) == Digits(value)
  {
    var d := Digits(value);
    if |d| >= 11 {
      DigitsOfGrouped(d[..2], d[2..7], d[7..]);
      assert d[7..11] + d[11..] == d[7..];
      assert "(" + d[..2] + ") " + d[2..7] + "-" + d[7..11] + d[11..]
          == "(" + d[..2] + ") " + d[2..7] + "-" + d[7..];
      assert d[..2] + d[2..7] + d[7..] == d;
    } else if |d| >= 7 {
      DigitsOfGrouped(d[..2], d[2..6], d[6..]);
      assert d[..2] + d[2..6] + d[6..] == d;
    } else if |d| >= 3 {
      DigitsOfPair(d[..2], d[2..]);
      assert d[..2] + d[2..] == d;
    } else {
      DigitsOfDigits(d);
    }
  }

  /** Re-applying the mask to its own output changes nothing. */
  lemma PhoneMaskIdempotent(value: string)
    ensures PhoneMask(PhoneMask(value)) == PhoneMask(value)
  {
    PhoneMaskKeepsDigits(value);
  }

  /** Once 10 or 11 digits have been typed the mask shows exactly what
      `formatPhone` produces, for the typed text and for its digits. */
  lemma PhoneMaskAgreesWithFormat(value: string)
    requires IsValidPhone(value)
    ensures PhoneMask(value) == FormatPhone(value)
    ensures PhoneMask(value) == FormatPhone(Digits(value))
  {
    var d := Digits(value);
    DigitsOfDigits(d);
    if |d| == 11 {
      assert d[11..] == "";
    } else {
      assert d[6..] == d[6..10];
    }
  }
}

=== FILE: variants.dfy ===
/** The lead and Gemini handlers exist in several variants that check the
    same things in different orders. These lemmas state the differences
    for whole classes of requests. */
module Variants {
  import opened Wrappers
  import opened Http
  import opened LeadFields
  import opened Validators
  import RdGateway
  import RdPages
  import ExpressServer
  import DevServer
  import GeminiProxy
  import GeminiApi

  /** Without a token, a body lacking `nome` is refused for the token by
      the production handler (500) but for the field by the Next.js one
      (400), which checks fields first. */
  lemma TokenCheckedBeforeFieldsOnlyInProduction(b: RequestBody, envNames: seq<string>,
                                                 bearer: Outcome, apiKey: Outcome, upstream: Outcome)
    requires !Filled(Value(b, Nome))
    ensures RdGateway.Handle("POST", None, envNames, Some(b), bearer, apiKey).reply.Status() == 500
    ensures RdPages.Handle("POST", None, None, None, Some(b), upstream).reply.Status() == 400
  {
  }

  /** A complete lead with a malformed e-mail is stopped with 400, before
      any upstream call, by the production handler ... */
  lemma ProductionStopsMalformedEmail(b: RequestBody, token: string, bearer: Outcome, apiKey: Outcome)
    requires MissingIn(b) == [] && !IsValidEmail(LeadOf(b).email) && token != ""
    ensures RdGateway.Handle("POST", Some(token), [], Some(b), bearer, apiKey).reply.Status() == 400
    ensures RdGateway.Handle("POST", Some(token), [], Some(b), bearer, apiKey).calls == []
  {
  }

  /** ... while a body complete enough for the production handler always
      passes the Next.js handler's field check, whatever its e-mail. */
  lemma CompleteBodyPassesNextCheck(b: RequestBody)
    requires MissingIn(b) == []
    ensures RdPages.HasRequired(b)
  {
    assert Nome !in MissingIn(b) && Email !in MissingIn(b) && Celular !in MissingIn(b);
  }

  /** ... and both local servers report success for it. */
  lemma LocalServersAcceptAnyCompleteLead(b: RequestBody, tokens: DevServer.Tokens, upstream: Outcome)
    requires MissingIn(b) == []
    ensures ExpressServer.RdStation(b).status == 200
    ensures DevServer.RdStation(tokens, false, b, upstream).response.status == 200
  {
  }

  /** The three handlers that require all five fields report the same
      missing-field list for the same body. */
  lemma SameMissingFields(b: RequestBody, token: string, bearer: Outcome, apiKey: Outcome,
                          tokens: DevServer.Tokens, simulateRealCall: bool, upstream: Outcome)
    requires token != "" && MissingIn(b) != []
    ensures RdGateway.Handle("POST", Some(token), [], Some(b), bearer, apiKey).reply
            == RdGateway.Incomplete(MissingIn(b), b)
    ensures ExpressServer.RdStation(b).body == Some(ExpressServer.IncompleteBody(MissingIn(b)))
    ensures DevServer.RdStation(tokens, simulateRealCall, b, upstream).response.body
            == Some(DevServer.IncompleteBody(MissingIn(b), b))
  {
  }

  /** With neither a key nor a prompt, server.js answers 400 (prompt first)
      while dev-server.js and the Vercel handler answer 500 (key first). */
  lemma PromptAndKeyOrder(b: RequestBody, upstream: Outcome)
    requires !Filled(GeminiProxy.PromptOf(b))
    ensures ExpressServer.Gemini(None, b, upstream).response.status == 400
    ensures DevServer.Gemini(None, b, upstream).response.status == 500
    ensures GeminiApi.Handle("POST", None, Some(b), upstream).response.status == 500
  {
  }
}

=== FILE: wrappers.dfy ===
/** The optional-value datatype used throughout the model: `None` stands for
    a JavaScript `undefined` (an absent property, an unset environment
    variable, a missing DOM element). */
module Wrappers {

  datatype Option<+T> = None | Some(value: T) {

    /** The value in `Some`, or `default` when absent. */
    function GetOr(default: T): T {
      match this
      case Some(v) => v
      case None => default
    }
  }

  /** The outcome of an operation that may throw: its value, or what it
      threw. */
  datatype Result<+T, +E> = Success(value: T) | Failure(error: E)
}
